=== FILE: README.md ===
# CatPaw-Downloader updater core in Dafny

A Dafny model of the core of the CatPaw downloader's client-side updater, `gui-py311.py`. The model covers six parts.

- **Range planner** (`ranges.dfy`, module `RangePlanner`): how `download_task` cuts `total_size` bytes into `num_threads` inclusive byte ranges. The last range takes the remainder.
- **Part files and merge** (`parts.dfy`, `download.dfy`, `range_requests.dfy`; modules `PartFiles`, `Download`, `RangeRequests`).
  - Worker `i` writes `save_path + ".part" + i`.
  - The merger reads the index back out of each part path, sorts by it, concatenates the parts into `save_path` and deletes them.
  - The file system is a `map<string, seq<bv8>>`.
  - Workers may finish in any order. `order` is a parameter.
  - What each ranged request returns is a parameter (`Transfer`). `RangeRequests` adds a server that honours byte ranges.
- **Version manifest** (`manifest.dfy`, module `Manifest`).
  - The `fetch_versions` line parser over `[label]` sections with `ver=`, `changelog=`, `level=` and `url=` lines.
  - `VersionInfo`, which decodes `\n` escapes in the changelog.
  - The rule that picks the version selected for download and enables the button, and `on_version_select`.
- **Update feed** (`update_feed.dfy`, module `UpdateFeed`).
  - The `check_for_updates` parser for the flat `ver=` / `changelog=` / `ver_code=` / `url=` / `notice=` feed.
  - The decision whether to offer the update.
- **Progress** (`tracker.dfy`, `clock.dfy`; modules `Progress`, `Clock`).
  - `DownloadTracker.update` and `get_progress`. Clock readings are parameters and floats are reals.
  - `_format_time`, with a strict reader for its three output forms as the partner. The reader accepts exactly the texts `_format_time` writes.
- **Update files** (`update_files.dfy`, module `UpdateFiles`).
  - `create_update_files`: the side file naming the old and the new program, and the `update.bat` script.
  - Both are written in text mode, so this module's files are a `map<string, string>`. The download's part files are bytes, a `map<string, seq<bv8>>`. The encoding between the two is left out.
  - `os.path.basename` and `os.path.dirname` as `ntpath` computes them.
  - A simplified `cmd.exe` argument splitter, to say what the script's commands receive.

Shared helpers are kept separate:
- `common.dfy`: `Option`, Python truthiness, sums.
- `text.dfy`: `str.strip`, `splitlines`, `split`, and the `\n` escape decoding with its encoder.
- `decimal.dfy`: `str(int)`, and `int()` on ASCII text, including Python's 4300-digit conversion limit.

Where the code's behaviour is surprising, the model follows the code as written:
- A file smaller than the number of threads still gets `num_threads` ranges. All but the last are the empty range `(0, -1)`.
- A manifest header flushes the pending record whenever the current label is non-empty, even without a `url=`. Only the flush at the end of the text needs a url.
- A `level=` value `int()` cannot parse aborts the whole `fetch_versions` call, not only its record. The versions already appended stay, and the selection is not touched.
- A version without a `level=` line counts as selectable, because `None != 0`.
- A header whose previous label was empty does not reset the changelog, so that changelog carries into the next record.
- A failed worker or merge cleans nothing up. There is no cancellation and no rollback.
- In the update feed, continuation lines are appended without `\n` decoding.
- When `version.parse` raises, the notice is not shown either.

## Model

| member | source | states |
|---|---|---|
| RangePlanner.Plan | gui-py311.py:771-777 | one range per worker with its own index; the ranges are contiguous from byte 0 to byte `total - 1`; every range but the last has `total // n` bytes, and the last has `total // n + total % n` |
| RangePlanner.PlanLengthsSum | gui-py311.py:771-777 | the range lengths add up to the file size |
| RangePlanner.PlanPartitions | gui-py311.py:771-777 | every byte of the file lies in exactly one range: range `i` contains the byte iff `i` is that byte's owner |
| RangePlanner.SmallFilePlan | gui-py311.py:751-777 | with fewer bytes than workers, every range but the last is `(0, -1)` and the last covers the whole file |
| RangePlanner.PlanExample | gui-py311.py:771-777 | 1,000,000 bytes over 4 workers give the four 250,000-byte ranges |
| PartFiles.PartPathKey | gui-py311.py:784 | the sort key read back from `save_path.part<i>` is `i`, whatever dots or "part" the save path contains, for every `i` whose digits `str()` can write |
| PartFiles.PartPathInjective | gui-py311.py:759 | two workers never share a part path |
| PartFiles.PartPathNotSavePath | gui-py311.py:759 | no part path is the destination path |
| PartFiles.KeyAll | gui-py311.py:784 | every path gets a key iff each path's suffix parses as an integer; the key is the one the lambda computes |
| PartFiles.Sort | gui-py311.py:784 | the sort result is a permutation of its input, ordered by key |
| PartFiles.SortParts | gui-py311.py:784 | sorting succeeds iff every path has an integer key; the result is then the input paths rearranged, in non-decreasing key order |
| PartFiles.SortRecoversIndexOrder | gui-py311.py:784 | part paths collected in any worker order sort back into index order |
| Download.WrittenAt | gui-py311.py:759-766 | exactly the workers that opened their part file have one, holding what they wrote |
| Download.RunWorkers | gui-py311.py:753-766 | after the workers, the file system is the old one overlaid with each worker's part file |
| Download.WorkersOrderIndependent | gui-py311.py:779-781 | the files after the workers do not depend on the order in which they finished |
| Download.MergeInto | gui-py311.py:783-787 | the merge succeeds iff all parts exist and are distinct; the destination then ends with their concatenation in list order and the parts are gone; on failure, the parts before the missing one were appended and removed |
| Download.MergeParts | gui-py311.py:783-787 | opening the destination with `'wb'` truncates it, so it then holds exactly the concatenation of the parts, which are deleted |
| Download.FirstFailure | gui-py311.py:781 | the error re-raised is that of the lowest-indexed worker that did not complete |
| Download.DownloadTask | gui-py311.py:768-787 | for worker indices `str()` can write, the task succeeds iff every worker completed, and the destination then holds their data in index order with all part files gone; otherwise the first failing worker is reported, the part files stay behind and nothing else in the file system changes |
| Download.ConcatOfParts | gui-py311.py:783-787 | concatenating the part files in index order gives the workers' data in index order |
| Download.DownloadedSize | gui-py311.py:771-787 | when every worker received exactly its range's bytes, the merged file has exactly `total_size` bytes |
| RangeRequests.RangeHeaderValid | gui-py311.py:755 | the header of a non-empty range reads back as exactly that range |
| RangeRequests.RangeHeaderInvalid | gui-py311.py:755 | the header of an empty range is not a valid byte range |
| RangeRequests.Respond | gui-py311.py:756-757 | a valid range inside the file returns those bytes; an invalid one returns the whole file or is refused, as the server's policy says |
| RangeRequests.AsWrittenMissingLength | gui-py311.py:720 | a response without `Content-Length` gives size 0, and then every worker, the last one included, sends the invalid `bytes=0--1` |
| RangeRequests.AsWrittenSendsInvalidRange | gui-py311.py:755 | with fewer bytes than workers, the empty ranges are sent as `bytes=0--1`, which is invalid |
| RangeRequests.AsWrittenDuplicatesSmallFile | gui-py311.py:751-787 | a server that ignores the invalid header makes the merged file the whole file repeated `num_threads` times |
| RangeRequests.AsWrittenExample | gui-py311.py:751-787 | a 3-byte file over 4 workers is saved as 12 bytes |
| RangeRequests.AsWrittenFailsSmallFile | gui-py311.py:755-781 | a server that refuses the invalid header makes the 3-byte download fail at worker 0 |
| RangeRequests.CorrectedData | gui-py311.py:771-787 | when empty ranges are not requested, every worker completes and their bytes, joined in index order, are exactly the server's file |
| RangeRequests.CorrectedDownload | gui-py311.py:768-787 | when empty ranges are not requested, the merged file equals the server's file for every size, thread count, policy and finishing order |
| RangeRequests.CorrectionOnlyForSmallFiles | gui-py311.py:771-777 | the correction changes nothing when the file has at least as many bytes as there are workers |
| Manifest.MakeVersionInfo | gui-py311.py:136-142 | a record keeps its fields, and its changelog holds no backslash-n pair; a changelog without such pairs is kept as is |
| Manifest.ClassifyStripped | gui-py311.py:434-454 | a stripped line is a header iff it is bracketed, and a key line iff it starts with that key's prefix, tested in source order; the level number is `int()` of the value, which refuses more than 4300 digits |
| Manifest.Step | gui-py311.py:435-454 | how one line moves the parser: a header flushes the record iff the label is truthy, a bad level stops, `changelog=` opens the continuation, and other lines append while it is open |
| Manifest.Run | gui-py311.py:433-454 | the scan stops with an error iff some line is a bad `level=` |
| Decimal.ParseTooManyDigits | gui-py311.py:450 | `int()` refuses a run of more than 4300 digits, even one of zeros, as Python's default conversion limit does |
| Manifest.ParseKinds | gui-py311.py:433-457 | the parse fails iff `int()` refuses some `level=` value (not an integer, or more than 4300 digits); every changelog it returns is decoded |
| Manifest.RunEntries | gui-py311.py:435-439 | the records appended during the scan are the non-empty labels that a later header follows |
| Manifest.RunVersion | gui-py311.py:439 | the current label is the last header's label, and none before the first header |
| Manifest.RunField | gui-py311.py:444-452 | `ver=` and `url=` hold the value of the last such line in the current section, or nothing |
| Manifest.RunLevel | gui-py311.py:449-450 | `level=` holds the number of the last such line in the current section, or nothing |
| Manifest.RunChangelog | gui-py311.py:446-454 | the changelog is the decoded value of the section's last `changelog=` line followed by every later non-key line |
| Manifest.RunChangelogOpen | gui-py311.py:435-454 | lines are appended to the changelog exactly when the current section has a `changelog=` line; a header closes the continuation |
| Manifest.ParsedVersions | gui-py311.py:435-457 | the versions are the flushed labels, plus the last label when it and its last `url=` are non-empty |
| Manifest.ParsedRecords | gui-py311.py:435-457 | each listed version holds its own section: the record a header appends after `j` others carries the label, the latest `ver=`, `level=` and `url=` values and the continued changelog of the section that header closes (empty when that section has no `changelog=` line and its own header flushed a named section), and the final record those of the last section |
| Manifest.FailedRecords | gui-py311.py:433-454 | when `int()` refuses a `level=` value, the versions kept are the records appended before the first such line, each holding its own section |
| Manifest.ChangelogResetExample | gui-py311.py:434-438 | a section after a flushed named section does not inherit that section's changelog: with no `changelog=` line of its own, no non-empty changelog describes it |
| Manifest.ParseExample | gui-py311.py:433-457 | a two-section manifest with a continued changelog and a level-0 section parses into the two expected records |
| Manifest.FirstEnabled | gui-py311.py:499-501 | the first version whose level is not 0, or none |
| Manifest.DefaultSelection | gui-py311.py:499-508 | the download is enabled iff some version is selectable, and then the first such version is selected; otherwise the previous choice stays |
| Manifest.FetchVersions | gui-py311.py:433-511 | the version list is the parse's; after a successful parse the selection is the default one for the new list, and a bad level leaves the selection untouched |
| Manifest.OnVersionSelect | gui-py311.py:513-518 | a level-0 version disables the download and keeps the previous choice; any other becomes the choice |
| Manifest.SelectionStaysConsistent | gui-py311.py:481-518 | the download button is only ever enabled with a selectable version chosen |
| UpdateFeed.ClassifyStripped | gui-py311.py:567-580 | a key line is that key's prefix followed by its value; any other line starts with no key prefix |
| UpdateFeed.RunField | gui-py311.py:566-576 | `ver=`, `ver_code=` and `url=` hold the value of their last line in the feed, or nothing |
| UpdateFeed.RunNotice | gui-py311.py:577-578 | the notice is the decoded value of the last `notice=` line, or empty |
| UpdateFeed.RunChangelogOpen | gui-py311.py:570-580 | continuation lines are collected iff some `changelog=` line was seen; without one the changelog is empty |
| UpdateFeed.RunChangelog | gui-py311.py:570-580 | the changelog is the decoded value of the last `changelog=` line followed by every later non-key line, undecoded |
| UpdateFeed.CheckForUpdates | gui-py311.py:582-591 | the update is offered iff version, changelog, version code and url are all non-empty and the version is newer; a version that cannot be parsed fails the check; otherwise the notice is shown |
| UpdateFeed.OfferedUpdate | gui-py311.py:566-584 | the offered update carries the values of the last line of each key |
| UpdateFeed.NoUrlNoOffer | gui-py311.py:582 | a feed without a `url=` line offers nothing and still shows its notice |
| Progress.GetProgress | gui-py311.py:97-113 | the percentage is 0 for an unknown size, else downloaded/total times 100; the speed is the bytes since the previous poll over the time since it; the baseline moves to now; the remaining time is what is left over the speed, or 0; a zero divisor raises |
| Progress.PercentBound | gui-py311.py:100 | the percentage is at most 100 iff no more bytes than the announced size have arrived |
| Progress.ReplayCounts | gui-py311.py:93-113 | under any interleaving of chunks and polls, the count is the sum of the chunk sizes and the baseline never runs ahead of it |
| Progress.ChunkOrderIrrelevant | gui-py311.py:93-95 | chunks arriving in another order give the same count |
| Progress.SpeedNonNegative | gui-py311.py:101-105 | polled forward in time, the speed is never negative, and neither is the remaining time unless the count overshot the size |
| Clock.ToFields | gui-py311.py:126-128 | the days, hours, minutes and seconds are in range and add up to the whole seconds |
| Clock.Pad2 | gui-py311.py:130-133 | `:02` gives digits whose value is the number, exactly two below 100 |
| Clock.FormatTime | gui-py311.py:123-133 | a time that is not positive shows `--:--`, which reads as nothing; a positive time shows text starting with a digit that the strict reader `ReadTime` reads back as its whole seconds. That reader accepts only minutes and seconds below 60, hours below 24 (and non-zero in the `HH:MM:SS` form) and a positive day count without leading zeros |
| Clock.ReadFormatTime | gui-py311.py:123-133 | for a positive time, a text reads back as its whole seconds exactly when it is the text `_format_time` shows, so no other text the reader accepts stands for the same seconds |
| Clock.ReadTimeExact | gui-py311.py:126-133 | every text the reader accepts is the display of the fields `divmod` yields for the value read: padded two-digit fields, the form chosen by days and hours |
| Clock.ReadTimeRejects | gui-py311.py:129-133 | `01:99`, `24:00:00` and `01天 00:00:00` are not texts `_format_time` writes, and the reader refuses them |
| Clock.FormatLength | gui-py311.py:129-133 | `MM:SS` is used below an hour, `HH:MM:SS` below a day, and the day form beyond |
| UpdateFiles.PathParts | gui-py311.py:816-818 | dirname and basename cut the path in two with only separators between them; the basename has no separator and reaches back to the last separator or the drive |
| UpdateFiles.PathExample | gui-py311.py:816-818 | `C:\Games\CatPaw\gui.exe` splits into `C:\Games\CatPaw` and `gui.exe` |
| UpdateFiles.ReadWrittenDescriptor | gui-py311.py:809-811 | the side file reads back as the two programs' paths when neither path has a line break |
| UpdateFiles.ScriptHasFiveLines | gui-py311.py:814-819 | the script is exactly its five lines when the paths have no line breaks |
| UpdateFiles.ScriptJoinsCommands | gui-py311.py:815-819 | after `@echo off`, each script line is the words of taskkill, del, move and the relaunch joined by spaces |
| UpdateFiles.CreateUpdateFiles | gui-py311.py:805-819 | both files are written with their contents, and no other file changes |
| UpdateFiles.CommandLineTokens | gui-py311.py:814-819 | arguments quoted where needed are split by `cmd.exe` back into exactly those arguments |
| UpdateFiles.AsWrittenSplitsPath | gui-py311.py:817 | an old program path with a space reaches `del` as two arguments, not as the path |
| UpdateFiles.QuotedScriptArgs | gui-py311.py:814-819 | in the quoted script every command receives exactly its intended arguments |
| UpdateFiles.QuotingOnlyWhereNeeded | gui-py311.py:814-819 | when no argument needs quotes, the quoted script is the script as written |

## Left out

- HTTP: requests, the status checks, the network. A worker's outcome and the server are inputs (`Transfer`, `RangeRequests.Respond`).
- The `iter_content` chunking. A worker's data is modelled as a whole.
- Threads, `ThreadPoolExecutor` and the tracker's `Lock`. Each tracker update or poll is one atomic event. Finishing order is a parameter.
- `time.time()`. The two readings in `get_progress` are the parameters `now1` and `now2`. The unused `elapsed` reading is left out.
- Python floats. They are exact reals, so `Progress.GetProgress` can report a zero divisor that real timestamps never reach.
- `DownloadTracker._human_size`, since it is display only and has nothing to prove.
- The tkinter interface: the level 2 and 3 badges, the changelog window and the "already up to date" message box.
- `update_progress`'s 0.4-second throttle: it is UI timing.
- The choice of feed file by processor architecture (lines 545-555). It is configuration, not logic.
- `version.parse` from `packaging`. It is the parameter `isNewer` of `UpdateFeed.CheckForUpdates`.
- 7z extraction, `subprocess` launching the script and process exit: these are external programs.
- Cleanup of stale side files on close. It deletes files and holds no logic worth proving.
- `int()` accepts only ASCII digits with an optional sign, surrounding whitespace and underscores between digits, at most 4300 of them. Python also accepts other Unicode decimal digits.
- `str()` of an integer with more than 4300 digits raises `ValueError` in Python. The model's `NatToString` writes the digits anyway. The download lemmas (`Download.DownloadTask`, `PartFiles.SortRecoversIndexOrder`, `PartFiles.PartPathKey`) therefore require every worker index to be within that limit (`IndicesWithinLimit`), which is where the source can build the part paths at all. Range headers are built with `str()` of byte offsets and are not bounded this way.
- The file system never fails. `open`, `write` and `os.remove` in the download (lines 759-787) and in `create_update_files` (lines 805-819) can raise on a full disk, missing permissions or a path the locale encoding cannot write. `Download.MergeInto`, `Download.DownloadTask` and `UpdateFiles.CreateUpdateFiles` state what happens when they succeed.
- Manifest.ParsedRecords: a section without its own `changelog=` line gets an empty changelog in `RecordOf` when its header flushed a named section or when no `changelog=` line came before. The remaining case is left open: the changelog carried over past a header with an empty label (`[]`) or from lines before the first header. The code keeps that text, and `RecordOf` does not say what it is.
- Manifest.FailedRecords: the records it describes use the same `RecordOf`, so the carried-over changelog after an empty label or from lines before the first header is left open there too.
- `ntpath` is modelled for drive-letter paths. UNC paths (`\\server\share`) are left out.
- Writing in text mode on Windows turns `\n` into `\r\n`. The model keeps `\n`.
- `RangeRequests.ParseRange` reads only `bytes=<first>-<last>`. Open-ended, suffix and multi-range forms never occur in the requests modelled.
- `UpdateFiles.Tokens`: `cmd.exe` splitting is simplified to delimiters (space, tab, `,`, `;`, `=`) and double quotes that toggle quoting. Carets, `%` expansion and `&`/`|` are not modelled.

## Findings

| source | as written | input that shows it | evidently intended | confidence | as-written member | corrected member |
|---|---|---|---|---|---|---|
| gui-py311.py:751-777 | a file with fewer bytes than threads gives every worker but the last the range `(0, -1)`, and the worker sends `Range: bytes=0--1` | a 3-byte file downloaded with 4 threads | empty ranges are not requested, and the merged file equals the server's file | not executed | RangeRequests.AsWrittenDuplicatesSmallFile | RangeRequests.CorrectedDownload |
| gui-py311.py:817 | the batch script writes paths unquoted (`del /F /Q {path}`, and likewise taskkill, move and the relaunch), so `cmd.exe` splits a path at spaces | the old program at `C:\My Apps\a.exe` | every path reaches its command as one argument | not executed | UpdateFiles.AsWrittenSplitsPath | UpdateFiles.QuotedScriptArgs |

The first finding depends on the server. `bytes=0--1` is not a valid byte-range-spec under section 14.1.2 of RFC 9110. Section 14.2 lets a server ignore such a header, and it then sends the whole file with status 200. Each of the first three workers stores that copy as its part. The last worker's range is the whole file. So the merged file is the original repeated four times (`RangeRequests.AsWrittenExample`: 12 bytes). A server that rejects the header instead makes the download fail (`RangeRequests.AsWrittenFailsSmallFile`). In the corrected task, an empty range requests nothing and leaves an empty part. It differs from the code only for files smaller than the thread count (`RangeRequests.CorrectionOnlyForSmallFiles`). The same input arises without a small file: line 720 reads a missing `Content-Length` header as size 0, and then every worker, the last one included, sends `bytes=0--1` (`RangeRequests.AsWrittenMissingLength`).

=== FILE: clock.dfy ===
/** `_format_time`: the remaining time as `MM:SS`, `HH:MM:SS` or
    `<days>天 HH:MM:SS`, or `--:--` when there is no estimate. A reader for
    the three forms serves as its inverse. */
module Clock {
  import opened Common
  import opened Decimal

  /** The whole seconds, minutes, hours and days of `secs` seconds, as the
      chain of `divmod` calls yields them. */
  datatype Fields = Fields(days: nat, hours: nat, minutes: nat, seconds: nat)

  function ToFields(total: nat): (f: Fields)
    ensures f.hours < 24 && f.minutes < 60 && f.seconds < 60
    ensures f.days * 86400 + f.hours * 3600 + f.minutes * 60 + f.seconds == total
  {
    var minutes := total / 60;
    var hours := minutes / 60;
    Fields(hours / 24, hours % 24, minutes % 60, total % 60)
  }

  /** `f"{n:02}"`: at least two digits, padded with a zero. */
  function Pad2(n: nat): (s: string)
    ensures |s| > 0 && AllDigits(s) && DigitsValue(s) == n
    ensures n < 100 ==> |s| == 2
  {
    DigitsValueOfNat(n);
    if n < 10 then
      var s := "0" + NatToString(n);
      DigitsValueTwo(s);
      s
    else NatToString(n)
  }

  lemma DigitsValueTwo(s: string)
    requires |s| == 2 && AllDigits(s)
    ensures DigitsValue(s) == DigitValue(s[0]) * 10 + DigitValue(s[1])
  {
    var head := s[..1];
    assert s[..|s| - 1] == head && s[|s| - 1] == s[1];
    assert head[..0] == [] && head[0] == s[0];
    assert DigitsValue(head) == DigitValue(s[0]);
  }

  /** `_format_time(seconds)`, the seconds being a non-negative float or
      any other real. What a positive time shows is read back by `ReadTime`,
      which accepts only minutes and seconds below 60, hours below 24 and a
      day count without leading zeros. */
  function FormatTime(secs: real): (s: string)
    ensures secs <= 0.0 ==> s == "--:--" && ReadTime(s).None?
    ensures secs > 0.0 ==> |s| > 0 && IsDigit(s[0])
    ensures secs > 0.0 ==> ReadTime(s) == Some(secs.Floor)
  {
    if secs <= 0.0 then
      assert !IsDigit("--:--"[0]);
      "--:--"
    else
      var f := ToFields(secs.Floor);
      ReadFields(f);
      Formatted(f)
  }

  /** The text for a positive count of seconds, by the largest non-zero
      field among days and hours. */
  function Formatted(f: Fields): (s: string)
    ensures |s| > 0 && IsDigit(s[0])
  {
    var hms := Pad2(f.hours) + ":" + Pad2(f.minutes) + ":" + Pad2(f.seconds);
    if f.days > 0 then NatToString(f.days) + "天 " + hms
    else if f.hours > 0 then hms
    else Pad2(f.minutes) + ":" + Pad2(f.seconds)
  }

  // ---------------------------------------------------------------------------
  // Reading a formatted time back

  /** Two digits at `i` and `i + 1`. */
  function Pair(s: string, i: nat): Option<nat>
    requires i + 2 <= |s|
  {
    if IsDigit(s[i]) && IsDigit(s[i + 1]) then Some(DigitValue(s[i]) * 10 + DigitValue(s[i + 1])) else None
  }

  /** `MM:SS` in seconds, minutes and seconds below 60. */
  function ReadMinutes(s: string): Option<nat> {
    if |s| == 5 && s[2] == ':' && Pair(s, 0).Some? && Pair(s, 3).Some?
       && Pair(s, 0).value < 60 && Pair(s, 3).value < 60
    then
      Some(Pair(s, 0).value * 60 + Pair(s, 3).value)
    else None
  }

  /** `HH:MM:SS` in seconds, hours below 24. */
  function ReadHours(s: string): Option<nat> {
    if |s| == 8 && s[2] == ':' && Pair(s, 0).Some? && Pair(s, 0).value < 24 then
      match ReadMinutes(s[3..])
      case Some(rest) => Some(Pair(s, 0).value * 3600 + rest)
      case None => None
    else None
  }

  /** The seconds a formatted time stands for; `None` for `--:--` and for
      anything `FormatTime` does not produce: the hour form needs a
      non-zero hour, and the day form a positive day count written without
      leading zeros. */
  function ReadTime(s: string): Option<nat> {
    if |s| == 5 then ReadMinutes(s)
    else if |s| == 8 then (if Pair(s, 0) == Some(0) then None else ReadHours(s))
    else if |s| > 10 && s[|s| - 10] == '天' && s[|s| - 9] == ' ' && DayCount(s[..|s| - 10]) then
      match ReadHours(s[|s| - 8..])
      case Some(rest) => Some(DigitsValue(s[..|s| - 10]) * 86400 + rest)
      case None => None
    else None
  }

  /** The digits of a positive day count as `str()` writes it. */
  predicate DayCount(d: string) {
    AllDigits(d) && DigitsValue(d) > 0 && NatToString(DigitsValue(d)) == d
  }

  lemma PairOfPad2(s: string, i: nat, n: nat)
    requires n < 100 && i + 2 <= |s| && s[i..i + 2] == Pad2(n)
    ensures Pair(s, i) == Some(n)
  {
    var p := Pad2(n);
    assert s[i] == p[0] && s[i + 1] == p[1];
    assert DigitsValue(p) == DigitValue(p[0]) * 10 + DigitValue(p[1]) by {
      DigitsValueTwo(p);
    }
  }

  lemma ReadMinutesOf(m: nat, sec: nat)
    requires m < 60 && sec < 60
    ensures ReadMinutes(Pad2(m) + ":" + Pad2(sec)) == Some(m * 60 + sec)
  {
    var s := Pad2(m) + ":" + Pad2(sec);
    assert s[0..2] == Pad2(m);
    assert s[3..5] == Pad2(sec);
    PairOfPad2(s, 0, m);
    PairOfPad2(s, 3, sec);
  }

  lemma ReadHoursOf(h: nat, m: nat, sec: nat)
    requires h < 24 && m < 60 && sec < 60
    ensures var s := Pad2(h) + ":" + Pad2(m) + ":" + Pad2(sec);
      && Pair(s, 0) == Some(h)
      && ReadHours(s) == Some(h * 3600 + m * 60 + sec)
  {
    var s := Pad2(h) + ":" + Pad2(m) + ":" + Pad2(sec);
    assert s[0..2] == Pad2(h);
    assert s[3..] == Pad2(m) + ":" + Pad2(sec);
    PairOfPad2(s, 0, h);
    ReadMinutesOf(m, sec);
  }

  lemma ReadDays(d: nat, hms: string)
    requires d > 0 && |hms| == 8
    ensures ReadTime(NatToString(d) + "天 " + hms)
         == match ReadHours(hms) case Some(rest) => Some(d * 86400 + rest) case None => None
  {
    var digits := NatToString(d);
    DigitsValueOfNat(d);
    ReadDayForm(digits, hms);
  }

  lemma ReadDayForm(digits: string, hms: string)
    requires DayCount(digits) && |hms| == 8
    ensures ReadTime(digits + "天 " + hms)
         == match ReadHours(hms) case Some(rest) => Some(DigitsValue(digits) * 86400 + rest) case None => None
  {
    DaySlices(digits, hms);
  }

  /** Where the day form's parts sit in its text. */
  lemma DaySlices(digits: string, hms: string)
    requires |digits| > 0 && |hms| == 8
    ensures var s := digits + "天 " + hms;
      && |s| > 10 && s[..|s| - 10] == digits && s[|s| - 8..] == hms
      && s[|s| - 10] == '天' && s[|s| - 9] == ' '
  {
    var s := digits + "天 " + hms;
    assert s[..|s| - 10] == digits;
    assert s[|s| - 8..] == hms;
  }

  /** The form `FormatTime` picks for a count of seconds, read back. */
  lemma ReadFields(f: Fields)
    requires f.hours < 24 && f.minutes < 60 && f.seconds < 60
    ensures ReadTime(Formatted(f)) == Some(f.days * 86400 + f.hours * 3600 + f.minutes * 60 + f.seconds)
  {
    if f.days > 0 {
      ReadDayFields(f);
    } else if f.hours > 0 {
      ReadHourFields(f);
    } else {
      ReadMinuteFields(f);
    }
  }

  lemma ReadDayFields(f: Fields)
    requires f.days > 0 && f.hours < 24 && f.minutes < 60 && f.seconds < 60
    ensures ReadTime(Formatted(f)) == Some(f.days * 86400 + f.hours * 3600 + f.minutes * 60 + f.seconds)
  {
    var hms := Pad2(f.hours) + ":" + Pad2(f.minutes) + ":" + Pad2(f.seconds);
    ReadHoursOf(f.hours, f.minutes, f.seconds);
    ReadDays(f.days, hms);
  }

  lemma ReadHourFields(f: Fields)
    requires f.days == 0 && 0 < f.hours < 24 && f.minutes < 60 && f.seconds < 60
    ensures ReadTime(Formatted(f)) == Some(f.hours * 3600 + f.minutes * 60 + f.seconds)
  {
    ReadHoursOf(f.hours, f.minutes, f.seconds);
  }

  lemma ReadMinuteFields(f: Fields)
    requires f.days == 0 && f.hours == 0 && f.minutes < 60 && f.seconds < 60
    ensures ReadTime(Formatted(f)) == Some(f.minutes * 60 + f.seconds)
  {
    ReadMinutesOf(f.minutes, f.seconds);
  }

  /** For a positive time, a text reads back as its whole seconds exactly
      when it is what `FormatTime` shows; `--:--` reads as nothing. */
  lemma ReadFormatTime(s: string, secs: real)
    ensures secs > 0.0 ==> (ReadTime(s) == Some(secs.Floor) <==> s == FormatTime(secs))
    ensures ReadTime("--:--").None?
  {
    assert !IsDigit("--:--"[0]);
    if secs > 0.0 && ReadTime(s) == Some(secs.Floor) {
      ReadTimeExact(s);
    }
  }

  /** The reader accepts only the texts the formatter writes: whatever it
      reads as `n` seconds is the display of `n`'s fields. */
  lemma ReadTimeExact(s: string)
    requires ReadTime(s).Some?
    ensures s == Formatted(ToFields(ReadTime(s).value))
  {
    var f;
    if |s| == 5 {
      f := ExactMinutes(s);
    } else if |s| == 8 {
      f := ExactHours(s);
    } else {
      f := ExactDays(s);
    }
    FormattedSum(f, ReadTime(s).value);
  }

  lemma FormattedSum(f: Fields, n: nat)
    requires f.hours < 24 && f.minutes < 60 && f.seconds < 60
    requires n == f.days * 86400 + f.hours * 3600 + f.minutes * 60 + f.seconds
    ensures Formatted(ToFields(n)) == Formatted(f)
  {
    FieldsOf(f.days, f.hours, f.minutes, f.seconds);
  }

  lemma ExactMinutes(s: string) returns (f: Fields)
    requires |s| == 5 && ReadTime(s).Some?
    ensures f.hours < 24 && f.minutes < 60 && f.seconds < 60
    ensures ReadTime(s) == Some(f.days * 86400 + f.hours * 3600 + f.minutes * 60 + f.seconds)
    ensures s == Formatted(f)
  {
    var m, sec := MinutesText(s);
    f := Fields(0, 0, m, sec);
  }

  lemma ExactHours(s: string) returns (f: Fields)
    requires |s| == 8 && ReadTime(s).Some?
    ensures f.hours < 24 && f.minutes < 60 && f.seconds < 60
    ensures ReadTime(s) == Some(f.days * 86400 + f.hours * 3600 + f.minutes * 60 + f.seconds)
    ensures s == Formatted(f)
  {
    var h, m, sec := HoursText(s);
    f := Fields(0, h, m, sec);
  }

  lemma ExactDays(s: string) returns (f: Fields)
    requires |s| != 5 && |s| != 8 && ReadTime(s).Some?
    ensures f.hours < 24 && f.minutes < 60 && f.seconds < 60
    ensures ReadTime(s) == Some(f.days * 86400 + f.hours * 3600 + f.minutes * 60 + f.seconds)
    ensures s == Formatted(f)
  {
    var digits := s[..|s| - 10];
    var tail := s[|s| - 8..];
    assert s == digits + "天 " + tail;
    var h, m, sec := HoursText(tail);
    var d := DigitsValue(digits);
    f := Fields(d, h, m, sec);
  }

  /** Out-of-range fields and a zero-padded day count are not displays. */
  lemma ReadTimeRejects()
    ensures ReadTime("01:99").None? && ReadTime("24:00:00").None?
    ensures ReadTime("01天 00:00:00").None?
  {
    DaySlices("01", "00:00:00");
    assert "01天 00:00:00" == "01" + "天 " + "00:00:00";
    PaddedDayCount();
  }

  lemma PaddedDayCount()
    ensures !DayCount("01")
  {
    assert "01"[..1] == "0";
    assert DigitsValue("01") == 1;
    assert |NatToString(1)| == 1;
  }

  /** A text `ReadMinutes` accepts is the padded minutes and seconds. */
  lemma MinutesText(s: string) returns (m: nat, sec: nat)
    requires ReadMinutes(s).Some?
    ensures m < 60 && sec < 60 && ReadMinutes(s) == Some(m * 60 + sec)
    ensures s == Pad2(m) + ":" + Pad2(sec)
  {
    m, sec := Pair(s, 0).value, Pair(s, 3).value;
    PadOfPair(s, 0);
    PadOfPair(s, 3);
    assert s == s[0..2] + [s[2]] + s[3..5];
  }

  /** A text `ReadHours` accepts is the padded hours, minutes and seconds. */
  lemma HoursText(s: string) returns (h: nat, m: nat, sec: nat)
    requires ReadHours(s).Some?
    ensures h < 24 && m < 60 && sec < 60 && ReadHours(s) == Some(h * 3600 + m * 60 + sec)
    ensures Pair(s, 0) == Some(h)
    ensures s == Pad2(h) + ":" + Pad2(m) + ":" + Pad2(sec)
  {
    h := Pair(s, 0).value;
    m, sec := MinutesText(s[3..]);
    PadOfPair(s, 0);
    assert s == s[0..2] + [s[2]] + s[3..];
  }

  /** Two digits read by `Pair` are what `Pad2` writes for their value. */
  lemma PadOfPair(s: string, i: nat)
    requires i + 2 <= |s| && Pair(s, i).Some?
    ensures Pad2(Pair(s, i).value) == s[i..i + 2]
  {
    var a, b := DigitValue(s[i]), DigitValue(s[i + 1]);
    var v := a * 10 + b;
    DigitCharOfValue(s[i]);
    DigitCharOfValue(s[i + 1]);
    if a == 0 {
      assert s[i] == '0';
      assert Pad2(v) == "0" + [DigitChar(b)];
    } else {
      assert v / 10 == a && v % 10 == b;
      assert Pad2(v) == NatToString(v) == [DigitChar(a)] + [DigitChar(b)];
    }
  }

  lemma DigitCharOfValue(c: char)
    requires IsDigit(c)
    ensures DigitChar(DigitValue(c)) == c
  {
  }

  /** Fields in range are the ones the `divmod` chain yields for their sum. */
  lemma FieldsOf(d: nat, h: nat, m: nat, sec: nat)
    requires h < 24 && m < 60 && sec < 60
    ensures ToFields(d * 86400 + h * 3600 + m * 60 + sec) == Fields(d, h, m, sec)
  {
    var hours := d * 24 + h;
    var minutes := hours * 60 + m;
    var total := minutes * 60 + sec;
    assert total == d * 86400 + h * 3600 + m * 60 + sec;
    assert total / 60 == minutes && total % 60 == sec;
    assert minutes / 60 == hours && minutes % 60 == m;
    assert hours / 24 == d && hours % 24 == h;
  }

  /** The short forms are only used while they suffice: `MM:SS` below an
      hour, `HH:MM:SS` below a day. */
  lemma FormatLength(secs: real)
    requires secs > 0.0
    ensures secs < 3600.0 ==> |FormatTime(secs)| == 5
    ensures 3600.0 <= secs < 86400.0 ==> |FormatTime(secs)| == 8
    ensures secs >= 86400.0 ==> |FormatTime(secs)| > 10
  {
    var total := secs.Floor;
    var f := ToFields(total);
    if secs >= 3600.0 {
      assert total >= 3600;
    }
    if secs >= 86400.0 {
      assert total >= 86400;
    }
  }
}

=== FILE: common.dfy ===
/** Small shared vocabulary: an optional value (Python's `None` or a value) and
    helpers on sequences used by several parts of the updater model. */
module Common {

  /** A value that may be absent, as a Python variable that starts out `None`. */
  datatype Option<+T> = None | Some(value: T)

  /** Python truthiness of an optional string: present and not empty. */
  predicate Truthy(s: Option<string>) {
    s.Some? && |s.value| > 0
  }

  /** The last element of a non-empty sequence (Python's `xs[-1]`). */
  function Last<T>(xs: seq<T>): T
    requires |xs| > 0
  {
    xs[|xs| - 1]
  }

  /** All elements pairwise different. */
  predicate Distinct<T(==)>(xs: seq<T>) {
    forall i, j :: 0 <= i < j < |xs| ==> xs[i] != xs[j]
  }

  /** Sum of a sequence of integers. */
  function Sum(xs: seq<int>): int {
    if |xs| == 0 then 0 else Sum(xs[..|xs| - 1]) + xs[|xs| - 1]
  }

  lemma {:induction false} SumAppend(xs: seq<int>, ys: seq<int>)
    ensures Sum(xs + ys) == Sum(xs) + Sum(ys)
    decreases |ys|
  {
    if |ys| == 0 {
      assert xs + ys == xs;
    } else {
      assert (xs + ys)[..|xs + ys| - 1] == xs + ys[..|ys| - 1];
      SumAppend(xs, ys[..|ys| - 1]);
    }
  }

  /** Summing does not depend on the order of the summands. */
  lemma {:induction false} SumPermutation(xs: seq<int>, ys: seq<int>)
    requires multiset(xs) == multiset(ys)
    ensures Sum(xs) == Sum(ys)
    decreases |xs|
  {
    if |xs| == 0 {
      assert |ys| == |multiset(ys)| == 0;
    } else {
      var init, x := xs[..|xs| - 1], xs[|xs| - 1];
      assert xs == init + [x];
      assert multiset(xs) == multiset(init) + multiset{x};
      assert x in multiset(ys);
      var k :| 0 <= k < |ys| && ys[k] == x;
      var rest := ys[..k] + ys[k + 1..];
      MultisetRemoveAt(ys, k);
      assert multiset(init) == multiset(rest) by {
        assert multiset(init) == multiset(xs) - multiset{x};
        assert multiset(rest) == multiset(ys) - multiset{x};
      }
      SumPermutation(init, rest);
      SumRemoveAt(ys, k);
    }
  }

  lemma MultisetRemoveAt<T>(ys: seq<T>, k: nat)
    requires k < |ys|
    ensures multiset(ys) == multiset(ys[..k] + ys[k + 1..]) + multiset{ys[k]}
  {
    SplitAround(ys, k);
  }

  /** Taking one element out of a sequence takes it out of the sum. */
  lemma SumRemoveAt(ys: seq<int>, k: nat)
    requires k < |ys|
    ensures Sum(ys) == Sum(ys[..k] + ys[k + 1..]) + ys[k]
  {
    SplitAround(ys, k);
    SumMiddle(ys[..k], ys[k], ys[k + 1..]);
  }

  lemma SplitAround<T>(ys: seq<T>, k: nat)
    requires k < |ys|
    ensures ys == ys[..k] + [ys[k]] + ys[k + 1..]
  {
  }

  lemma SumMiddle(a: seq<int>, y: int, b: seq<int>)
    ensures Sum(a + [y] + b) == Sum(a + b) + y
  {
    SumSnoc(a, y);
    SumAppend(a + [y], b);
    SumAppend(a, b);
  }

  lemma SumSnoc(xs: seq<int>, x: int)
    ensures Sum(xs + [x]) == Sum(xs) + x
  {
    assert (xs + [x])[..|xs|] == xs;
  }
}

=== FILE: decimal.dfy ===
/** Decimal text for integers: Python's `str(n)` and `int(text)` as the updater
    uses them for part-file suffixes, `level=` values and Range headers. */
module Decimal {
  import opened Common
  import opened Text

  predicate IsDigit(c: char) {
    '0' <= c <= '9'
  }

  predicate AllDigits(s: string) {
    forall i :: 0 <= i < |s| ==> IsDigit(s[i])
  }

  function DigitChar(d: nat): (c: char)
    requires d < 10
    ensures IsDigit(c) && DigitValue(c) == d
  {
    (d + '0' as int) as char
  }

  function DigitValue(c: char): (d: nat)
    requires IsDigit(c)
    ensures d < 10
  {
    c as int - '0' as int
  }

  /** Python's `str(n)` for a non-negative integer: decimal digits, most
      significant first, without leading zeros. */
  function NatToString(n: nat): (s: string)
    ensures |s| > 0 && AllDigits(s)
    ensures |s| > 1 ==> s[0] != '0'
  {
    if n < 10 then [DigitChar(n)] else NatToString(n / 10) + [DigitChar(n % 10)]
  }

  /** Python's `str(i)` for any integer: a minus sign before negative values. */
  function IntToString(i: int): (s: string)
    ensures |s| > 0
    ensures i < 0 <==> s[0] == '-'
  {
    if i < 0 then "-" + NatToString(-i) else NatToString(i)
  }

  /** The value of a string of decimal digits. */
  function DigitsValue(s: string): nat
    requires AllDigits(s)
  {
    if |s| == 0 then 0 else DigitsValue(s[..|s| - 1]) * 10 + DigitValue(s[|s| - 1])
  }

  /** Reading the digits `str` writes gives back the number. */
  lemma {:induction false} DigitsValueOfNat(n: nat)
    ensures DigitsValue(NatToString(n)) == n
    decreases n
  {
    var s := NatToString(n);
    if n >= 10 {
      assert s[..|s| - 1] == NatToString(n / 10);
      DigitsValueOfNat(n / 10);
    }
  }

  /** Different numbers have different decimal texts. */
  lemma NatToStringInjective(m: nat, n: nat)
    requires NatToString(m) == NatToString(n)
    ensures m == n
  {
    DigitsValueOfNat(m);
    DigitsValueOfNat(n);
  }

  /** The body of a Python integer literal after its sign: decimal digits,
      where single underscores may separate two digits. */
  predicate IsDigitGroups(s: string) {
    && |s| > 0
    && IsDigit(s[0])
    && IsDigit(s[|s| - 1])
    && (forall i :: 0 <= i < |s| ==> IsDigit(s[i]) || s[i] == '_')
    && (forall i :: 0 <= i < |s| - 1 ==> !(s[i] == '_' && s[i + 1] == '_'))
  }

  function RemoveUnderscores(s: string): (r: string)
    requires forall i :: 0 <= i < |s| ==> IsDigit(s[i]) || s[i] == '_'
    ensures AllDigits(r) && |r| <= |s|
  {
    if |s| == 0 then ""
    else if s[|s| - 1] == '_' then RemoveUnderscores(s[..|s| - 1])
    else RemoveUnderscores(s[..|s| - 1]) + [s[|s| - 1]]
  }

  lemma {:induction false} RemoveUnderscoresOfDigits(s: string)
    requires AllDigits(s)
    ensures RemoveUnderscores(s) == s
    decreases |s|
  {
    if |s| > 0 {
      RemoveUnderscoresOfDigits(s[..|s| - 1]);
      assert s == s[..|s| - 1] + [s[|s| - 1]];
    }
  }

  /** Python's default bound on the digits of a decimal conversion, in
      either direction (`sys.get_int_max_str_digits()` since Python 3.11). */
  const MaxStrDigits := 4300

  /** `str(n)` stays within the digit bound; beyond it Python raises
      `ValueError` instead of writing the digits. */
  predicate StrWithinLimit(n: nat) {
    |NatToString(n)| <= MaxStrDigits
  }

  /** A smaller number never has a longer decimal text. */
  lemma {:induction false} NatToStringLengthMono(m: nat, n: nat)
    requires m <= n
    ensures |NatToString(m)| <= |NatToString(n)|
    decreases n
  {
    if m >= 10 {
      NatToStringLengthMono(m / 10, n / 10);
    }
  }

  /** The value of digit groups with the underscores dropped, or `None` when
      the text is not digit groups or has more digits than the bound allows
      (leading zeros count, underscores do not). */
  function ParseUnsigned(body: string): (r: Option<nat>)
  {
    if IsDigitGroups(body) && |RemoveUnderscores(body)| <= MaxStrDigits then
      Some(DigitsValue(RemoveUnderscores(body)))
    else None
  }

  /** Python's `int(text)` in base 10: surrounding whitespace is ignored, an
      optional `+` or `-` sign may lead, and the rest must be digit groups of
      at most `MaxStrDigits` digits; anything else raises `ValueError`,
      modelled as `None`. */
  function ParseInt(text: string): (r: Option<int>)
  {
    var t := Strip(text);
    if |t| > 0 && (t[0] == '+' || t[0] == '-') then
      match ParseUnsigned(t[1..])
      case None => None
      case Some(v) => Some(if t[0] == '-' then -(v as int) else v as int)
    else
      match ParseUnsigned(t)
      case None => None
      case Some(v) => Some(v)
  }

  lemma ParseUnsignedDigits(s: string)
    requires 0 < |s| <= MaxStrDigits && AllDigits(s)
    ensures ParseUnsigned(s) == Some(DigitsValue(s))
  {
    assert IsDigitGroups(s);
    RemoveUnderscoresOfDigits(s);
  }

  /** `int()` reads a plain run of digits as its value. */
  lemma ParseDigits(d: string)
    requires 0 < |d| <= MaxStrDigits && AllDigits(d)
    ensures ParseInt(d) == Some(DigitsValue(d))
  {
    assert IsDigit(d[0]) && IsDigit(d[|d| - 1]);
    StripUnchanged(d);
    ParseUnsignedDigits(d);
  }

  /** `int()` reads a minus sign and a run of digits as the negated value. */
  lemma ParseNegativeDigits(d: string)
    requires 0 < |d| <= MaxStrDigits && AllDigits(d)
    ensures ParseInt("-" + d) == Some(-(DigitsValue(d) as int))
  {
    SignedStripped(d);
    SignedBody(d);
    ParseMinus("-" + d, DigitsValue(d));
  }

  lemma ParseMinus(s: string, v: nat)
    requires Strip(s) == s && |s| > 0 && s[0] == '-' && ParseUnsigned(s[1..]) == Some(v)
    ensures ParseInt(s) == Some(-(v as int))
  {
  }

  lemma SignedStripped(d: string)
    requires |d| > 0 && AllDigits(d)
    ensures Strip("-" + d) == "-" + d
  {
    var s := "-" + d;
    assert s[|s| - 1] == d[|d| - 1] && IsDigit(d[|d| - 1]);
    StripUnchanged(s);
  }

  lemma SignedBody(d: string)
    requires 0 < |d| <= MaxStrDigits && AllDigits(d)
    ensures ParseUnsigned(("-" + d)[1..]) == Some(DigitsValue(d))
  {
    assert ("-" + d)[1..] == d;
    ParseUnsignedDigits(d);
  }

  /** `int()` refuses a run of digits longer than the bound, even one of
      zeros. */
  lemma ParseTooManyDigits(d: string)
    requires |d| > MaxStrDigits && AllDigits(d)
    ensures ParseInt(d) == None
  {
    assert IsDigit(d[0]) && IsDigit(d[|d| - 1]);
    StripUnchanged(d);
    RemoveUnderscoresOfDigits(d);
  }

  /** `int(str(n)) == n` for every non-negative integer `str` can write. */
  lemma ParseNatToString(n: nat)
    requires StrWithinLimit(n)
    ensures ParseInt(NatToString(n)) == Some(n)
  {
    ParseDigits(NatToString(n));
    DigitsValueOfNat(n);
  }

  /** `int(str(i)) == i` for every integer `str` can write; the sign does
      not count towards the bound. */
  lemma ParseIntToString(i: int)
    requires StrWithinLimit(if i < 0 then -i else i)
    ensures ParseInt(IntToString(i)) == Some(i)
  {
    if i < 0 {
      ParseNegativeToString(-i);
    } else {
      ParseNatToString(i);
    }
  }

  lemma ParseNegativeToString(n: nat)
    requires n > 0 && StrWithinLimit(n)
    ensures ParseInt(IntToString(-(n as int))) == Some(-(n as int))
  {
    var d := NatToString(n);
    SignedStripped(d);
    SignedBody(d);
    DigitsValueOfNat(n);
    NegativeText(n);
    ParseMinus(IntToString(-(n as int)), n);
  }

  lemma NegativeText(n: nat)
    requires n > 0
    ensures IntToString(-(n as int)) == "-" + NatToString(n)
  {
  }

  /** `int()` refuses an empty text and one holding only whitespace. */
  lemma ParseIntBlank(text: string)
    requires forall i :: 0 <= i < |text| ==> IsSpace(text[i])
    ensures ParseInt(text) == None
  {
  }
}

=== FILE: download.dfy ===
/** The multi-threaded download task over an abstract file system: each worker
    streams its byte range into its own part file, then the part files are
    concatenated in index order into the destination and deleted.

    The network is an input: `Transfer` says what each worker's request
    produced. Thread scheduling is an input too: `order` is the order in which
    the workers' part files reached their final contents. */
module Download {
  import opened Common
  import opened RangePlanner
  import opened PartFiles

  /** Files by path. */
  type FileSystem = map<string, seq<bv8>>

  /** What one worker's ranged request produced. */
  datatype Transfer =
    | Complete(data: seq<bv8>)     // every chunk arrived and was written
    | Interrupted(data: seq<bv8>)  // the stream broke after `data` was written
    | Refused                      // the status check raised before the part file was opened
  {
    /** The part file the worker left behind, if it opened one. */
    predicate WroteFile() {
      !Refused?
    }
  }

  /** The set of elements of a sequence. */
  function Elems<T>(s: seq<T>): set<T> {
    set x | x in s
  }

  // ---------------------------------------------------------------------------
  // Workers (download_range)

  lemma PartPathsInjective(savePath: string)
    ensures forall i: nat, j: nat :: PartPath(savePath, i) == PartPath(savePath, j) ==> i == j
  {
    forall i: nat, j: nat | PartPath(savePath, i) == PartPath(savePath, j)
      ensures i == j
    {
      PartPathInjective(savePath, i, j);
    }
  }

  /** The part files written by the workers in `done`: the path of worker `i`
      mapped to the bytes it wrote. */
  function Written(savePath: string, transfers: seq<Transfer>, done: set<nat>): FileSystem {
    PartPathsInjective(savePath);
    map i | i in done && i < |transfers| && transfers[i].WroteFile() :: PartPath(savePath, i) := transfers[i].data
  }

  /** Exactly the workers in `done` that opened a part file have one, holding
      what they wrote. */
  lemma WrittenAt(savePath: string, transfers: seq<Transfer>, done: set<nat>, i: nat)
    ensures PartPath(savePath, i) in Written(savePath, transfers, done)
        <==> i in done && i < |transfers| && transfers[i].WroteFile()
    ensures PartPath(savePath, i) in Written(savePath, transfers, done) ==>
      Written(savePath, transfers, done)[PartPath(savePath, i)] == transfers[i].data
  {
    PartPathsInjective(savePath);
  }

  /** Every file in `Written` is a part file of a worker in `done`. */
  lemma WrittenKeys(savePath: string, transfers: seq<Transfer>, done: set<nat>, p: string)
    requires p in Written(savePath, transfers, done)
    ensures exists i: nat :: i in done && i < |transfers| && p == PartPath(savePath, i)
  {
  }

  /** One worker: `open(part_path, 'wb')` creates or truncates its part file
      and every chunk received is appended to it. */
  function RunWorker(fs: FileSystem, savePath: string, index: nat, t: Transfer): FileSystem {
    if t.WroteFile() then fs[PartPath(savePath, index) := t.data] else fs
  }

  lemma WrittenStep(savePath: string, transfers: seq<Transfer>, done: set<nat>, i: nat)
    requires i < |transfers| && i !in done
    ensures Written(savePath, transfers, done + {i})
         == if transfers[i].WroteFile()
            then Written(savePath, transfers, done)[PartPath(savePath, i) := transfers[i].data]
            else Written(savePath, transfers, done)
  {
    var before := Written(savePath, transfers, done);
    var after := Written(savePath, transfers, done + {i});
    var expected := if transfers[i].WroteFile() then before[PartPath(savePath, i) := transfers[i].data] else before;
    WrittenStepKeys(savePath, transfers, done, i);
    assert after.Keys == expected.Keys;
  }

  /** One worker more adds its own part file and touches no other. */
  lemma WrittenStepKeys(savePath: string, transfers: seq<Transfer>, done: set<nat>, i: nat)
    requires i < |transfers| && i !in done
    ensures var before := Written(savePath, transfers, done);
      var after := Written(savePath, transfers, done + {i});
      var expected := if transfers[i].WroteFile() then before[PartPath(savePath, i) := transfers[i].data] else before;
      (forall p | p in after :: p in expected && after[p] == expected[p])
      && (forall p | p in expected :: p in after)
  {
    var before := Written(savePath, transfers, done);
    var after := Written(savePath, transfers, done + {i});
    var expected := if transfers[i].WroteFile() then before[PartPath(savePath, i) := transfers[i].data] else before;
    forall p | p in after
      ensures p in expected && after[p] == expected[p]
    {
      WrittenKeys(savePath, transfers, done + {i}, p);
      var j: nat :| j in done + {i} && j < |transfers| && p == PartPath(savePath, j);
      WrittenStepAt(savePath, transfers, done, i, j);
    }
    forall p | p in expected
      ensures p in after
    {
      if p in before {
        WrittenKeys(savePath, transfers, done, p);
        var j: nat :| j in done && j < |transfers| && p == PartPath(savePath, j);
        WrittenStepAt(savePath, transfers, done, i, j);
      } else {
        WrittenStepAt(savePath, transfers, done, i, i);
      }
    }
  }

  /** Worker `j`'s part file before and after worker `i` is added. */
  lemma WrittenStepAt(savePath: string, transfers: seq<Transfer>, done: set<nat>, i: nat, j: nat)
    requires i < |transfers| && i !in done && j < |transfers|
    ensures var before := Written(savePath, transfers, done);
      var after := Written(savePath, transfers, done + {i});
      var expected := if transfers[i].WroteFile() then before[PartPath(savePath, i) := transfers[i].data] else before;
      && (PartPath(savePath, j) in after <==> PartPath(savePath, j) in expected)
      && (PartPath(savePath, j) in after ==> after[PartPath(savePath, j)] == expected[PartPath(savePath, j)])
  {
    WrittenAt(savePath, transfers, done + {i}, j);
    WrittenAt(savePath, transfers, done, j);
    if j != i {
      PartPathsInjective(savePath);
      assert PartPath(savePath, j) != PartPath(savePath, i);
    }
  }

  lemma OverlayUpdate<K, V>(a: map<K, V>, b: map<K, V>, k: K, v: V)
    ensures a + b[k := v] == (a + b)[k := v]
  {
  }

  /** The workers, with part files reaching their final contents in `order`.
      Whatever the order, the result is the old file system overlaid with
      the part files written. */
  function RunWorkers(fs: FileSystem, savePath: string, transfers: seq<Transfer>, order: seq<nat>): (r: FileSystem)
    requires forall k :: 0 <= k < |order| ==> order[k] < |transfers|
    requires Distinct(order)
    ensures r == fs + Written(savePath, transfers, Elems(order))
  {
    if |order| == 0 then
      assert Written(savePath, transfers, Elems(order)) == map[];
      fs
    else
      var n := |order|;
      var front := order[..n - 1];
      var i := order[n - 1];
      assert Distinct(front);
      assert order == front + [i];
      assert Elems(order) == Elems(front) + {i};
      assert i !in Elems(front);
      WrittenStep(savePath, transfers, Elems(front), i);
      var before := RunWorkers(fs, savePath, transfers, front);
      if transfers[i].WroteFile() then
        OverlayUpdate(fs, Written(savePath, transfers, Elems(front)), PartPath(savePath, i), transfers[i].data);
        RunWorker(before, savePath, i, transfers[i])
      else
        RunWorker(before, savePath, i, transfers[i])
  }

  // ---------------------------------------------------------------------------
  // Merge (the `with open(save_path, 'wb')` loop)

  /** The contents of `paths`, concatenated in list order. */
  function Concat(fs: FileSystem, paths: seq<string>): seq<bv8>
    requires forall k :: 0 <= k < |paths| ==> paths[k] in fs
  {
    if |paths| == 0 then [] else Concat(fs, paths[..|paths| - 1]) + fs[paths[|paths| - 1]]
  }

  /** How a merge ended: with every part appended, or with the read of part
      number `merged` raising because that part file was missing. */
  datatype MergeOutcome =
    | Merged(fs: FileSystem)
    | MergeFailed(fs: FileSystem, merged: nat)

  lemma {:induction false} ConcatFrame(fs: FileSystem, fs': FileSystem, paths: seq<string>)
    requires forall k :: 0 <= k < |paths| ==> paths[k] in fs && paths[k] in fs' && fs'[paths[k]] == fs[paths[k]]
    ensures Concat(fs', paths) == Concat(fs, paths)
    decreases |paths|
  {
    if |paths| > 0 {
      ConcatFrame(fs, fs', paths[..|paths| - 1]);
    }
  }

  /** A key's value is overwritten in the end, so resetting it first
      changes nothing. */
  lemma ResetThenRemove<K, V>(m: map<K, V>, key: K, removed: set<K>, first: V, last: V)
    requires key !in removed
    ensures (m[key := first] - removed)[key := last] == (m - removed)[key := last]
  {
  }

  /** Copying part `p` into `dest` and deleting it, in closed form. */
  lemma MergeStep(fs: FileSystem, dest: string, done: set<string>, copied: seq<bv8>, p: string)
    requires dest in fs && dest !in done && p != dest && p in fs && p !in done
    ensures var f := (fs - done)[dest := fs[dest] + copied];
      f[dest := f[dest] + f[p]] - {p} == (fs - (done + {p}))[dest := fs[dest] + (copied + fs[p])]
  {
    var f := (fs - done)[dest := fs[dest] + copied];
    var g := f[dest := f[dest] + f[p]] - {p};
    var h := (fs - (done + {p}))[dest := fs[dest] + (copied + fs[p])];
    assert f[dest] + f[p] == fs[dest] + (copied + fs[p]);
    assert g.Keys == h.Keys;
    forall k | k in g
      ensures g[k] == h[k]
    {
    }
  }

  /** Appends the parts one after the other to `dest` (already open), deleting
      each part after it was copied. Nothing is cleaned up when a part is
      missing: the destination keeps what was appended so far and the parts
      not yet reached stay on disk. */
  function MergeInto(fs: FileSystem, dest: string, parts: seq<string>): (r: MergeOutcome)
    requires dest in fs && dest !in parts
    ensures r.Merged? <==> (forall k :: 0 <= k < |parts| ==> parts[k] in fs) && Distinct(parts)
    ensures r.Merged? ==> r.fs == (fs - Elems(parts))[dest := fs[dest] + Concat(fs, parts)]
    ensures r.MergeFailed? ==>
      && r.merged < |parts|
      && (forall k :: 0 <= k < r.merged ==> parts[k] in fs)
      && Distinct(parts[..r.merged])
      && (parts[r.merged] !in fs || parts[r.merged] in parts[..r.merged])
      && r.fs == (fs - Elems(parts[..r.merged]))[dest := fs[dest] + Concat(fs, parts[..r.merged])]
    decreases |parts|
  {
    if |parts| == 0 then
      assert fs[dest] + Concat(fs, parts) == fs[dest];
      assert (fs - Elems(parts))[dest := fs[dest]] == fs;
      Merged(fs)
    else
      var n := |parts|;
      var front := parts[..n - 1];
      var p := parts[n - 1];
      assert parts == front + [p];
      match MergeInto(fs, dest, front)
      case MergeFailed(f, m) =>
        assert parts[..m] == front[..m];
        MergeFailed(f, m)
      case Merged(f) =>
        if p !in f then
          assert p !in fs || p in front;
          assert parts[..n - 1] == front;
          MergeFailed(f, n - 1)
        else
          assert p in fs && p !in front;
          assert Elems(parts) == Elems(front) + {p};
          MergeStep(fs, dest, Elems(front), Concat(fs, front), p);
          Merged(f[dest := f[dest] + f[p]] - {p})
  }

  /** `open(save_path, 'wb')` creates or empties the destination, then the
      parts are appended in the order given. */
  function MergeParts(fs: FileSystem, savePath: string, parts: seq<string>): (r: MergeOutcome)
    requires savePath !in parts
    ensures r.Merged? <==> (forall k :: 0 <= k < |parts| ==> parts[k] in fs) && Distinct(parts)
    ensures r.Merged? ==> r.fs == (fs - Elems(parts))[savePath := Concat(fs, parts)]
  {
    var emptied := fs[savePath := []];
    assert forall k :: 0 <= k < |parts| ==> (parts[k] in fs <==> parts[k] in emptied);
    var r := MergeInto(emptied, savePath, parts);
    if r.Merged? then
      ConcatFrame(fs, emptied, parts);
      assert [] + Concat(fs, parts) == Concat(fs, parts);
      ResetThenRemove(fs, savePath, Elems(parts), [], Concat(fs, parts));
      r
    else
      r
  }

  // ---------------------------------------------------------------------------
  // The download task

  /** The bytes of all complete transfers, in worker-index order. */
  function ConcatData(transfers: seq<Transfer>): seq<bv8>
    requires forall i :: 0 <= i < |transfers| ==> transfers[i].Complete?
  {
    if |transfers| == 0 then []
    else ConcatData(transfers[..|transfers| - 1]) + transfers[|transfers| - 1].data
  }

  /** How a download task ended. */
  datatype TaskOutcome =
    | Downloaded(fs: FileSystem)
    | WorkerFailed(fs: FileSystem, index: nat)      // `future.result()` re-raised this worker's error
    | MergeAborted(fs: FileSystem, merged: nat)     // a part file could not be read during the merge

  /** The first worker, in index order, whose transfer did not complete. */
  function FirstFailure(transfers: seq<Transfer>): (i: nat)
    requires exists i :: 0 <= i < |transfers| && !transfers[i].Complete?
    ensures i < |transfers| && !transfers[i].Complete?
    ensures forall j :: 0 <= j < i ==> transfers[j].Complete?
  {
    if !transfers[0].Complete? then 0
    else
      assert exists i :: 0 <= i < |transfers[1..]| && !transfers[1..][i].Complete? by {
        var i :| 0 <= i < |transfers| && !transfers[i].Complete?;
        assert transfers[1..][i - 1] == transfers[i];
      }
      1 + FirstFailure(transfers[1..])
  }

  /** The identity order: workers finishing in index order. */
  function IndexOrder(count: nat): (order: seq<nat>)
    ensures IsIndexPermutation(order, count)
    ensures forall k :: 0 <= k < count ==> order[k] == k
  {
    seq(count, k requires 0 <= k < count => k)
  }

  /** Every worker index appears in a completion order. */
  lemma IndexPermutationCovers(order: seq<nat>, count: nat, i: nat)
    requires IsIndexPermutation(order, count) && i < count
    ensures i in order
  {
    // Sorting the keyed part paths yields key `i` at position `i`, and sorting
    // only rearranges, so some worker in `order` has index `i`.
    var keyed := KeyedParts("", order);
    var sorted := Sort(keyed);
    SortKeyedParts("", order);
    assert sorted[i] in multiset(keyed);
    var k :| 0 <= k < |keyed| && keyed[k] == sorted[i];
    assert order[k] == i;
  }

  /** After all workers ran, the part files are those of the workers that
      opened one, and nothing else was written. */
  lemma WorkersWroteParts(savePath: string, transfers: seq<Transfer>, order: seq<nat>)
    requires IsIndexPermutation(order, |transfers|)
    ensures forall i :: 0 <= i < |transfers| ==>
      (PartPath(savePath, i) in Written(savePath, transfers, Elems(order)) <==> transfers[i].WroteFile())
    ensures forall i :: 0 <= i < |transfers| && transfers[i].WroteFile() ==>
      Written(savePath, transfers, Elems(order))[PartPath(savePath, i)] == transfers[i].data
    ensures savePath !in Written(savePath, transfers, Elems(order))
    ensures Written(savePath, transfers, Elems(order)).Keys <= Elems(PartNames(savePath, |transfers|))
  {
    var n := |transfers|;
    var written := Written(savePath, transfers, Elems(order));
    forall i | 0 <= i < n
      ensures PartPath(savePath, i) in written <==> transfers[i].WroteFile()
      ensures transfers[i].WroteFile() ==> written[PartPath(savePath, i)] == transfers[i].data
    {
      IndexPermutationCovers(order, n, i);
      WrittenAt(savePath, transfers, Elems(order), i);
    }
    forall p | p in written
      ensures p != savePath && p in Elems(PartNames(savePath, n))
    {
      WrittenKeys(savePath, transfers, Elems(order), p);
      var i: nat :| i in Elems(order) && i < n && p == PartPath(savePath, i);
      PartPathNotSavePath(savePath, i);
      assert PartNames(savePath, n)[i] == p;
    }
  }

  lemma OverlayRemoved<K, V>(a: map<K, V>, b: map<K, V>, e: set<K>)
    requires b.Keys <= e
    ensures (a + b) - e == a - e
  {
  }

  /** The file system after the workers ran: the destination as before,
      and each worker's part file holding what it wrote. */
  lemma AfterWorkers(fs: FileSystem, savePath: string, transfers: seq<Transfer>, order: seq<nat>)
    requires IsIndexPermutation(order, |transfers|)
    ensures var after := RunWorkers(fs, savePath, transfers, order);
      && (savePath in after <==> savePath in fs)
      && (savePath in fs ==> after[savePath] == fs[savePath])
      && forall i :: 0 <= i < |transfers| && transfers[i].WroteFile() ==>
           PartPath(savePath, i) in after && after[PartPath(savePath, i)] == transfers[i].data
  {
    WorkersWroteParts(savePath, transfers, order);
  }

  /** The part paths of a task, sorted, come out in index order. */
  lemma TaskPartsSorted(savePath: string, count: nat)
    requires IndicesWithinLimit(count)
    ensures SortParts(PartNames(savePath, count)) == Some(PartNames(savePath, count))
  {
    SortRecoversIndexOrder(savePath, IndexOrder(count));
    assert CompletedParts(savePath, IndexOrder(count)) == PartNames(savePath, count);
  }

  /** The part paths of a task are distinct and differ from the destination. */
  lemma TaskPartsDistinct(savePath: string, count: nat)
    ensures Distinct(PartNames(savePath, count))
    ensures savePath !in PartNames(savePath, count)
  {
    var names := PartNames(savePath, count);
    PartPathsInjective(savePath);
    forall i | 0 <= i < count
      ensures names[i] != savePath
    {
      PartPathNotSavePath(savePath, i);
    }
  }

  lemma CompletePartsPresent(fs: FileSystem, savePath: string, transfers: seq<Transfer>, order: seq<nat>)
    requires IsIndexPermutation(order, |transfers|)
    requires forall i :: 0 <= i < |transfers| ==> transfers[i].Complete?
    ensures var after := RunWorkers(fs, savePath, transfers, order);
      forall k :: 0 <= k < |transfers| ==>
        PartPath(savePath, k) in after && after[PartPath(savePath, k)] == transfers[k].data
  {
    AfterWorkers(fs, savePath, transfers, order);
  }

  /** With every transfer complete, the merge succeeds and leaves the
      concatenation in the destination and no part file behind. */
  lemma CompleteMerge(fs: FileSystem, savePath: string, transfers: seq<Transfer>, order: seq<nat>)
    requires IsIndexPermutation(order, |transfers|)
    requires forall i :: 0 <= i < |transfers| ==> transfers[i].Complete?
    ensures savePath !in PartNames(savePath, |transfers|)
    ensures MergeParts(RunWorkers(fs, savePath, transfers, order), savePath, PartNames(savePath, |transfers|))
         == Merged((fs - Elems(PartNames(savePath, |transfers|)))[savePath := ConcatData(transfers)])
  {
    var n := |transfers|;
    var names := PartNames(savePath, n);
    var after := RunWorkers(fs, savePath, transfers, order);
    TaskPartsDistinct(savePath, n);
    MergeAfterWorkers(fs, savePath, transfers, order);
    AfterWorkersRemoved(fs, savePath, transfers, order);
  }

  /** The merge after complete workers finds every part. */
  lemma MergeAfterWorkers(fs: FileSystem, savePath: string, transfers: seq<Transfer>, order: seq<nat>)
    requires IsIndexPermutation(order, |transfers|)
    requires forall i :: 0 <= i < |transfers| ==> transfers[i].Complete?
    ensures var after := RunWorkers(fs, savePath, transfers, order);
      var names := PartNames(savePath, |transfers|);
      MergeParts(after, savePath, names) == Merged((after - Elems(names))[savePath := ConcatData(transfers)])
  {
    CompletePartsPresent(fs, savePath, transfers, order);
    MergeWrittenParts(RunWorkers(fs, savePath, transfers, order), savePath, transfers);
  }

  /** When every part file holds its transfer's bytes, the merge joins them
      in index order. */
  lemma MergeWrittenParts(after: FileSystem, savePath: string, transfers: seq<Transfer>)
    requires forall i :: 0 <= i < |transfers| ==> transfers[i].Complete?
    requires forall k :: 0 <= k < |transfers| ==>
      PartPath(savePath, k) in after && after[PartPath(savePath, k)] == transfers[k].data
    ensures var names := PartNames(savePath, |transfers|);
      MergeParts(after, savePath, names) == Merged((after - Elems(names))[savePath := ConcatData(transfers)])
  {
    var n := |transfers|;
    var names := PartNames(savePath, n);
    TaskPartsDistinct(savePath, n);
    ConcatOfParts(after, savePath, transfers, n);
    assert transfers[..n] == transfers;
    MergePresent(after, savePath, names, ConcatData(transfers));
  }

  /** Removing the part files after the workers leaves what was there
      before, less any old files of the same names. */
  lemma AfterWorkersRemoved(fs: FileSystem, savePath: string, transfers: seq<Transfer>, order: seq<nat>)
    requires IsIndexPermutation(order, |transfers|)
    ensures var names := Elems(PartNames(savePath, |transfers|));
      RunWorkers(fs, savePath, transfers, order) - names == fs - names
  {
    var written := Written(savePath, transfers, Elems(order));
    WorkersWroteParts(savePath, transfers, order);
    OverlayRemoved(fs, written, Elems(PartNames(savePath, |transfers|)));
  }

  /** With every part present and no part named twice, the merge leaves
      their concatenation in the destination and removes them. */
  lemma MergePresent(fs: FileSystem, savePath: string, parts: seq<string>, data: seq<bv8>)
    requires savePath !in parts && Distinct(parts)
    requires forall k :: 0 <= k < |parts| ==> parts[k] in fs
    requires Concat(fs, parts) == data
    ensures MergeParts(fs, savePath, parts) == Merged((fs - Elems(parts))[savePath := data])
  {
  }

  /** `download_task`: run the workers (finishing in `order`), collect their
      results in submission order, which re-raises the first failure, then
      sort the part paths by their suffix and merge them into `savePath`. */
  function DownloadTask(fs: FileSystem, savePath: string, transfers: seq<Transfer>, order: seq<nat>): (r: TaskOutcome)
    requires |transfers| >= 1 && IsIndexPermutation(order, |transfers|)
    requires IndicesWithinLimit(|transfers|)
    ensures r.Downloaded? <==> forall i :: 0 <= i < |transfers| ==> transfers[i].Complete?
    ensures r.Downloaded? ==>
      r.fs == (fs - Elems(PartNames(savePath, |transfers|)))[savePath := ConcatData(transfers)]
    ensures r.WorkerFailed? <==> exists i :: 0 <= i < |transfers| && !transfers[i].Complete?
    ensures r.WorkerFailed? ==>
      && r.index < |transfers| && !transfers[r.index].Complete?
      && (forall j :: 0 <= j < r.index ==> transfers[j].Complete?)
      && (savePath in r.fs <==> savePath in fs)
      && (savePath in fs ==> r.fs[savePath] == fs[savePath])
      && forall i :: 0 <= i < |transfers| && transfers[i].WroteFile() ==>
           PartPath(savePath, i) in r.fs && r.fs[PartPath(savePath, i)] == transfers[i].data
    // Nothing is cleaned up or touched besides the part files.
    ensures r.WorkerFailed? ==>
      r.fs - Elems(PartNames(savePath, |transfers|)) == fs - Elems(PartNames(savePath, |transfers|))
  {
    var n := |transfers|;
    var afterWorkers := RunWorkers(fs, savePath, transfers, order);
    if exists i :: 0 <= i < n && !transfers[i].Complete? then
      AfterWorkers(fs, savePath, transfers, order);
      AfterWorkersRemoved(fs, savePath, transfers, order);
      WorkerFailed(afterWorkers, FirstFailure(transfers))
    else
      TaskPartsSorted(savePath, n);
      TaskPartsDistinct(savePath, n);
      CompleteMerge(fs, savePath, transfers, order);
      match MergeParts(afterWorkers, savePath, SortParts(PartNames(savePath, n)).value)
      case Merged(f) => Downloaded(f)
      case MergeFailed(f, m) => MergeAborted(f, m)
  }

  /** A task whose every transfer completes downloads the concatenation. */
  lemma CompleteDownload(fs: FileSystem, savePath: string, transfers: seq<Transfer>, order: seq<nat>)
    requires |transfers| >= 1 && IsIndexPermutation(order, |transfers|)
    requires IndicesWithinLimit(|transfers|)
    requires forall i :: 0 <= i < |transfers| ==> transfers[i].Complete?
    ensures DownloadTask(fs, savePath, transfers, order)
         == Downloaded((fs - Elems(PartNames(savePath, |transfers|)))[savePath := ConcatData(transfers)])
  {
  }

  /** The parts, read back in index order, hold the transfers' bytes. */
  lemma {:induction false} ConcatOfParts(fs: FileSystem, savePath: string, transfers: seq<Transfer>, count: nat)
    requires count <= |transfers|
    requires forall i :: 0 <= i < |transfers| ==> transfers[i].Complete?
    requires forall i :: 0 <= i < count ==> PartPath(savePath, i) in fs && fs[PartPath(savePath, i)] == transfers[i].data
    ensures Concat(fs, PartNames(savePath, count)) == ConcatData(transfers[..count])
  {
    if count > 0 {
      assert PartNames(savePath, count)[..count - 1] == PartNames(savePath, count - 1);
      assert transfers[..count][..count - 1] == transfers[..count - 1];
      ConcatOfParts(fs, savePath, transfers, count - 1);
    }
  }

  /** The order in which the workers finish does not matter. */
  lemma WorkersOrderIndependent(fs: FileSystem, savePath: string, transfers: seq<Transfer>, order: seq<nat>, order': seq<nat>)
    requires IsIndexPermutation(order, |transfers|) && IsIndexPermutation(order', |transfers|)
    ensures RunWorkers(fs, savePath, transfers, order) == RunWorkers(fs, savePath, transfers, order')
  {
    forall i | i in Elems(order)
      ensures i in Elems(order')
    {
      IndexPermutationCovers(order', |transfers|, i);
    }
    forall i | i in Elems(order')
      ensures i in Elems(order)
    {
      IndexPermutationCovers(order, |transfers|, i);
    }
    assert Elems(order) == Elems(order');
  }

  /** The downloaded bytes, worker by worker, total the lengths of the
      ranges they were given. */
  lemma {:induction false} ConcatDataLength(transfers: seq<Transfer>, ranges: seq<ByteRange>)
    requires |transfers| == |ranges|
    requires forall i :: 0 <= i < |transfers| ==> transfers[i].Complete? && |transfers[i].data| == Length(ranges[i])
    ensures |ConcatData(transfers)| == TotalLength(ranges)
    decreases |transfers|
  {
    var n := |transfers|;
    if n > 0 {
      ConcatDataLength(transfers[..n - 1], ranges[..n - 1]);
    }
  }

  /** When every worker received exactly its planned range, the merged file
      has the size the server announced. */
  lemma DownloadedSize(totalSize: nat, transfers: seq<Transfer>)
    requires |transfers| >= 1
    requires forall i :: 0 <= i < |transfers| ==>
      transfers[i].Complete? && |transfers[i].data| == Length(Plan(totalSize, |transfers|)[i])
    ensures |ConcatData(transfers)| == totalSize
  {
    ConcatDataLength(transfers, Plan(totalSize, |transfers|));
    PlanLengthsSum(totalSize, |transfers|);
  }
}

=== FILE: manifest.dfy ===
/** The channel manifest: an INI-like text of `[label]` sections with
    `ver=`, `changelog=`, `level=` and `url=` lines, read line by line into a
    list of `VersionInfo` records, and the rule that picks the version
    selected for download. */
module Manifest {
  import opened Common
  import opened Text
  import opened Decimal

  /** One downloadable version; the changelog has every backslash-n pair
      turned into a newline when the record is built. */
  datatype VersionInfo = VersionInfo(
    version: string,
    verCode: Option<string>,
    changelog: string,
    level: Option<int>,
    url: Option<string>)

  function MakeVersionInfo(version: string, verCode: Option<string>, changelog: string,
                           level: Option<int>, url: Option<string>): (v: VersionInfo)
    ensures v.version == version && v.verCode == verCode && v.level == level && v.url == url
    ensures NoLiteralNewline(v.changelog)
    ensures NoLiteralNewline(changelog) ==> v.changelog == changelog
  {
    var decoded := DecodeNewlines(changelog);
    assert NoLiteralNewline(changelog) ==> decoded == changelog by {
      if NoLiteralNewline(changelog) {
        DecodeUnchanged(changelog);
      }
    }
    VersionInfo(version, verCode, decoded, level, url)
  }

  // ---------------------------------------------------------------------------
  // Line classification

  datatype Key = VerKey | ChangelogKey | LevelKey | UrlKey

  /** What a manifest line is, after stripping, by the first test it passes.
      For a `level=` line, `number` is what `int()` makes of the value. */
  datatype LineKind =
    | Header(name: string)
    | KeyLine(key: Key, value: string, number: Option<int>)
    | Other(text: string)

  function KeyPrefix(key: Key): string {
    match key
    case VerKey => "ver="
    case ChangelogKey => "changelog="
    case LevelKey => "level="
    case UrlKey => "url="
  }

  /** Classifies a raw line of the manifest. */
  function Classify(raw: string): (kind: LineKind)
    ensures kind == ClassifyStripped(Strip(raw))
  {
    ClassifyStripped(Strip(raw))
  }

  function ClassifyStripped(line: string): (kind: LineKind)
    ensures kind.Header? <==> StartsWith(line, "[") && EndsWith(line, "]")
    ensures kind.Header? ==> "[" + kind.name + "]" == line
    ensures kind.KeyLine? ==> line == KeyPrefix(kind.key) + kind.value
    ensures kind.KeyLine? && kind.key == LevelKey ==> kind.number == ParseInt(kind.value)
    ensures kind.Other? ==> kind.text == line
    ensures kind.Other? ==> forall key: Key :: !StartsWith(line, KeyPrefix(key))
  {
    if StartsWith(line, "[") && EndsWith(line, "]") then
      assert line[0] == '[' by {
        assert line[..1] == "[";
      }
      assert line[|line| - 1] == ']' by {
        assert line[|line| - 1..] == "]";
      }
      assert |line| >= 2;
      assert line == "[" + line[1..|line| - 1] + "]";
      Header(line[1..|line| - 1])
    else if StartsWith(line, "ver=") then KeyLine(VerKey, line[4..], None)
    else if StartsWith(line, "changelog=") then KeyLine(ChangelogKey, line[10..], None)
    else if StartsWith(line, "level=") then KeyLine(LevelKey, line[6..], ParseInt(line[6..]))
    else if StartsWith(line, "url=") then KeyLine(UrlKey, line[4..], None)
    else Other(line)
  }

  predicate IsKey(kind: LineKind, key: Key) {
    kind.KeyLine? && kind.key == key
  }

  // ---------------------------------------------------------------------------
  // The parse loop

  /** The loop variables of the parse. */
  datatype ParserState = ParserState(
    version: Option<string>,
    verCode: Option<string>,
    changelog: string,
    level: Option<int>,
    url: Option<string>,
    inChangelog: bool,
    entries: seq<VersionInfo>)

  const Initial := ParserState(None, None, "", None, None, false, [])

  /** The record a header flushes, or the final flush writes. */
  function Pending(st: ParserState): VersionInfo
    requires st.version.Some?
  {
    MakeVersionInfo(st.version.value, st.verCode, st.changelog, st.level, st.url)
  }

  /** One line of the loop, by its kind; `None` where `int()` raised on a
      `level=` value. */
  function Step(st: ParserState, kind: LineKind): (r: Option<ParserState>)
    ensures r.None? <==> IsKey(kind, LevelKey) && kind.number.None?
    // A header appends the pending record exactly when the current label is
    // not empty, and resets everything but (without a flush) the changelog.
    ensures kind.Header? ==>
      && r.Some?
      && r.value.version == Some(kind.name)
      && r.value.verCode.None? && r.value.level.None? && r.value.url.None?
      && !r.value.inChangelog
      && r.value.entries == (if Truthy(st.version) then st.entries + [Pending(st)] else st.entries)
      && r.value.changelog == (if Truthy(st.version) then "" else st.changelog)
    // Every other line leaves the records and the label alone.
    ensures !kind.Header? && r.Some? ==>
      r.value.entries == st.entries && r.value.version == st.version
    ensures IsKey(kind, VerKey) ==> r == Some(st.(verCode := Some(kind.value)))
    ensures IsKey(kind, UrlKey) ==> r == Some(st.(url := Some(kind.value)))
    ensures IsKey(kind, LevelKey) && r.Some? ==> r == Some(st.(level := kind.number))
    // `changelog=` overwrites the changelog and opens the continuation ...
    ensures IsKey(kind, ChangelogKey) ==>
      r == Some(st.(changelog := DecodeNewlines(kind.value), inChangelog := true))
    // ... and while it is open every other line, blank or not, is appended.
    ensures kind.Other? ==>
      r == Some(if st.inChangelog then st.(changelog := st.changelog + "\n" + kind.text) else st)
  {
    match kind
    case Header(name) =>
      var flush := Truthy(st.version);
      Some(ParserState(Some(name), None, if flush then "" else st.changelog, None, None, false,
                       if flush then st.entries + [Pending(st)] else st.entries))
    case KeyLine(key, value, number) =>
      (match key
       case VerKey => Some(st.(verCode := Some(value)))
       case ChangelogKey => Some(st.(changelog := DecodeNewlines(value), inChangelog := true))
       case LevelKey =>
         (match number
          case None => None
          case Some(n) => Some(st.(level := Some(n))))
       case UrlKey => Some(st.(url := Some(value))))
    case Other(line) =>
      Some(if st.inChangelog then st.(changelog := st.changelog + "\n" + line) else st)
  }

  /** The loop so far: still scanning, or stopped by a `level=` value that is
      not an integer, with the records appended before it. */
  datatype Scan = Scanning(st: ParserState) | LevelError(entries: seq<VersionInfo>)

  function Run(kinds: seq<LineKind>): (r: Scan)
    ensures r.LevelError? <==> exists k :: 0 <= k < |kinds| && BadLevel(kinds[k])
  {
    if |kinds| == 0 then Scanning(Initial)
    else
      var front := kinds[..|kinds| - 1];
      assert forall k :: 0 <= k < |kinds| - 1 ==> kinds[k] == front[k];
      match Run(front)
      case LevelError(entries) => LevelError(entries)
      case Scanning(st) =>
        match Step(st, kinds[|kinds| - 1])
        case None => LevelError(st.entries)
        case Some(st') => Scanning(st')
  }

  /** A `level=` line whose value `int()` refuses. */
  predicate BadLevel(kind: LineKind) {
    IsKey(kind, LevelKey) && kind.number.None?
  }

  /** The kinds of the lines of a text, in order. */
  function Kinds(text: string): (kinds: seq<LineKind>)
    ensures |kinds| == |SplitLines(text)|
    ensures forall k :: 0 <= k < |kinds| ==> kinds[k] == Classify(SplitLines(text)[k])
  {
    var lines := SplitLines(text);
    seq(|lines|, k requires 0 <= k < |lines| => Classify(lines[k]))
  }

  /** The outcome of `fetch_versions`: the list of versions, or, when a
      `level=` value is not an integer, the records appended before it (the
      exception ends the parse and skips the selection). */
  datatype Fetched = Parsed(versions: seq<VersionInfo>) | LevelFailed(versions: seq<VersionInfo>)

  function ParseManifest(text: string): (r: Fetched)
    ensures r.LevelFailed? <==> exists k :: 0 <= k < |Kinds(text)| && BadLevel(Kinds(text)[k])
    ensures forall i :: 0 <= i < |r.versions| ==> NoLiteralNewline(r.versions[i].changelog)
  {
    ParseKinds(Kinds(text))
  }

  /** The loop over the classified lines, then the final flush, which needs
      a non-empty label and a non-empty `url=`. */
  function ParseKinds(kinds: seq<LineKind>): (r: Fetched)
    ensures r.LevelFailed? <==> exists k :: 0 <= k < |kinds| && BadLevel(kinds[k])
    ensures forall i :: 0 <= i < |r.versions| ==> NoLiteralNewline(r.versions[i].changelog)
  {
    RunChangelogsDecoded(kinds);
    match Run(kinds)
    case LevelError(entries) => LevelFailed(entries)
    case Scanning(st) =>
      Parsed(if Truthy(st.version) && Truthy(st.url) then st.entries + [Pending(st)] else st.entries)
  }

  lemma {:induction false} RunChangelogsDecoded(kinds: seq<LineKind>)
    ensures Run(kinds).Scanning? ==>
      forall i :: 0 <= i < |Run(kinds).st.entries| ==> NoLiteralNewline(Run(kinds).st.entries[i].changelog)
    ensures Run(kinds).LevelError? ==>
      forall i :: 0 <= i < |Run(kinds).entries| ==> NoLiteralNewline(Run(kinds).entries[i].changelog)
  {
    if |kinds| > 0 {
      RunChangelogsDecoded(kinds[..|kinds| - 1]);
    }
  }

  // ---------------------------------------------------------------------------
  // Reference definitions over the lines read so far

  /** No header among the lines after position `k`. */
  predicate NoHeaderAfter(kinds: seq<LineKind>, k: int) {
    forall j :: k < j < |kinds| && 0 <= j ==> !kinds[j].Header?
  }

  /** Line `k` is the last header. */
  predicate LastHeaderAt(kinds: seq<LineKind>, k: int) {
    0 <= k < |kinds| && kinds[k].Header? && NoHeaderAfter(kinds, k)
  }

  /** Line `k` is the most recent `key` line of the current section (or of
      the lines before the first header). */
  predicate LatestAt(kinds: seq<LineKind>, key: Key, k: int) {
    && 0 <= k < |kinds|
    && IsKey(kinds[k], key)
    && NoHeaderAfter(kinds, k)
    && forall j :: k < j < |kinds| && 0 <= j ==> !IsKey(kinds[j], key)
  }

  /** How one more line changes which line is the latest `key` line. */
  lemma LatestAtStep(kinds: seq<LineKind>, key: Key, k: int)
    requires |kinds| > 0
    ensures var last := kinds[|kinds| - 1];
      && (last.Header? ==> !LatestAt(kinds, key, k))
      && (IsKey(last, key) ==> (LatestAt(kinds, key, k) <==> k == |kinds| - 1))
      && (!last.Header? && !IsKey(last, key) ==>
            (LatestAt(kinds, key, k) <==> LatestAt(kinds[..|kinds| - 1], key, k)))
  {
    var n := |kinds|;
    var front := kinds[..n - 1];
    assert forall j :: 0 <= j < n - 1 ==> kinds[j] == front[j];
  }

  /** The labels of all header lines, in order. */
  function Labels(kinds: seq<LineKind>): (labels: seq<string>)
    ensures |labels| <= |kinds|
  {
    if |kinds| == 0 then []
    else
      var front := Labels(kinds[..|kinds| - 1]);
      match kinds[|kinds| - 1]
      case Header(name) => front + [name]
      case _ => front
  }

  function NonEmpty(labels: seq<string>): seq<string> {
    if |labels| == 0 then []
    else NonEmpty(labels[..|labels| - 1]) + (if |labels[|labels| - 1]| > 0 then [labels[|labels| - 1]] else [])
  }

  /** The labels of the records a header has flushed: every non-empty label
      that a later header follows. */
  function Flushed(kinds: seq<LineKind>): seq<string> {
    var labels := Labels(kinds);
    if |labels| == 0 then [] else NonEmpty(labels[..|labels| - 1])
  }

  function Versions(entries: seq<VersionInfo>): (vs: seq<string>)
    ensures |vs| == |entries|
    ensures forall i :: 0 <= i < |entries| ==> vs[i] == entries[i].version
  {
    seq(|entries|, i requires 0 <= i < |entries| => entries[i].version)
  }

  // ---------------------------------------------------------------------------
  // What the loop state holds

  /** The label is the last header's; before any header there is none. */
  lemma {:induction false} RunVersion(kinds: seq<LineKind>)
    requires Run(kinds).Scanning?
    ensures Run(kinds).st.version.Some? <==> |Labels(kinds)| > 0
    ensures |Labels(kinds)| > 0 ==> Run(kinds).st.version == Some(Labels(kinds)[|Labels(kinds)| - 1])
  {
    if |kinds| > 0 {
      RunVersion(kinds[..|kinds| - 1]);
    }
  }

  /** The records appended at headers are those of the non-empty labels
      followed by a later header, in manifest order. */
  lemma {:induction false} RunEntries(kinds: seq<LineKind>)
    requires Run(kinds).Scanning?
    ensures Versions(Run(kinds).st.entries) == Flushed(kinds)
  {
    if |kinds| > 0 {
      var front := kinds[..|kinds| - 1];
      var st := Run(front).st;
      RunEntries(front);
      RunVersion(front);
      FlushedStep(kinds);
      if kinds[|kinds| - 1].Header? && Truthy(st.version) {
        VersionsSnoc(st.entries, Pending(st));
      }
    }
  }

  /** One more line adds to the flushed labels only when it is a header
      after a non-empty label. */
  lemma FlushedStep(kinds: seq<LineKind>)
    requires |kinds| > 0
    ensures var labels := Labels(kinds[..|kinds| - 1]);
      Flushed(kinds)
        == if kinds[|kinds| - 1].Header? && |labels| > 0 && |Last(labels)| > 0
           then Flushed(kinds[..|kinds| - 1]) + [Last(labels)]
           else Flushed(kinds[..|kinds| - 1])
  {
    var labels := Labels(kinds[..|kinds| - 1]);
    if kinds[|kinds| - 1].Header? {
      assert Labels(kinds)[..|Labels(kinds)| - 1] == labels;
    }
  }

  lemma VersionsSnoc(entries: seq<VersionInfo>, v: VersionInfo)
    ensures Versions(entries + [v]) == Versions(entries) + [v.version]
  {
  }

  /** `ver=` and `url=` hold the last such value of the current section, and
      nothing when the section has none: a header resets them. */
  lemma {:induction false} RunField(kinds: seq<LineKind>, key: Key)
    requires Run(kinds).Scanning? && (key == VerKey || key == UrlKey)
    ensures forall k :: LatestAt(kinds, key, k) ==>
      Field(Run(kinds).st, key) == Some(kinds[k].value)
    ensures (forall k :: !LatestAt(kinds, key, k)) ==> Field(Run(kinds).st, key).None?
  {
    if |kinds| > 0 {
      var front := kinds[..|kinds| - 1];
      RunField(front, key);
      forall k
        ensures LatestAt(kinds, key, k) ==> Field(Run(kinds).st, key) == Some(kinds[k].value)
        ensures !kinds[|kinds| - 1].Header? && !IsKey(kinds[|kinds| - 1], key) ==>
          (LatestAt(kinds, key, k) <==> LatestAt(front, key, k))
      {
        LatestAtStep(kinds, key, k);
      }
      LatestAtStep(kinds, key, |kinds| - 1);
    }
  }

  function Field(st: ParserState, key: Key): Option<string> {
    if key == VerKey then st.verCode else if key == UrlKey then st.url else None
  }

  /** `level=` holds the value of the section's last `level=` line, and
      nothing when the section has none. */
  lemma {:induction false} RunLevel(kinds: seq<LineKind>)
    requires Run(kinds).Scanning?
    ensures forall k :: LatestAt(kinds, LevelKey, k) ==>
      Run(kinds).st.level == kinds[k].number
    ensures (forall k :: !LatestAt(kinds, LevelKey, k)) ==> Run(kinds).st.level.None?
  {
    if |kinds| > 0 {
      var front := kinds[..|kinds| - 1];
      RunLevel(front);
      forall k
        ensures LatestAt(kinds, LevelKey, k) ==> Run(kinds).st.level == kinds[k].number
        ensures !kinds[|kinds| - 1].Header? && !IsKey(kinds[|kinds| - 1], LevelKey) ==>
          (LatestAt(kinds, LevelKey, k) <==> LatestAt(front, LevelKey, k))
      {
        LatestAtStep(kinds, LevelKey, k);
      }
      LatestAtStep(kinds, LevelKey, |kinds| - 1);
    }
  }

  /** The lines that continue a changelog: every line that is
      neither a header nor a key, each preceded by a newline. */
  function Continuation(kinds: seq<LineKind>): string {
    if |kinds| == 0 then ""
    else
      Continuation(kinds[..|kinds| - 1])
      + match kinds[|kinds| - 1]
        case Other(text) => "\n" + text
        case _ => ""
  }

  /** Once `changelog=` was read in the current section, the changelog is
      its decoded value followed by every later non-key line of the section,
      blank lines included; the continuation is open exactly then. */
  lemma {:induction false} RunChangelog(kinds: seq<LineKind>)
    requires Run(kinds).Scanning?
    ensures Run(kinds).st.inChangelog <==> exists k :: LatestAt(kinds, ChangelogKey, k)
    ensures forall k :: LatestAt(kinds, ChangelogKey, k) ==>
      Run(kinds).st.changelog == DecodeNewlines(kinds[k].value) + Continuation(kinds[k + 1..])
  {
    RunChangelogOpen(kinds);
    if |kinds| > 0 {
      var n := |kinds|;
      var front := kinds[..n - 1];
      RunChangelog(front);
      var st := Run(front).st;
      assert Run(kinds) == Scanning(Step(st, kinds[n - 1]).value);
      forall k | LatestAt(kinds, ChangelogKey, k)
        ensures Run(kinds).st.changelog == DecodeNewlines(kinds[k].value) + Continuation(kinds[k + 1..])
      {
        LatestAtStep(kinds, ChangelogKey, k);
        if k < n - 1 {
          assert LatestAt(front, ChangelogKey, k);
          assert kinds[k + 1..][..|kinds[k + 1..]| - 1] == front[k + 1..];
          AppendLine(st, kinds[n - 1], DecodeNewlines(kinds[k].value), Continuation(front[k + 1..]));
        } else {
          assert kinds[n..] == [];
        }
      }
    }
  }

  /** The continuation is open exactly when the current section has a
      `changelog=` line. */
  lemma {:induction false} RunChangelogOpen(kinds: seq<LineKind>)
    requires Run(kinds).Scanning?
    ensures Run(kinds).st.inChangelog <==> exists k :: LatestAt(kinds, ChangelogKey, k)
  {
    if |kinds| > 0 {
      var n := |kinds|;
      var front := kinds[..n - 1];
      RunChangelogOpen(front);
      forall k
        ensures !kinds[n - 1].Header? && !IsKey(kinds[n - 1], ChangelogKey) ==>
          (LatestAt(kinds, ChangelogKey, k) <==> LatestAt(front, ChangelogKey, k))
      {
        LatestAtStep(kinds, ChangelogKey, k);
      }
      LatestAtStep(kinds, ChangelogKey, n - 1);
    }
  }

  /** A line that is neither a header nor `changelog=` extends the open
      changelog by its own continuation. */
  lemma AppendLine(st: ParserState, kind: LineKind, head: string, tail: string)
    requires st.inChangelog && st.changelog == head + tail
    requires !kind.Header? && !IsKey(kind, ChangelogKey) && Step(st, kind).Some?
    ensures Step(st, kind).value.inChangelog
    ensures Step(st, kind).value.changelog
         == head + (tail + match kind case Other(text) => "\n" + text case _ => "")
  {
  }

  // ---------------------------------------------------------------------------
  // The result of the parse

  /** The versions listed: every non-empty label followed by a later header,
      then the last section's label when it is non-empty and the section has
      a non-empty `url=`, in manifest order. */
  lemma ParsedVersions(kinds: seq<LineKind>)
    requires ParseKinds(kinds).Parsed?
    ensures Versions(ParseKinds(kinds).versions)
      == Flushed(kinds) + (if NamedLast(kinds) && HasUrl(kinds) then [Last(Labels(kinds))] else [])
  {
    var st := Run(kinds).st;
    RunEntries(kinds);
    VersionTruthy(kinds);
    UrlTruthy(kinds);
    if Truthy(st.version) && Truthy(st.url) {
      assert ParseKinds(kinds).versions == st.entries + [Pending(st)];
      assert Versions(st.entries + [Pending(st)]) == Versions(st.entries) + [st.version.value];
    } else {
      assert ParseKinds(kinds).versions == st.entries;
    }
  }

  /** The last section has a non-empty label. */
  predicate NamedLast(kinds: seq<LineKind>) {
    |Labels(kinds)| > 0 && |Last(Labels(kinds))| > 0
  }

  /** The last section's last `url=` line has a non-empty value. */
  predicate HasUrl(kinds: seq<LineKind>) {
    exists k :: 0 <= k < |kinds| && LatestAt(kinds, UrlKey, k) && |kinds[k].value| > 0
  }

  lemma VersionTruthy(kinds: seq<LineKind>)
    requires Run(kinds).Scanning?
    ensures Truthy(Run(kinds).st.version) <==> NamedLast(kinds)
    ensures NamedLast(kinds) ==> Run(kinds).st.version == Some(Last(Labels(kinds)))
  {
    RunVersion(kinds);
  }

  /** The url is truthy exactly when the section's last `url=` line has a
      non-empty value. */
  lemma UrlTruthy(kinds: seq<LineKind>)
    requires Run(kinds).Scanning?
    ensures Truthy(Run(kinds).st.url) <==> HasUrl(kinds)
  {
    var url := Run(kinds).st.url;
    RunField(kinds, UrlKey);
    assert Field(Run(kinds).st, UrlKey) == url;
    if Truthy(url) {
      var k :| LatestAt(kinds, UrlKey, k);
      assert url == Some(kinds[k].value);
    }
  }

  // ---------------------------------------------------------------------------
  // What each record holds

  /** Line `h` is a header that closes a section with a non-empty label, so
      the loop appends that section's record there. */
  predicate FlushesAt(kinds: seq<LineKind>, h: int) {
    0 <= h < |kinds| && kinds[h].Header? && NamedLast(kinds[..h])
  }

  /** `v` is the value of the latest `key` line of the last section of
      `sec`, or nothing when that section has none. */
  ghost predicate FieldFrom(sec: seq<LineKind>, key: Key, v: Option<string>) {
    && (forall k :: LatestAt(sec, key, k) ==> v == Some(sec[k].value))
    && ((forall k :: !LatestAt(sec, key, k)) ==> v.None?)
  }

  /** `v` is the record of the last section of the lines `sec`, read from
      the lines alone: its label, the latest `ver=`, `level=` and `url=`
      values of the section, and the changelog from the section's latest
      `changelog=` line and the plain lines after it (decoded when the line
      is read and once more when the record is built). A section without
      its own `changelog=` line has an empty changelog when the header
      opening it flushed a named section, and when no `changelog=` line came
      before at all. */
  ghost predicate RecordOf(sec: seq<LineKind>, v: VersionInfo) {
    && NamedLast(sec)
    && v.version == Last(Labels(sec))
    && FieldFrom(sec, VerKey, v.verCode)
    && FieldFrom(sec, UrlKey, v.url)
    && (forall k :: LatestAt(sec, LevelKey, k) ==> v.level == sec[k].number)
    && ((forall k :: !LatestAt(sec, LevelKey, k)) ==> v.level.None?)
    && (forall k :: LatestAt(sec, ChangelogKey, k) ==>
          v.changelog == DecodeNewlines(DecodeNewlines(sec[k].value) + Continuation(sec[k + 1..])))
    && ((forall k :: 0 <= k < |sec| ==> !IsKey(sec[k], ChangelogKey)) ==> v.changelog == "")
    && (forall g :: LastHeaderAt(sec, g) && NamedLast(sec[..g]) && NoChangelogAfter(sec, g) ==>
          v.changelog == "")
  }

  /** No `changelog=` line after position `g`. */
  predicate NoChangelogAfter(kinds: seq<LineKind>, g: int) {
    forall k :: g < k < |kinds| && 0 <= k ==> !IsKey(kinds[k], ChangelogKey)
  }

  /** Record `j` is the one some header appends after `j` earlier records,
      and holds what the section that header closes says. */
  ghost predicate RecordAt(kinds: seq<LineKind>, j: nat, v: VersionInfo) {
    exists h :: FlushesAt(kinds, h) && |Flushed(kinds[..h])| == j && RecordOf(kinds[..h], v)
  }

  /** Without a `changelog=` line the changelog stays empty and closed. */
  lemma {:induction false} RunChangelogNone(kinds: seq<LineKind>)
    requires Run(kinds).Scanning?
    requires forall k :: 0 <= k < |kinds| ==> !IsKey(kinds[k], ChangelogKey)
    ensures Run(kinds).st.changelog == "" && !Run(kinds).st.inChangelog
  {
    if |kinds| > 0 {
      RunChangelogNone(kinds[..|kinds| - 1]);
    }
  }

  /** The record built from the loop state at the end of a named section
      holds what the section's lines say. */
  lemma PendingRecord(sec: seq<LineKind>)
    requires Run(sec).Scanning? && NamedLast(sec)
    ensures Run(sec).st.version.Some? && RecordOf(sec, Pending(Run(sec).st))
  {
    var st := Run(sec).st;
    VersionTruthy(sec);
    RunField(sec, VerKey);
    RunField(sec, UrlKey);
    RunLevel(sec);
    RunChangelog(sec);
    assert NoLiteralNewline("");
    if forall k :: 0 <= k < |sec| ==> !IsKey(sec[k], ChangelogKey) {
      RunChangelogNone(sec);
    }
    forall g | LastHeaderAt(sec, g) && NamedLast(sec[..g]) && NoChangelogAfter(sec, g)
      ensures st.changelog == ""
    {
      ResetPersists(sec, g, |sec|);
      assert sec[..|sec|] == sec;
    }
  }

  /** A header that flushes a named section empties the changelog and closes
      the continuation, and lines after it that are not `changelog=` keep it
      that way. */
  lemma {:induction false} ResetPersists(sec: seq<LineKind>, g: nat, m: nat)
    requires Run(sec).Scanning? && LastHeaderAt(sec, g) && NamedLast(sec[..g])
    requires NoChangelogAfter(sec, g) && g < m <= |sec|
    ensures Run(sec[..m]).Scanning?
    ensures Run(sec[..m]).st.changelog == "" && !Run(sec[..m]).st.inChangelog
    decreases m
  {
    PrefixScanning(sec, m);
    PrefixScanning(sec, m - 1);
    assert sec[..m][..m - 1] == sec[..m - 1];
    if m == g + 1 {
      VersionTruthy(sec[..g]);
    } else {
      ResetPersists(sec, g, m - 1);
      assert !sec[m - 1].Header? && !IsKey(sec[m - 1], ChangelogKey);
    }
  }

  /** A loop that never stopped did not stop on any prefix either. */
  lemma PrefixScanning(kinds: seq<LineKind>, m: nat)
    requires Run(kinds).Scanning? && m <= |kinds|
    ensures Run(kinds[..m]).Scanning?
  {
    assert forall k :: 0 <= k < m ==> kinds[..m][k] == kinds[k];
  }

  /** A record appended before the last line is still where it was. */
  lemma RecordAtExtend(kinds: seq<LineKind>, j: nat, v: VersionInfo)
    requires |kinds| > 0 && RecordAt(kinds[..|kinds| - 1], j, v)
    ensures RecordAt(kinds, j, v)
  {
    var front := kinds[..|kinds| - 1];
    var h :| FlushesAt(front, h) && |Flushed(front[..h])| == j && RecordOf(front[..h], v);
    assert front[..h] == kinds[..h];
    assert FlushesAt(kinds, h);
  }

  /** A record appended by the last line is the section that line closes. */
  lemma RecordAtLast(kinds: seq<LineKind>)
    requires |kinds| > 0 && Run(kinds).Scanning?
    requires Run(kinds[..|kinds| - 1]).Scanning?
    requires |Run(kinds[..|kinds| - 1]).st.entries| < |Run(kinds).st.entries|
    ensures RecordAt(kinds, |Run(kinds[..|kinds| - 1]).st.entries|,
                     Run(kinds).st.entries[|Run(kinds[..|kinds| - 1]).st.entries|])
  {
    var h := |kinds| - 1;
    var front := kinds[..h];
    var st := Run(front).st;
    assert Run(kinds) == Scanning(Step(st, kinds[h]).value);
    assert kinds[h].Header? && Truthy(st.version);
    VersionTruthy(front);
    RunEntries(front);
    PendingRecord(front);
    assert Run(kinds).st.entries[|st.entries|] == Pending(st);
    assert FlushesAt(kinds, h);
  }

  /** Every record the loop appended holds its own section. */
  lemma {:induction false} RunRecords(kinds: seq<LineKind>)
    requires Run(kinds).Scanning?
    ensures forall j :: 0 <= j < |Run(kinds).st.entries| ==> RecordAt(kinds, j, Run(kinds).st.entries[j])
  {
    if |kinds| > 0 {
      var front := kinds[..|kinds| - 1];
      var st := Run(front).st;
      RunRecords(front);
      var entries := Run(kinds).st.entries;
      assert entries[..|st.entries|] == st.entries;
      forall j | 0 <= j < |entries|
        ensures RecordAt(kinds, j, entries[j])
      {
        if j < |st.entries| {
          assert entries[j] == st.entries[j];
          RecordAtExtend(kinds, j, entries[j]);
        } else {
          RecordAtLast(kinds);
        }
      }
    }
  }

  /** Each listed version holds the `ver=`, `level=`, `url=` and changelog
      of its own section: record `j` of those a header appended is the
      section that header closes, and the one the final flush appends is
      the last section. */
  lemma ParsedRecords(kinds: seq<LineKind>)
    requires ParseKinds(kinds).Parsed?
    ensures |ParseKinds(kinds).versions|
         == |Flushed(kinds)| + (if NamedLast(kinds) && HasUrl(kinds) then 1 else 0)
    ensures forall j :: 0 <= j < |Flushed(kinds)| ==> RecordAt(kinds, j, ParseKinds(kinds).versions[j])
    ensures NamedLast(kinds) && HasUrl(kinds) ==>
      RecordOf(kinds, ParseKinds(kinds).versions[|Flushed(kinds)|])
  {
    var st := Run(kinds).st;
    ParsedVersions(kinds);
    RunEntries(kinds);
    RunRecords(kinds);
    VersionTruthy(kinds);
    UrlTruthy(kinds);
    if NamedLast(kinds) && HasUrl(kinds) {
      PendingRecord(kinds);
      assert ParseKinds(kinds).versions == st.entries + [Pending(st)];
    } else {
      assert ParseKinds(kinds).versions == st.entries;
    }
  }

  /** A bad `level=` line at `b` ends the parse with what the loop had
      appended before it, each record holding its own section. */
  lemma {:induction false} LevelFailedRecords(kinds: seq<LineKind>)
    requires Run(kinds).LevelError?
    ensures exists b :: FailsAt(kinds, b) && Run(kinds).entries == Run(kinds[..b]).st.entries
  {
    var front := kinds[..|kinds| - 1];
    if Run(front).LevelError? {
      LevelFailedRecords(front);
      var b :| FailsAt(front, b) && Run(front).entries == Run(front[..b]).st.entries;
      FailsEarlier(kinds, b);
      ErrorSticks(kinds);
    } else {
      FailsLast(kinds);
    }
  }

  lemma FailsEarlier(kinds: seq<LineKind>, b: int)
    requires |kinds| > 0 && FailsAt(kinds[..|kinds| - 1], b)
    ensures FailsAt(kinds, b) && kinds[..|kinds| - 1][..b] == kinds[..b]
  {
    var front := kinds[..|kinds| - 1];
    assert front[..b] == kinds[..b];
    assert kinds[b] == front[b];
    assert forall k :: 0 <= k < b ==> kinds[k] == front[k];
  }

  /** Once stopped, the loop stays stopped with the same records. */
  lemma ErrorSticks(kinds: seq<LineKind>)
    requires |kinds| > 0 && Run(kinds[..|kinds| - 1]).LevelError?
    ensures Run(kinds) == Run(kinds[..|kinds| - 1])
  {
  }

  lemma FailsLast(kinds: seq<LineKind>)
    requires |kinds| > 0 && Run(kinds).LevelError? && Run(kinds[..|kinds| - 1]).Scanning?
    ensures FailsAt(kinds, |kinds| - 1)
    ensures Run(kinds).entries == Run(kinds[..|kinds| - 1]).st.entries
  {
    var front := kinds[..|kinds| - 1];
    assert forall k :: 0 <= k < |kinds| - 1 ==> kinds[k] == front[k];
  }

  /** Line `b` is the first bad `level=` line. */
  predicate FailsAt(kinds: seq<LineKind>, b: int) {
    && 0 <= b < |kinds| && BadLevel(kinds[b])
    && (forall k :: 0 <= k < b ==> !BadLevel(kinds[k]))
    && Run(kinds[..b]).Scanning?
  }

  /** When a `level=` value is not an integer, the versions kept are the
      records appended before the first such line, each holding its own
      section. */
  lemma FailedRecords(kinds: seq<LineKind>)
    requires ParseKinds(kinds).LevelFailed?
    ensures exists b ::
              && FailsAt(kinds, b)
              && |ParseKinds(kinds).versions| == |Flushed(kinds[..b])|
              && forall j :: 0 <= j < |ParseKinds(kinds).versions| ==>
                   RecordAt(kinds[..b], j, ParseKinds(kinds).versions[j])
  {
    LevelFailedRecords(kinds);
    var b :| FailsAt(kinds, b) && Run(kinds).entries == Run(kinds[..b]).st.entries;
    RunRecords(kinds[..b]);
    RunEntries(kinds[..b]);
  }

  const ExampleKinds: seq<LineKind> :=
    [Header("1.0"), KeyLine(VerKey, "10", None), KeyLine(ChangelogKey, "a\\nb", None), Other("more"),
     Header("2.0"), KeyLine(LevelKey, "0", Some(0)), KeyLine(UrlKey, "u", None)]

  lemma ExampleDecode()
    ensures DecodeNewlines("a\\nb") == "a\nb"
    ensures NoLiteralNewline("a\nb\nmore") && NoLiteralNewline("")
  {
    assert DecodeNewlines("b") == "b";
  }

  /** One more line of the loop. */
  lemma RunExtend(kinds: seq<LineKind>, n: nat, st: ParserState)
    requires n < |kinds| && Run(kinds[..n]) == Scanning(st) && Step(st, kinds[n]).Some?
    ensures Run(kinds[..n + 1]) == Scanning(Step(st, kinds[n]).value)
  {
    assert kinds[..n + 1][..n] == kinds[..n];
  }

  /** The lines of `ExampleKinds`, stated one by one. */
  predicate IsExample(k: seq<LineKind>) {
    && |k| == 7
    && k[0] == Header("1.0") && k[1] == KeyLine(VerKey, "10", None)
    && k[2] == KeyLine(ChangelogKey, "a\\nb", None) && k[3] == Other("more")
    && k[4] == Header("2.0") && k[5] == KeyLine(LevelKey, "0", Some(0))
    && k[6] == KeyLine(UrlKey, "u", None)
  }

  /** The first section: `changelog=` opens the continuation and `more` is
      appended to it. */
  lemma ExampleFirstSection(k: seq<LineKind>)
    requires IsExample(k)
    ensures Run(k[..4])
         == Scanning(ParserState(Some("1.0"), Some("10"), "a\nb\nmore", None, None, true, []))
  {
    ExampleDecode();
    assert k[..0] == [];
    var s1 := ParserState(Some("1.0"), None, "", None, None, false, []);
    var s2 := s1.(verCode := Some("10"));
    var s3 := s2.(changelog := "a\nb", inChangelog := true);
    RunExtend(k, 0, Initial);
    RunExtend(k, 1, s1);
    RunExtend(k, 2, s2);
    RunExtend(k, 3, s3);
  }

  /** The second header flushes the first section although it has no
      `url=`. */
  lemma ExampleFlush(k: seq<LineKind>)
    requires IsExample(k)
    ensures Run(k[..5])
         == Scanning(ParserState(Some("2.0"), None, "", None, None, false,
                                 [VersionInfo("1.0", Some("10"), "a\nb\nmore", None, None)]))
  {
    ExampleDecode();
    ExampleFirstSection(k);
    var s4 := ParserState(Some("1.0"), Some("10"), "a\nb\nmore", None, None, true, []);
    FlushStep(s4, "2.0");
    RunExtend(k, 4, s4);
  }

  /** The second section keeps its `level=` and `url=` lines. */
  lemma ExampleSecondSection(k: seq<LineKind>)
    requires IsExample(k)
    ensures Run(k)
         == Scanning(ParserState(Some("2.0"), None, "", Some(0), Some("u"), false,
                                 [VersionInfo("1.0", Some("10"), "a\nb\nmore", None, None)]))
  {
    ExampleFlush(k);
    var s5 := ParserState(Some("2.0"), None, "", None, None, false,
                          [VersionInfo("1.0", Some("10"), "a\nb\nmore", None, None)]);
    RunExtend(k, 5, s5);
    RunExtend(k, 6, s5.(level := Some(0)));
    assert k[..7] == k;
  }

  /** A header after a named section whose changelog holds no backslash-n
      pair appends that section as it stands. */
  lemma FlushStep(st: ParserState, name: string)
    requires Truthy(st.version) && NoLiteralNewline(st.changelog)
    ensures Step(st, Header(name))
         == Some(ParserState(Some(name), None, "", None, None, false,
                             st.entries + [VersionInfo(st.version.value, st.verCode, st.changelog, st.level, st.url)]))
  {
  }

  /** Two sections, the first without `url=`: both are listed, and the text
      after `changelog=` continues over the following plain line. */
  lemma ParseExample()
    ensures ParseKinds(ExampleKinds)
         == Parsed([VersionInfo("1.0", Some("10"), "a\nb\nmore", None, None),
                    VersionInfo("2.0", None, "", Some(0), Some("u"))])
  {
    ExampleDecode();
    ExampleSecondSection(ExampleKinds);
  }

  /** A section without its own `changelog=` line, opened by a header that
      flushed a named section, has an empty changelog even though an earlier
      section had one. */
  lemma ChangelogResetExample()
    ensures !RecordOf([Header("a"), KeyLine(ChangelogKey, "x", None), Header("b")],
                      VersionInfo("b", None, "zzz", None, None))
  {
    var sec := [Header("a"), KeyLine(ChangelogKey, "x", None), Header("b")];
    assert LastHeaderAt(sec, 2);
    assert sec[..2] == [Header("a"), KeyLine(ChangelogKey, "x", None)];
    assert NamedLast(sec[..2]);
  }

  // ---------------------------------------------------------------------------
  // Choosing the version to download

  /** A version whose `level` is 0 cannot be chosen; one without `level=`
      can. */
  predicate Enabled(v: VersionInfo) {
    v.level != Some(0)
  }

  /** The chosen version and whether the download button is enabled. */
  datatype Selection = Selection(selected: Option<VersionInfo>, downloadEnabled: bool)

  /** The index of the first enabled version. */
  function FirstEnabled(versions: seq<VersionInfo>): (r: Option<nat>)
    ensures r.Some? ==> r.value < |versions| && Enabled(versions[r.value])
                        && forall j :: 0 <= j < r.value ==> !Enabled(versions[j])
    ensures r.None? ==> forall j :: 0 <= j < |versions| ==> !Enabled(versions[j])
  {
    if |versions| == 0 then None
    else if Enabled(versions[0]) then Some(0)
    else
      match FirstEnabled(versions[1..])
      case None => None
      case Some(i) => Some(i + 1)
  }

  /** After the list is rebuilt: the first enabled version is chosen and the
      button enabled; with none, the button is disabled and the previous
      choice stays. */
  function DefaultSelection(versions: seq<VersionInfo>, previous: Selection): (r: Selection)
    ensures r.downloadEnabled <==> exists i :: 0 <= i < |versions| && Enabled(versions[i])
    ensures r.downloadEnabled ==>
      exists i :: 0 <= i < |versions| && r.selected == Some(versions[i])
                  && Enabled(versions[i]) && forall j :: 0 <= j < i ==> !Enabled(versions[j])
    ensures !r.downloadEnabled ==> r.selected == previous.selected
  {
    match FirstEnabled(versions)
    case Some(i) => Selection(Some(versions[i]), true)
    case None => Selection(previous.selected, false)
  }

  /** `fetch_versions` on the manifest text: the new list and selection; a
      bad `level=` leaves the selection as it was. */
  function FetchVersions(text: string, previous: Selection): (r: (seq<VersionInfo>, Selection))
    ensures ParseManifest(text).LevelFailed? ==> r.1 == previous
    ensures ParseManifest(text).Parsed? ==> r.1 == DefaultSelection(r.0, previous)
    ensures r.0 == ParseManifest(text).versions
  {
    match ParseManifest(text)
    case LevelFailed(versions) => (versions, previous)
    case Parsed(versions) => (versions, DefaultSelection(versions, previous))
  }

  /** Clicking a version: a disabled one turns the button off and keeps the
      old choice; any other becomes the choice. */
  function OnVersionSelect(previous: Selection, info: VersionInfo): (r: Selection)
    ensures Enabled(info) ==> r == Selection(Some(info), true)
    ensures !Enabled(info) ==> r == previous.(downloadEnabled := false)
  {
    if info.level == Some(0) then previous.(downloadEnabled := false)
    else Selection(Some(info), true)
  }

  /** The button is only ever enabled with an enabled version chosen. */
  predicate Consistent(s: Selection) {
    s.downloadEnabled ==> s.selected.Some? && Enabled(s.selected.value)
  }

  lemma SelectionStaysConsistent(s: Selection, text: string, info: VersionInfo)
    requires Consistent(s)
    ensures Consistent(FetchVersions(text, s).1)
    ensures Consistent(OnVersionSelect(s, info))
  {
  }
}

=== FILE: parts.dfy ===
/** Part files of a multi-threaded download: worker `i` writes its bytes to
    `save_path + ".part" + str(i)`, and the merger orders the finished part
    paths by reading the number back out of each path, then sorting. */
module PartFiles {
  import opened Common
  import opened Text
  import opened Decimal

  /** The path worker `index` writes its range to. */
  function PartPath(savePath: string, index: nat): string {
    savePath + ".part" + NatToString(index)
  }

  /** The part paths of all `count` workers, in index order. */
  function PartNames(savePath: string, count: nat): (names: seq<string>)
    ensures |names| == count
    ensures forall i :: 0 <= i < count ==> names[i] == PartPath(savePath, i)
  {
    seq(count, i requires 0 <= i < count => PartPath(savePath, i))
  }

  /** The merger's sort key `int(x.split('.')[-1].split('part')[-1])`;
      `None` where `int` raises `ValueError`. */
  function SortKey(path: string): Option<int> {
    ParseInt(Last(Split(Last(Split(path, ".")), "part")))
  }

  /** Reading the key back out of a part path gives the worker index, whatever
      the save path is (it may itself contain dots or the word "part"). */
  lemma PartPathKey(savePath: string, index: nat)
    requires StrWithinLimit(index)
    ensures SortKey(PartPath(savePath, index)) == Some(index)
  {
    var digits := NatToString(index);
    var suffix := "part" + digits;
    assert '.' !in suffix by {
      assert forall k :: 0 <= k < |digits| ==> suffix[4 + k] == digits[k];
    }
    assert PartPath(savePath, index) == savePath + ['.'] + suffix;
    SplitLastAfterChar(savePath, '.', suffix, "");
    assert NoOccurrence(digits, "part") by {
      forall i | 0 <= i <= |digits|
        ensures !OccursAt(digits, "part", i)
      {
        if i + 4 <= |digits| {
          assert digits[i..i + 4][0] == digits[i];
        }
      }
    }
    SplitLastAfterPrefix("part", digits);
    ParseNatToString(index);
  }

  /** Different workers write to different paths. */
  lemma PartPathInjective(savePath: string, i: nat, j: nat)
    requires PartPath(savePath, i) == PartPath(savePath, j)
    ensures i == j
  {
    var prefix := |savePath| + 5;
    assert PartPath(savePath, i)[prefix..] == NatToString(i);
    assert PartPath(savePath, j)[prefix..] == NatToString(j);
    NatToStringInjective(i, j);
  }

  /** Every worker index below `count` has a decimal text `str` can write,
      so every part path of the task can be built. */
  predicate IndicesWithinLimit(count: nat) {
    count == 0 || StrWithinLimit(count - 1)
  }

  lemma IndexWithinLimit(count: nat, i: nat)
    requires IndicesWithinLimit(count) && i < count
    ensures StrWithinLimit(i)
  {
    NatToStringLengthMono(i, count - 1);
  }

  /** A part path is never the save path itself. */
  lemma PartPathNotSavePath(savePath: string, index: nat)
    ensures PartPath(savePath, index) != savePath
  {
    assert |PartPath(savePath, index)| > |savePath|;
  }

  // ---------------------------------------------------------------------------
  // sorted(part_files, key=...)

  /** A path together with its sort key. */
  datatype Keyed = Keyed(key: int, path: string)

  /** Computes every key first, as `sorted` does; `None` if one of them raises. */
  function KeyAll(paths: seq<string>): (r: Option<seq<Keyed>>)
    ensures r.Some? <==> forall k :: 0 <= k < |paths| ==> SortKey(paths[k]).Some?
    ensures r.Some? ==> |r.value| == |paths|
    ensures r.Some? ==> forall k :: 0 <= k < |paths| ==> r.value[k].path == paths[k]
    ensures r.Some? ==> forall k :: 0 <= k < |paths| ==> SortKey(paths[k]) == Some(r.value[k].key)
  {
    if forall k :: 0 <= k < |paths| ==> SortKey(paths[k]).Some? then
      Some(seq(|paths|, k requires 0 <= k < |paths| => Keyed(SortKey(paths[k]).value, paths[k])))
    else None
  }

  predicate SortedByKey(s: seq<Keyed>) {
    forall i, j :: 0 <= i < j < |s| ==> s[i].key <= s[j].key
  }

  /** Puts `x` before the first element whose key is not smaller, so that of
      equal keys the earlier input stays first, as in Python's stable sort. */
  function Insert(x: Keyed, s: seq<Keyed>): (r: seq<Keyed>)
    requires SortedByKey(s)
    ensures multiset(r) == multiset(s) + multiset{x}
    ensures SortedByKey(r)
    ensures |r| == |s| + 1
    ensures r[0] == x || (|s| > 0 && r[0] == s[0])
  {
    if |s| == 0 || x.key <= s[0].key then [x] + s
    else
      var rest := Insert(x, s[1..]);
      ConsSorted(x, s, rest);
      [s[0]] + rest
  }

  /** The head of `s`, put back in front of `x` inserted into the tail. */
  lemma ConsSorted(x: Keyed, s: seq<Keyed>, rest: seq<Keyed>)
    requires SortedByKey(s) && |s| > 0 && x.key > s[0].key
    requires multiset(rest) == multiset(s[1..]) + multiset{x} && SortedByKey(rest)
    requires |rest| > 0 && (rest[0] == x || (|s| > 1 && rest[0] == s[1]))
    ensures multiset([s[0]] + rest) == multiset(s) + multiset{x}
    ensures SortedByKey([s[0]] + rest)
  {
    assert s == [s[0]] + s[1..];
    var r := [s[0]] + rest;
    forall i, j | 0 <= i < j < |r|
      ensures r[i].key <= r[j].key
    {
      if i > 0 {
        assert r[i] == rest[i - 1] && r[j] == rest[j - 1];
      } else {
        assert r[j] == rest[j - 1];
        assert rest[0].key <= rest[j - 1].key;
      }
    }
  }

  /** Python's `sorted(..., key=...)` on already computed keys. */
  function Sort(s: seq<Keyed>): (r: seq<Keyed>)
    ensures multiset(r) == multiset(s)
    ensures SortedByKey(r)
    ensures |r| == |s|
  {
    if |s| == 0 then []
    else
      assert s == [s[0]] + s[1..];
      Insert(s[0], Sort(s[1..]))
  }

  /** The paths of keyed paths, in order. */
  function Paths(s: seq<Keyed>): (paths: seq<string>)
    ensures |paths| == |s|
    ensures forall i :: 0 <= i < |s| ==> paths[i] == s[i].path
  {
    seq(|s|, i requires 0 <= i < |s| => s[i].path)
  }

  /** Both keys can be read and the first is not larger. */
  predicate KeyLe(a: string, b: string) {
    SortKey(a).Some? && SortKey(b).Some? && SortKey(a).value <= SortKey(b).value
  }

  /** The merge order: the part paths sorted by their numeric suffix, or
      `None` where a key cannot be read. */
  function SortParts(paths: seq<string>): (r: Option<seq<string>>)
    ensures r.Some? <==> forall k :: 0 <= k < |paths| ==> SortKey(paths[k]).Some?
    ensures r.Some? ==> |r.value| == |paths| && multiset(r.value) == multiset(paths)
    ensures r.Some? ==> forall i, j :: 0 <= i < j < |r.value| ==> KeyLe(r.value[i], r.value[j])
  {
    match KeyAll(paths)
    case None => None
    case Some(keyed) =>
      SortedPaths(paths, keyed);
      Some(Paths(Sort(keyed)))
  }

  /** Sorting keyed paths rearranges the paths and orders them by the keys
      read out of them. */
  lemma SortedPaths(paths: seq<string>, keyed: seq<Keyed>)
    requires KeyAll(paths) == Some(keyed)
    ensures multiset(Paths(Sort(keyed))) == multiset(paths)
    ensures forall i, j :: 0 <= i < j < |keyed| ==> KeyLe(Paths(Sort(keyed))[i], Paths(Sort(keyed))[j])
  {
    SortedPathsPermute(paths, keyed);
    SortedPathsOrdered(paths, keyed);
  }

  lemma SortedPathsPermute(paths: seq<string>, keyed: seq<Keyed>)
    requires KeyAll(paths) == Some(keyed)
    ensures multiset(Paths(Sort(keyed))) == multiset(paths)
  {
    assert Paths(keyed) == paths;
    PathsPermutation(Sort(keyed), keyed);
  }

  lemma SortedPathsOrdered(paths: seq<string>, keyed: seq<Keyed>)
    requires KeyAll(paths) == Some(keyed)
    ensures forall i, j :: 0 <= i < j < |keyed| ==> KeyLe(Paths(Sort(keyed))[i], Paths(Sort(keyed))[j])
  {
    var sorted := Sort(keyed);
    forall i, j | 0 <= i < j < |keyed|
      ensures KeyLe(Paths(sorted)[i], Paths(sorted)[j])
    {
      SortedKeyRead(paths, keyed, i);
      SortedKeyRead(paths, keyed, j);
    }
  }

  /** Each sorted entry carries the key read out of its own path. */
  lemma SortedKeyRead(paths: seq<string>, keyed: seq<Keyed>, i: nat)
    requires KeyAll(paths) == Some(keyed) && i < |keyed|
    ensures SortKey(Sort(keyed)[i].path) == Some(Sort(keyed)[i].key)
  {
    var sorted := Sort(keyed);
    assert sorted[i] in multiset(keyed);
    var k :| 0 <= k < |keyed| && keyed[k] == sorted[i];
  }

  /** Rearranging keyed paths rearranges their paths. */
  lemma {:induction false} PathsPermutation(xs: seq<Keyed>, ys: seq<Keyed>)
    requires multiset(xs) == multiset(ys)
    ensures multiset(Paths(xs)) == multiset(Paths(ys))
    decreases |xs|
  {
    if |xs| == 0 {
      assert |ys| == |multiset(ys)| == 0;
    } else {
      var init, x := xs[..|xs| - 1], xs[|xs| - 1];
      assert xs == init + [x];
      assert multiset(xs) == multiset(init) + multiset{x};
      assert x in multiset(ys);
      var k :| 0 <= k < |ys| && ys[k] == x;
      var rest := ys[..k] + ys[k + 1..];
      MultisetRemoveAt(ys, k);
      assert multiset(init) == multiset(rest) by {
        assert multiset(init) == multiset(xs) - multiset{x};
        assert multiset(rest) == multiset(ys) - multiset{x};
      }
      PathsPermutation(init, rest);
      PathsRemoveAt(ys, k);
      PathsSnoc(init, x);
    }
  }

  lemma PathsRemoveAt(ys: seq<Keyed>, k: nat)
    requires k < |ys|
    ensures multiset(Paths(ys)) == multiset(Paths(ys[..k] + ys[k + 1..])) + multiset{ys[k].path}
  {
    assert Paths(ys) == Paths(ys[..k]) + [ys[k].path] + Paths(ys[k + 1..]);
    assert Paths(ys[..k] + ys[k + 1..]) == Paths(ys[..k]) + Paths(ys[k + 1..]);
  }

  lemma PathsSnoc(xs: seq<Keyed>, x: Keyed)
    ensures multiset(Paths(xs + [x])) == multiset(Paths(xs)) + multiset{x.path}
  {
    assert Paths(xs + [x]) == Paths(xs) + [x.path];
  }


  // ---------------------------------------------------------------------------
  // Whatever order the workers finish in, sorting gives index order.

  /** `order` lists each of `0 .. count-1` exactly once: an order in which the
      workers may have finished. */
  predicate IsIndexPermutation(order: seq<nat>, count: nat) {
    && |order| == count
    && (forall k :: 0 <= k < count ==> order[k] < count)
    && Distinct(order)
  }

  /** The part paths listed in completion order. */
  function CompletedParts(savePath: string, order: seq<nat>): (paths: seq<string>)
    ensures |paths| == |order|
    ensures forall k :: 0 <= k < |order| ==> paths[k] == PartPath(savePath, order[k])
  {
    seq(|order|, k requires 0 <= k < |order| => PartPath(savePath, order[k]))
  }

  lemma DistinctCount<T>(b: seq<T>, x: T)
    requires Distinct(b)
    ensures multiset(b)[x] <= 1
  {
    if |b| > 0 {
      var front := b[..|b| - 1];
      assert b == front + [b[|b| - 1]];
      assert Distinct(front);
      DistinctCount(front, x);
      if b[|b| - 1] == x {
        assert x !in front;
      }
    }
  }

  lemma PairCount<T>(a: seq<T>, i: nat, j: nat)
    requires i < j < |a|
    ensures a[i] == a[j] ==> multiset(a)[a[i]] >= 2
  {
    assert a == a[..j] + a[j..];
    assert a[i] in multiset(a[..j]);
    assert a[j] in multiset(a[j..]);
  }

  /** A rearrangement of distinct elements has distinct elements. */
  lemma DistinctPermutation<T>(a: seq<T>, b: seq<T>)
    requires multiset(a) == multiset(b) && Distinct(b)
    ensures Distinct(a)
  {
    forall i, j | 0 <= i < j < |a|
      ensures a[i] != a[j]
    {
      PairCount(a, i, j);
      DistinctCount(b, a[i]);
    }
  }

  lemma {:induction false} StrictLower(keys: seq<int>, j: nat)
    requires forall i :: 0 <= i < |keys| ==> 0 <= keys[i]
    requires forall i :: 0 <= i < |keys| - 1 ==> keys[i] < keys[i + 1]
    requires j < |keys|
    ensures keys[j] >= j
  {
    if j > 0 {
      StrictLower(keys, j - 1);
    }
  }

  lemma {:induction false} StrictUpper(keys: seq<int>, j: nat)
    requires forall i :: 0 <= i < |keys| ==> keys[i] < |keys|
    requires forall i :: 0 <= i < |keys| - 1 ==> keys[i] < keys[i + 1]
    requires j < |keys|
    ensures keys[j] <= j
    decreases |keys| - j
  {
    if j < |keys| - 1 {
      StrictUpper(keys, j + 1);
    }
  }

  /** Keys and paths of the part files listed in completion order. */
  function KeyedParts(savePath: string, order: seq<nat>): (keyed: seq<Keyed>)
    ensures |keyed| == |order|
    ensures forall k :: 0 <= k < |order| ==> keyed[k] == Keyed(order[k], PartPath(savePath, order[k]))
  {
    seq(|order|, k requires 0 <= k < |order| => Keyed(order[k], PartPath(savePath, order[k])))
  }

  lemma KeyAllCompleted(savePath: string, order: seq<nat>)
    requires forall k :: 0 <= k < |order| ==> StrWithinLimit(order[k])
    ensures KeyAll(CompletedParts(savePath, order)) == Some(KeyedParts(savePath, order))
  {
    var paths := CompletedParts(savePath, order);
    forall k | 0 <= k < |order|
      ensures SortKey(paths[k]) == Some(order[k])
    {
      PartPathKey(savePath, order[k]);
    }
    var r := KeyAll(paths);
    assert r.Some?;
    forall k | 0 <= k < |order|
      ensures r.value[k] == KeyedParts(savePath, order)[k]
    {
      assert SortKey(paths[k]) == Some(r.value[k].key);
    }
    assert r.value == KeyedParts(savePath, order);
  }

  /** Sorting keyed part paths whose keys are the indices in any order gives
      the paths in index order. */
  lemma SortKeyedParts(savePath: string, order: seq<nat>)
    requires IsIndexPermutation(order, |order|)
    ensures forall j :: 0 <= j < |order| ==> Sort(KeyedParts(savePath, order))[j] == Keyed(j, PartPath(savePath, j))
  {
    var sorted := Sort(KeyedParts(savePath, order));
    SortedKeyedParts(savePath, order);
    KeysAreIndices(savePath, sorted);
  }

  /** The sorted keyed paths are distinct, and each pairs an index with that
      index's part path. */
  lemma SortedKeyedParts(savePath: string, order: seq<nat>)
    requires IsIndexPermutation(order, |order|)
    ensures var sorted := Sort(KeyedParts(savePath, order));
      && Distinct(sorted)
      && forall j :: 0 <= j < |order| ==>
           0 <= sorted[j].key < |order| && sorted[j].path == PartPath(savePath, sorted[j].key)
  {
    var n := |order|;
    var keyed := KeyedParts(savePath, order);
    var sorted := Sort(keyed);
    forall j | 0 <= j < n
      ensures 0 <= sorted[j].key < n && sorted[j].path == PartPath(savePath, sorted[j].key)
    {
      assert sorted[j] in multiset(keyed);
      var k :| 0 <= k < n && keyed[k] == sorted[j];
    }
    assert Distinct(keyed) by {
      forall i, j | 0 <= i < j < n
        ensures keyed[i] != keyed[j]
      {
        assert order[i] != order[j];
      }
    }
    DistinctPermutation(sorted, keyed);
  }

  /** Distinct part paths sorted by key, with keys below their count, have
      the keys 0, 1, 2, ... in turn. */
  lemma KeysAreIndices(savePath: string, sorted: seq<Keyed>)
    requires Distinct(sorted) && SortedByKey(sorted)
    requires forall j :: 0 <= j < |sorted| ==>
      0 <= sorted[j].key < |sorted| && sorted[j].path == PartPath(savePath, sorted[j].key)
    ensures forall j :: 0 <= j < |sorted| ==> sorted[j] == Keyed(j, PartPath(savePath, j))
  {
    var n := |sorted|;
    var keys := seq(n, j requires 0 <= j < n => sorted[j].key);
    forall j | 0 <= j < n - 1
      ensures keys[j] < keys[j + 1]
    {
      assert sorted[j] != sorted[j + 1];
    }
    forall j | 0 <= j < n
      ensures sorted[j].key == j
    {
      StrictLower(keys, j);
      StrictUpper(keys, j);
    }
  }

  /** Sorting the part paths, listed in any completion order, yields them in
      worker-index order. */
  lemma SortRecoversIndexOrder(savePath: string, order: seq<nat>)
    requires IsIndexPermutation(order, |order|) && IndicesWithinLimit(|order|)
    ensures SortParts(CompletedParts(savePath, order)) == Some(PartNames(savePath, |order|))
  {
    forall k | 0 <= k < |order|
      ensures StrWithinLimit(order[k])
    {
      IndexWithinLimit(|order|, order[k]);
    }
    KeyAllCompleted(savePath, order);
    var sorted := Sort(KeyedParts(savePath, order));
    SortKeyedParts(savePath, order);
    var r := SortParts(CompletedParts(savePath, order));
    assert r == Some(Paths(sorted));
    assert r.value == PartNames(savePath, |order|);
  }
}

=== FILE: range_requests.dfy ===
/** The `Range` request header each download worker sends, a server that
    honours byte ranges, and what that means for the merged file.

    A file smaller than the number of workers gives every worker but the last
    the empty range `(0, -1)`, and the worker then sends `Range: bytes=0--1`.
    That is not a byte-range-spec (section 14.1.2 of RFC 9110 requires
    digits after the dash), so the server either ignores the header and
    sends the whole file, which the worker stores as its part because no
    status is checked beyond success, or refuses the request. The corrected
    worker requests nothing for an empty range and leaves an empty part. */
module RangeRequests {
  import opened Common
  import opened Text
  import opened Decimal
  import opened RangePlanner
  import opened PartFiles
  import opened Download

  /** `f'bytes={start}-{end}'`. */
  function RangeHeader(r: ByteRange): string {
    "bytes=" + IntToString(r.start) + "-" + IntToString(r.end)
  }

  /** The first position of `c` in `s`, as `str.find`. */
  function IndexOf(s: string, c: char): (r: Option<nat>)
    ensures r.Some? ==> r.value < |s| && s[r.value] == c && c !in s[..r.value]
    ensures r.None? ==> c !in s
  {
    if |s| == 0 then None
    else if s[0] == c then Some(0)
    else
      match IndexOf(s[1..], c)
      case None => None
      case Some(k) =>
        assert s[..k + 1] == [s[0]] + s[1..][..k];
        Some(k + 1)
  }

  lemma {:induction false} IndexOfAfter(a: string, c: char, b: string)
    requires c !in a
    ensures IndexOf(a + [c] + b, c) == Some(|a|)
    decreases |a|
  {
    var s := a + [c] + b;
    if |a| > 0 {
      assert s[0] == a[0];
      assert s[1..] == a[1..] + [c] + b;
      IndexOfAfter(a[1..], c, b);
    }
  }

  /** Byte positions `first..last`, both included. */
  datatype Span = Span(first: nat, last: nat)

  /** A `Range` header holding one byte-range-spec with both positions,
      `bytes=<digits>-<digits>` with the last position not before the first,
      or `None` where the header is not one. Open-ended and suffix ranges,
      which the workers never send, are outside this model. */
  function ParseRange(header: string): (r: Option<Span>)
    ensures r.Some? ==> r.value.first <= r.value.last
  {
    if !StartsWith(header, "bytes=") then None
    else
      var spec := header[6..];
      match IndexOf(spec, '-')
      case None => None
      case Some(k) =>
        var a := spec[..k];
        var b := spec[k + 1..];
        if |a| > 0 && |b| > 0 && AllDigits(a) && AllDigits(b) && DigitsValue(a) <= DigitsValue(b)
        then Some(Span(DigitsValue(a), DigitsValue(b)))
        else None
  }

  lemma HeaderPieces(r: ByteRange)
    requires r.start >= 0
    ensures var h := RangeHeader(r);
      && StartsWith(h, "bytes=")
      && IndexOf(h[6..], '-') == Some(|NatToString(r.start)|)
      && h[6..][..|NatToString(r.start)|] == NatToString(r.start)
      && h[6..][|NatToString(r.start)| + 1..] == IntToString(r.end)
  {
    var a := NatToString(r.start);
    var h := RangeHeader(r);
    assert h == "bytes=" + (a + ['-'] + IntToString(r.end));
    assert h[6..] == a + ['-'] + IntToString(r.end);
    assert '-' !in a by {
      assert forall k :: 0 <= k < |a| ==> IsDigit(a[k]);
    }
    IndexOfAfter(a, '-', IntToString(r.end));
  }

  /** A non-empty range with a non-negative start is sent as a valid
      byte-range-spec naming exactly its bytes. */
  lemma RangeHeaderValid(r: ByteRange)
    requires 0 <= r.start <= r.end
    ensures ParseRange(RangeHeader(r)) == Some(Span(r.start, r.end))
  {
    HeaderPieces(r);
    DigitsValueOfNat(r.start);
    DigitsValueOfNat(r.end);
  }

  /** A range that ends before it starts is sent as a header that is not a
      byte-range-spec: `bytes=0--1` for the empty range `(0, -1)`. */
  lemma RangeHeaderInvalid(r: ByteRange)
    requires 0 <= r.start && r.end < r.start
    ensures ParseRange(RangeHeader(r)) == None
  {
    HeaderPieces(r);
    if r.end >= 0 {
      DigitsValueOfNat(r.start);
      DigitsValueOfNat(r.end);
    } else {
      var b := IntToString(r.end);
      assert b[0] == '-' && !IsDigit(b[0]);
    }
  }

  /** What a server does with a `Range` header that is not a valid
      byte-range-spec; section 14.2 of RFC 9110 lets it ignore the header. */
  datatype InvalidRangePolicy = IgnoreInvalid | RejectInvalid

  /** A server holding `file` that honours valid ranges: 206 with the
      requested bytes (cut at the end of the file), 416 when the range starts
      past the end, and for an invalid header either the whole file (200) or
      an error status. */
  function Respond(file: seq<bv8>, header: string, policy: InvalidRangePolicy): (t: Transfer)
    ensures ParseRange(header).None? ==> (t.Complete? <==> policy == IgnoreInvalid)
    ensures ParseRange(header).None? && t.Complete? ==> t.data == file
    ensures ParseRange(header).Some? && ParseRange(header).value.last < |file| ==>
      t == Complete(file[ParseRange(header).value.first..ParseRange(header).value.last + 1])
  {
    match ParseRange(header)
    case Some(span) =>
      if span.first < |file| then
        Complete(file[span.first..if span.last < |file| then span.last + 1 else |file|])
      else Refused
    case None =>
      if policy == IgnoreInvalid then Complete(file) else Refused
  }

  /** The bytes of `file` a range names; empty for an empty range. */
  function Slice(file: seq<bv8>, r: ByteRange): seq<bv8>
    requires 0 <= r.start <= r.end + 1 <= |file|
  {
    file[r.start..r.end + 1]
  }

  /** The planned ranges of a file lie within it. */
  lemma PlanWithinFile(file: seq<bv8>, numThreads: nat, i: nat)
    requires numThreads >= 1 && i < numThreads
    ensures var r := Plan(|file|, numThreads)[i];
      0 <= r.start <= r.end + 1 <= |file|
  {
    var chunk := |file| / numThreads;
    assert Plan(|file|, numThreads)[i] == RangeAt(|file|, numThreads, i);
    assert numThreads * chunk + |file| % numThreads == |file|;
    MulStep(i, chunk);
    MulLe(i + 1, numThreads, chunk);
  }

  // ---------------------------------------------------------------------------
  // As written: every worker sends its range, empty or not.

  function AsWrittenTransfers(file: seq<bv8>, numThreads: nat, policy: InvalidRangePolicy): (ts: seq<Transfer>)
    requires numThreads >= 1
    ensures |ts| == numThreads
  {
    seq(numThreads, i requires 0 <= i < numThreads =>
      Respond(file, RangeHeader(Plan(|file|, numThreads)[i]), policy))
  }

  /** A file smaller than the number of workers makes every worker but the
      last send `bytes=0--1`, which names no bytes. */
  lemma AsWrittenSendsInvalidRange(file: seq<bv8>, numThreads: nat, i: nat)
    requires |file| < numThreads && i < numThreads - 1
    ensures RangeHeader(Plan(|file|, numThreads)[i]) == "bytes=0--1"
    ensures ParseRange(RangeHeader(Plan(|file|, numThreads)[i])) == None
  {
    SmallFilePlan(|file|, numThreads);
    var r := Plan(|file|, numThreads)[i];
    assert r == ByteRange(0, -1, i);
    EmptyRangeHeader(i);
    RangeHeaderInvalid(r);
  }

  /** Without a `Content-Length` header the size is taken as 0, so every
      worker, the last one included, sends the invalid `bytes=0--1`. */
  lemma AsWrittenMissingLength(numThreads: nat, i: nat)
    requires 1 <= numThreads && i < numThreads
    ensures RangeHeader(Plan(0, numThreads)[i]) == "bytes=0--1"
    ensures ParseRange(RangeHeader(Plan(0, numThreads)[i])) == None
  {
    SmallFilePlan(0, numThreads);
    var r := Plan(0, numThreads)[i];
    assert r == ByteRange(0, -1, i);
    EmptyRangeHeader(i);
    RangeHeaderInvalid(r);
  }

  lemma EmptyRangeHeader(i: nat)
    ensures RangeHeader(ByteRange(0, -1, i)) == "bytes=0--1"
  {
    assert IntToString(0) == "0" by {
      assert NatToString(0) == [DigitChar(0)];
    }
    assert IntToString(-1) == "-1" by {
      assert NatToString(1) == [DigitChar(1)];
    }
  }

  /** From a server that ignores the invalid header, every worker of a
      file smaller than the number of workers stores the whole file. */
  lemma AsWrittenSmallFileTransfer(file: seq<bv8>, numThreads: nat, i: nat)
    requires |file| < numThreads && i < numThreads
    ensures AsWrittenTransfers(file, numThreads, IgnoreInvalid)[i] == Complete(file)
  {
    var r := Plan(|file|, numThreads)[i];
    var t := Respond(file, RangeHeader(r), IgnoreInvalid);
    assert AsWrittenTransfers(file, numThreads, IgnoreInvalid)[i] == t;
    if i < numThreads - 1 {
      AsWrittenSendsInvalidRange(file, numThreads, i);
    } else {
      LastRangeOfSmallFile(file, numThreads);
    }
  }

  lemma LastRangeOfSmallFile(file: seq<bv8>, numThreads: nat)
    requires |file| < numThreads
    ensures Respond(file, RangeHeader(Plan(|file|, numThreads)[numThreads - 1]), IgnoreInvalid) == Complete(file)
  {
    SmallFilePlan(|file|, numThreads);
    var r := Plan(|file|, numThreads)[numThreads - 1];
    assert r.start == 0 && r.end == |file| - 1;
    WholeFileResponse(file, r);
  }

  /** Asking for the whole file, or for the empty range of an empty file,
      gives back the file. */
  lemma WholeFileResponse(file: seq<bv8>, r: ByteRange)
    requires r.start == 0 && r.end == |file| - 1
    ensures Respond(file, RangeHeader(r), IgnoreInvalid) == Complete(file)
  {
    var h := RangeHeader(r);
    if |file| > 0 {
      RangeHeaderValid(r);
      assert ParseRange(h) == Some(Span(0, |file| - 1));
      assert file[0..|file|] == file;
    } else {
      RangeHeaderInvalid(r);
    }
  }

  /** `file` written `count` times in a row. */
  function Repeat(file: seq<bv8>, count: nat): seq<bv8> {
    if count == 0 then [] else Repeat(file, count - 1) + file
  }

  lemma {:induction false} RepeatLength(file: seq<bv8>, count: nat)
    ensures |Repeat(file, count)| == count * |file|
  {
    if count > 0 {
      RepeatLength(file, count - 1);
      assert count * |file| == (count - 1) * |file| + |file|;
    }
  }

  lemma {:induction false} ConcatRepeat(transfers: seq<Transfer>, file: seq<bv8>)
    requires forall i :: 0 <= i < |transfers| ==> transfers[i] == Complete(file)
    ensures ConcatData(transfers) == Repeat(file, |transfers|)
    decreases |transfers|
  {
    if |transfers| > 0 {
      ConcatRepeat(transfers[..|transfers| - 1], file);
    }
  }

  /** As written, a file smaller than the number of workers, from a server
      that ignores the invalid header, is merged into as many copies of
      itself as there are workers. */
  lemma AsWrittenDuplicatesSmallFile(fs: FileSystem, savePath: string, file: seq<bv8>, numThreads: nat, order: seq<nat>)
    requires |file| < numThreads && IsIndexPermutation(order, numThreads)
    requires IndicesWithinLimit(numThreads)
    ensures DownloadTask(fs, savePath, AsWrittenTransfers(file, numThreads, IgnoreInvalid), order)
         == Downloaded((fs - Elems(PartNames(savePath, numThreads)))[savePath := Repeat(file, numThreads)])
    ensures |Repeat(file, numThreads)| == numThreads * |file|
  {
    var ts := AsWrittenTransfers(file, numThreads, IgnoreInvalid);
    forall i | 0 <= i < numThreads
      ensures ts[i] == Complete(file)
    {
      AsWrittenSmallFileTransfer(file, numThreads, i);
    }
    ConcatRepeat(ts, file);
    RepeatLength(file, numThreads);
    CompleteDownload(fs, savePath, ts, order);
  }

  /** Three bytes over four workers end up as twelve. */
  lemma AsWrittenExample(fs: FileSystem, savePath: string)
    ensures var file: seq<bv8> := [1, 2, 3];
      var r := DownloadTask(fs, savePath, AsWrittenTransfers(file, 4, IgnoreInvalid), IndexOrder(4));
      r.Downloaded? && |r.fs[savePath]| == 12 && r.fs[savePath] != file
  {
    var file: seq<bv8> := [1, 2, 3];
    AsWrittenDuplicatesSmallFile(fs, savePath, file, 4, IndexOrder(4));
  }

  /** The same download from a server that refuses the invalid header fails
      at the first worker. */
  lemma AsWrittenFailsSmallFile(fs: FileSystem, savePath: string)
    ensures var file: seq<bv8> := [1, 2, 3];
      var r := DownloadTask(fs, savePath, AsWrittenTransfers(file, 4, RejectInvalid), IndexOrder(4));
      r.WorkerFailed? && r.index == 0
  {
    var file: seq<bv8> := [1, 2, 3];
    AsWrittenSendsInvalidRange(file, 4, 0);
    assert AsWrittenTransfers(file, 4, RejectInvalid)[0] == Refused;
  }

  // ---------------------------------------------------------------------------
  // Corrected: an empty range is not requested; its part file is left empty.

  function CorrectedTransfers(file: seq<bv8>, numThreads: nat, policy: InvalidRangePolicy): (ts: seq<Transfer>)
    requires numThreads >= 1
    ensures |ts| == numThreads
  {
    seq(numThreads, i requires 0 <= i < numThreads =>
      var r := Plan(|file|, numThreads)[i];
      if Length(r) == 0 then Complete([]) else Respond(file, RangeHeader(r), policy))
  }

  /** Each corrected worker stores exactly the bytes of its range. */
  lemma CorrectedWorkerSlice(file: seq<bv8>, numThreads: nat, policy: InvalidRangePolicy, i: nat)
    requires numThreads >= 1 && i < numThreads
    ensures PlanWithinFileHolds(file, numThreads, i)
    ensures CorrectedTransfers(file, numThreads, policy)[i] == Complete(Slice(file, Plan(|file|, numThreads)[i]))
  {
    PlanWithinFile(file, numThreads, i);
    var r := Plan(|file|, numThreads)[i];
    var ts := CorrectedTransfers(file, numThreads, policy);
    assert ts[i] == if Length(r) == 0 then Complete([]) else Respond(file, RangeHeader(r), policy);
    if Length(r) == 0 {
      assert Slice(file, r) == [];
    } else {
      RangeHeaderValid(r);
      RespondInFile(file, RangeHeader(r), policy, r);
    }
  }

  lemma RespondInFile(file: seq<bv8>, header: string, policy: InvalidRangePolicy, r: ByteRange)
    requires 0 <= r.start <= r.end < |file| && ParseRange(header) == Some(Span(r.start, r.end))
    ensures Respond(file, header, policy) == Complete(Slice(file, r))
  {
  }

  predicate PlanWithinFileHolds(file: seq<bv8>, numThreads: nat, i: nat)
    requires numThreads >= 1 && i < numThreads
  {
    var r := Plan(|file|, numThreads)[i];
    0 <= r.start <= r.end + 1 <= |file|
  }

  /** The slices of consecutive ranges starting at byte 0, joined, are the
      file up to the end of the last of them. */
  lemma {:induction false} ConcatSlices(file: seq<bv8>, ts: seq<Transfer>, ranges: seq<ByteRange>, k: nat)
    requires 1 <= k <= |ts| == |ranges|
    requires ranges[0].start == 0
    requires forall i :: 0 <= i < |ranges| - 1 ==> ranges[i].end + 1 == ranges[i + 1].start
    requires forall i :: 0 <= i < |ts| ==>
      0 <= ranges[i].start <= ranges[i].end + 1 <= |file| && ts[i] == Complete(Slice(file, ranges[i]))
    ensures ConcatData(ts[..k]) == file[..ranges[k - 1].end + 1]
  {
    var r := ranges[k - 1];
    ConcatDataSnoc(ts, k);
    if k == 1 {
      assert ts[..0] == [];
    } else {
      ConcatSlices(file, ts, ranges, k - 1);
      assert ranges[k - 2].end + 1 == r.start;
      SliceJoin(file, r.start, r.end + 1);
    }
  }

  lemma SliceJoin(file: seq<bv8>, a: nat, b: nat)
    requires a <= b <= |file|
    ensures file[..b] == file[..a] + file[a..b]
  {
  }

  lemma ConcatDataSnoc(ts: seq<Transfer>, k: nat)
    requires 1 <= k <= |ts| && forall i :: 0 <= i < |ts| ==> ts[i].Complete?
    ensures ConcatData(ts[..k]) == ConcatData(ts[..k - 1]) + ts[k - 1].data
  {
    assert ts[..k][..k - 1] == ts[..k - 1];
  }

  /** With the correction, the download reproduces the file on every server,
      for every file size, number of workers and completion order. */
  lemma CorrectedDownload(fs: FileSystem, savePath: string, file: seq<bv8>, numThreads: nat,
                          policy: InvalidRangePolicy, order: seq<nat>)
    requires numThreads >= 1 && IsIndexPermutation(order, numThreads)
    requires IndicesWithinLimit(numThreads)
    ensures var r := DownloadTask(fs, savePath, CorrectedTransfers(file, numThreads, policy), order);
      r == Downloaded((fs - Elems(PartNames(savePath, numThreads)))[savePath := file])
  {
    CorrectedData(file, numThreads, policy);
  }

  /** Every corrected worker completes, and their data joined is the file. */
  lemma CorrectedData(file: seq<bv8>, numThreads: nat, policy: InvalidRangePolicy)
    requires numThreads >= 1
    ensures forall i :: 0 <= i < numThreads ==> CorrectedTransfers(file, numThreads, policy)[i].Complete?
    ensures ConcatData(CorrectedTransfers(file, numThreads, policy)) == file
  {
    var ts := CorrectedTransfers(file, numThreads, policy);
    var ranges := Plan(|file|, numThreads);
    forall i | 0 <= i < numThreads
      ensures 0 <= ranges[i].start <= ranges[i].end + 1 <= |file| && ts[i] == Complete(Slice(file, ranges[i]))
    {
      CorrectedWorkerSlice(file, numThreads, policy, i);
    }
    ConcatSlices(file, ts, ranges, numThreads);
    assert ts[..numThreads] == ts;
    assert file[..ranges[numThreads - 1].end + 1] == file;
  }

  /** For files at least as large as the number of workers no range is empty,
      and the correction changes nothing. */
  lemma CorrectionOnlyForSmallFiles(file: seq<bv8>, numThreads: nat, policy: InvalidRangePolicy)
    requires 1 <= numThreads <= |file|
    ensures AsWrittenTransfers(file, numThreads, policy) == CorrectedTransfers(file, numThreads, policy)
  {
    var ranges := Plan(|file|, numThreads);
    assert |file| / numThreads >= 1;
    forall i | 0 <= i < numThreads
      ensures Length(ranges[i]) != 0
    {
    }
  }
}

=== FILE: ranges.dfy ===
/** The byte-range planner of the multi-threaded download: `total_size` bytes
    are cut into `num_threads` inclusive ranges, one per worker, and the last
    range absorbs the remainder of the integer division. */
module RangePlanner {
  import opened Common

  /** One worker's assignment `(start, end, index)`: the bytes `start..end`
      inclusive. A range with `end < start` holds no byte. */
  datatype ByteRange = ByteRange(start: int, end: int, index: nat)

  /** Number of bytes in a range (zero for the empty range `(0, -1)`). */
  function Length(r: ByteRange): int {
    r.end - r.start + 1
  }

  predicate Contains(r: ByteRange, offset: int) {
    r.start <= offset <= r.end
  }

  /** The range `download_task` builds for worker `i`: it starts at
      `i * (total / n)` and is `total / n` bytes long, except the last one,
      which ends at byte `total - 1`. */
  function RangeAt(totalSize: nat, numThreads: nat, i: nat): ByteRange
    requires i < numThreads
  {
    var chunk := totalSize / numThreads;
    var start := i * chunk;
    ByteRange(start, if i == numThreads - 1 then totalSize - 1 else start + chunk - 1, i)
  }

  /** The ranges for all `numThreads` workers, in worker order. */
  function Plan(totalSize: nat, numThreads: nat): (ranges: seq<ByteRange>)
    requires numThreads >= 1
    ensures |ranges| == numThreads
    ensures forall i :: 0 <= i < numThreads ==> ranges[i].index == i
    ensures ranges[0].start == 0
    ensures forall i :: 0 <= i < numThreads - 1 ==> ranges[i].end + 1 == ranges[i + 1].start
    ensures ranges[numThreads - 1].end == totalSize - 1
    ensures forall i :: 0 <= i < numThreads - 1 ==> Length(ranges[i]) == totalSize / numThreads
    ensures Length(ranges[numThreads - 1]) == totalSize / numThreads + totalSize % numThreads
    ensures forall i :: 0 <= i < numThreads ==> ranges[i].start >= 0 && Length(ranges[i]) >= 0
  {
    var ranges := seq(numThreads, i requires 0 <= i < numThreads => RangeAt(totalSize, numThreads, i));
    forall i | 0 <= i < numThreads
      ensures ranges[i].index == i && ranges[i].start >= 0 && Length(ranges[i]) >= 0
    {
      RangeAtHolds(totalSize, numThreads, i);
    }
    forall i | 0 <= i < numThreads - 1
      ensures ranges[i].end + 1 == ranges[i + 1].start && Length(ranges[i]) == totalSize / numThreads
    {
      RangeAtHolds(totalSize, numThreads, i);
    }
    RangeAtHolds(totalSize, numThreads, 0);
    RangeAtHolds(totalSize, numThreads, numThreads - 1);
    ranges
  }

  /** What `Plan` promises about range `i` on its own. */
  predicate RangeAtFacts(totalSize: nat, numThreads: nat, i: nat)
    requires i < numThreads
  {
    var r := RangeAt(totalSize, numThreads, i);
    && r.index == i && r.start >= 0 && Length(r) >= 0
    && (i == 0 ==> r.start == 0)
    && (i < numThreads - 1 ==>
          Length(r) == totalSize / numThreads
          && r.end + 1 == RangeAt(totalSize, numThreads, i + 1).start)
    && (i == numThreads - 1 ==>
          r.end == totalSize - 1
          && Length(r) == totalSize / numThreads + totalSize % numThreads)
  }

  lemma RangeAtHolds(totalSize: nat, numThreads: nat, i: nat)
    requires i < numThreads
    ensures RangeAtFacts(totalSize, numThreads, i)
  {
    MulStep(i, totalSize / numThreads);
    if i == numThreads - 1 {
      LastRangeLength(totalSize, numThreads);
    }
  }

  lemma MulStep(i: nat, chunk: nat)
    ensures (i + 1) * chunk == i * chunk + chunk
    ensures i * chunk >= 0
  {
  }

  lemma LastRangeLength(totalSize: nat, numThreads: nat)
    requires numThreads >= 1
    ensures Length(RangeAt(totalSize, numThreads, numThreads - 1))
         == totalSize / numThreads + totalSize % numThreads
    ensures Length(RangeAt(totalSize, numThreads, numThreads - 1)) >= 0
  {
    var chunk := totalSize / numThreads;
    MulStep(numThreads - 1, chunk);
    assert totalSize == numThreads * chunk + totalSize % numThreads;
  }

  /** Sum of the lengths of a sequence of ranges. */
  function TotalLength(ranges: seq<ByteRange>): int {
    if |ranges| == 0 then 0 else TotalLength(ranges[..|ranges| - 1]) + Length(ranges[|ranges| - 1])
  }

  /** Each range starts right after the previous one ends. */
  predicate Contiguous(ranges: seq<ByteRange>) {
    forall i :: 0 <= i < |ranges| - 1 ==> ranges[i].end + 1 == ranges[i + 1].start
  }

  /** Contiguous ranges together span from the first start to the last end. */
  lemma {:induction false} TotalLengthContiguous(ranges: seq<ByteRange>)
    requires |ranges| > 0 && Contiguous(ranges)
    ensures TotalLength(ranges) == ranges[|ranges| - 1].end + 1 - ranges[0].start
    decreases |ranges|
  {
    if |ranges| > 1 {
      var front := ranges[..|ranges| - 1];
      assert Contiguous(front);
      TotalLengthContiguous(front);
    }
  }

  /** The planned lengths add up to the file size: every byte is requested
      exactly once in total. */
  lemma PlanLengthsSum(totalSize: nat, numThreads: nat)
    requires numThreads >= 1
    ensures TotalLength(Plan(totalSize, numThreads)) == totalSize
  {
    TotalLengthContiguous(Plan(totalSize, numThreads));
  }

  /** Reference definition of the partition: the worker whose range holds
      byte `offset`. */
  function Owner(totalSize: nat, numThreads: nat, offset: nat): (i: nat)
    requires numThreads >= 1
    ensures i < numThreads
  {
    var chunk := totalSize / numThreads;
    if chunk == 0 then numThreads - 1
    else if offset / chunk < numThreads - 1 then offset / chunk
    else numThreads - 1
  }

  lemma MulLe(a: nat, b: nat, c: nat)
    requires a <= b
    ensures a * c <= b * c
  {
    assert b * c == a * c + (b - a) * c;
  }

  /** `offset / chunk == i` exactly when `offset` lies in the `i`-th block of
      `chunk` bytes. */
  lemma DivBounds(offset: nat, chunk: nat, i: nat)
    requires chunk > 0
    ensures offset / chunk == i <==> i * chunk <= offset < i * chunk + chunk
  {
    var q := offset / chunk;
    assert offset == q * chunk + offset % chunk;
    MulStep(q, chunk);
    MulStep(i, chunk);
    if q < i {
      MulLe(q + 1, i, chunk);
    } else if q > i {
      MulLe(i + 1, q, chunk);
    }
  }

  /** The ranges partition `[0, totalSize)`: each byte of the file lies in
      exactly one range, the one `Owner` names. */
  lemma PlanPartitions(totalSize: nat, numThreads: nat, offset: nat, i: nat)
    requires numThreads >= 1 && offset < totalSize && i < numThreads
    ensures Contains(Plan(totalSize, numThreads)[i], offset) <==> i == Owner(totalSize, numThreads, offset)
  {
    assert Plan(totalSize, numThreads)[i] == RangeAt(totalSize, numThreads, i);
    var chunk := totalSize / numThreads;
    if chunk > 0 {
      if i < numThreads - 1 {
        DivBounds(offset, chunk, i);
      } else {
        LastRangeOwner(offset, chunk, numThreads);
      }
    }
  }

  lemma LastRangeOwner(offset: nat, chunk: nat, numThreads: nat)
    requires chunk > 0 && numThreads >= 1
    ensures (numThreads - 1) * chunk <= offset <==> offset / chunk >= numThreads - 1
  {
    var q := offset / chunk;
    DivBounds(offset, chunk, q);
    MulStep(q, chunk);
    if q < numThreads - 1 {
      MulLe(q + 1, numThreads - 1, chunk);
    } else {
      MulLe(numThreads - 1, q, chunk);
    }
  }

  /** A file smaller than the number of workers: every worker but the last
      gets the empty range `(0, -1)`, and the last one the whole file. */
  lemma SmallFilePlan(totalSize: nat, numThreads: nat)
    requires 1 <= numThreads && totalSize < numThreads
    ensures forall i :: 0 <= i < numThreads - 1 ==> Plan(totalSize, numThreads)[i] == ByteRange(0, -1, i)
    ensures Plan(totalSize, numThreads)[numThreads - 1] == ByteRange(0, totalSize - 1, numThreads - 1)
  {
    var chunk := totalSize / numThreads;
    assert chunk == 0 by {
      DivBounds(totalSize, numThreads, 0);
    }
    forall i | 0 <= i < numThreads - 1
      ensures Plan(totalSize, numThreads)[i] == ByteRange(0, -1, i)
    {
      PlanAt(totalSize, numThreads, i);
      MulZero(i, chunk);
    }
    PlanAt(totalSize, numThreads, numThreads - 1);
    MulZero(numThreads - 1, chunk);
  }

  lemma MulZero(i: nat, chunk: nat)
    requires chunk == 0
    ensures i * chunk == 0
  {
  }

  lemma PlanAt(totalSize: nat, numThreads: nat, i: nat)
    requires i < numThreads
    ensures Plan(totalSize, numThreads)[i] == RangeAt(totalSize, numThreads, i)
  {
  }

  /** One million bytes over four workers. */
  lemma PlanExample()
    ensures Plan(1000000, 4) == [ByteRange(0, 249999, 0), ByteRange(250000, 499999, 1),
                                 ByteRange(500000, 749999, 2), ByteRange(750000, 999999, 3)]
  {
  }
}

=== FILE: text.dfy ===
/** The Python string primitives the updater's parsers are built from:
    `str.isspace`, `str.strip()`, `str.startswith`, `str.endswith`,
    `str.splitlines()`, `str.split(sep)` and `str.replace('\\n', '\n')`.
    Strings are sequences of Unicode scalar values, as Python's `str` is. */
module Text {
  import opened Common

  /** Python's `str.isspace()` on one character: general category Zs or
      bidirectional class WS, B or S. */
  predicate IsSpace(c: char) {
    || ('\t' <= c <= '\r')
    || ('\U{1C}' <= c <= '\U{1F}')
    || c == ' ' || c == '\U{85}' || c == '\U{A0}' || c == '\U{1680}'
    || ('\U{2000}' <= c <= '\U{200A}')
    || c == '\U{2028}' || c == '\U{2029}' || c == '\U{202F}' || c == '\U{205F}'
    || c == '\U{3000}'
  }

  /** The characters `str.splitlines()` treats as line boundaries
      (`\r\n` is handled as one boundary by `LinesFrom`). */
  predicate IsLineBreak(c: char) {
    || c == '\n' || c == '\r' || c == '\U{0B}' || c == '\U{0C}'
    || c == '\U{1C}' || c == '\U{1D}' || c == '\U{1E}' || c == '\U{85}'
    || c == '\U{2028}' || c == '\U{2029}'
  }

  predicate NoLineBreak(s: string) {
    forall i :: 0 <= i < |s| ==> !IsLineBreak(s[i])
  }

  predicate StartsWith(s: string, prefix: string) {
    |prefix| <= |s| && s[..|prefix|] == prefix
  }

  predicate EndsWith(s: string, suffix: string) {
    |suffix| <= |s| && s[|s| - |suffix|..] == suffix
  }

  // ---------------------------------------------------------------------------
  // str.strip()

  /** The first position at or after `i` that is not whitespace. */
  function SkipSpaces(s: string, i: nat): (k: nat)
    requires i <= |s|
    ensures i <= k <= |s|
    ensures forall j :: i <= j < k ==> IsSpace(s[j])
    ensures k < |s| ==> !IsSpace(s[k])
    decreases |s| - i
  {
    if i < |s| && IsSpace(s[i]) then SkipSpaces(s, i + 1) else i
  }

  /** The end of `s[lo..j]` once its trailing whitespace is dropped. */
  function BackSpaces(s: string, lo: nat, j: nat): (k: nat)
    requires lo <= j <= |s|
    ensures lo <= k <= j
    ensures forall m :: k <= m < j ==> IsSpace(s[m])
    ensures k > lo ==> !IsSpace(s[k - 1])
    decreases j
  {
    if j > lo && IsSpace(s[j - 1]) then BackSpaces(s, lo, j - 1) else j
  }

  /** Where the infix `str.strip()` keeps starts. */
  function StripOffset(s: string): nat
    ensures StripOffset(s) <= |s|
  {
    SkipSpaces(s, 0)
  }

  /** `str.strip()`: the infix left after removing leading and trailing
      whitespace, starting at `StripOffset(s)`. */
  function Strip(s: string): (r: string)
    ensures 0 <= StripOffset(s) <= StripOffset(s) + |r| <= |s|
    ensures r == s[StripOffset(s)..StripOffset(s) + |r|]
    ensures forall i :: 0 <= i < StripOffset(s) ==> IsSpace(s[i])
    ensures forall i :: StripOffset(s) + |r| <= i < |s| ==> IsSpace(s[i])
    ensures |r| > 0 ==> !IsSpace(r[0]) && !IsSpace(r[|r| - 1])
  {
    var a := SkipSpaces(s, 0);
    s[a..BackSpaces(s, a, |s|)]
  }

  /** A string whose ends are not whitespace is its own strip. */
  lemma StripUnchanged(s: string)
    requires |s| > 0 ==> !IsSpace(s[0]) && !IsSpace(s[|s| - 1])
    ensures Strip(s) == s
  {
  }

  // ---------------------------------------------------------------------------
  // str.splitlines()

  /** Python's `text.splitlines()`: split at every line boundary, with `\r\n`
      counting as one boundary and no empty line after a final boundary. */
  function SplitLines(text: string): (lines: seq<string>)
    ensures forall i :: 0 <= i < |lines| ==> NoLineBreak(lines[i])
  {
    LinesFrom(text, "")
  }

  /** Splits `s`, where `cur` is the part of the current line already read. */
  function LinesFrom(s: string, cur: string): (lines: seq<string>)
    requires NoLineBreak(cur)
    ensures forall i :: 0 <= i < |lines| ==> NoLineBreak(lines[i])
    decreases |s|
  {
    if |s| == 0 then
      (if |cur| == 0 then [] else [cur])
    else if s[0] == '\r' && |s| >= 2 && s[1] == '\n' then
      [cur] + LinesFrom(s[2..], "")
    else if IsLineBreak(s[0]) then
      [cur] + LinesFrom(s[1..], "")
    else
      LinesFrom(s[1..], cur + [s[0]])
  }

  /** The text of `lines`, each followed by `\n`, as a file written line by
      line with `write(line + "\n")`. */
  function JoinLines(lines: seq<string>): string {
    if |lines| == 0 then "" else lines[0] + "\n" + JoinLines(lines[1..])
  }

  lemma {:induction false} LinesFromLine(line: string, rest: string, cur: string)
    requires NoLineBreak(cur) && NoLineBreak(line)
    ensures LinesFrom(line + "\n" + rest, cur) == [cur + line] + LinesFrom(rest, "")
    decreases |line|
  {
    if |line| == 0 {
      assert line + "\n" + rest == "\n" + rest;
      assert ("\n" + rest)[1..] == rest;
      assert cur + line == cur;
    } else {
      var s := line + "\n" + rest;
      assert s[0] == line[0] && !IsLineBreak(s[0]);
      assert s[1..] == line[1..] + "\n" + rest;
      assert cur + line == (cur + [line[0]]) + line[1..];
      LinesFromLine(line[1..], rest, cur + [line[0]]);
    }
  }

  /** `splitlines()` recovers lines written one per `\n`-terminated line. */
  lemma {:induction false} SplitJoinLines(lines: seq<string>)
    requires forall i :: 0 <= i < |lines| ==> NoLineBreak(lines[i])
    ensures SplitLines(JoinLines(lines)) == lines
    decreases |lines|
  {
    if |lines| > 0 {
      LinesFromLine(lines[0], JoinLines(lines[1..]), "");
      assert "" + lines[0] == lines[0];
      SplitJoinLines(lines[1..]);
      assert lines == [lines[0]] + lines[1..];
    }
  }

  // ---------------------------------------------------------------------------
  // str.split(sep)

  /** `sep` occurs in `s` starting at position `i`. */
  predicate OccursAt(s: string, sep: string, i: int) {
    0 <= i && i + |sep| <= |s| && s[i..i + |sep|] == sep
  }

  /** `sep` occurs nowhere in `s`. */
  predicate NoOccurrence(s: string, sep: string) {
    forall i :: 0 <= i <= |s| ==> !OccursAt(s, sep, i)
  }

  /** Python's `s.split(sep)` for a non-empty separator: scanning from the left,
      every non-overlapping occurrence of `sep` ends a piece. */
  function Split(s: string, sep: string): (pieces: seq<string>)
    requires |sep| > 0
    ensures |pieces| > 0
  {
    SplitFrom(s, sep, "")
  }

  /** Splits `s`, where `cur` is the part of the current piece already read. */
  function SplitFrom(s: string, sep: string, cur: string): (pieces: seq<string>)
    requires |sep| > 0
    ensures |pieces| > 0
    decreases |s|
  {
    if |s| == 0 then [cur]
    else if StartsWith(s, sep) then [cur] + SplitFrom(s[|sep|..], sep, "")
    else SplitFrom(s[1..], sep, cur + [s[0]])
  }

  /** Without an occurrence of the separator there is a single piece. */
  lemma {:induction false} SplitFromNoOccurrence(s: string, sep: string, cur: string)
    requires |sep| > 0 && NoOccurrence(s, sep)
    ensures SplitFrom(s, sep, cur) == [cur + s]
    decreases |s|
  {
    if |s| == 0 {
      assert cur + s == cur;
    } else {
      assert !OccursAt(s, sep, 0);
      assert !StartsWith(s, sep) by {
        if |sep| <= |s| {
          assert s[..|sep|] == s[0..|sep|];
        }
      }
      assert NoOccurrence(s[1..], sep) by {
        forall i ensures !OccursAt(s[1..], sep, i) {
          assert !OccursAt(s, sep, i + 1);
          if 0 <= i && i + |sep| <= |s[1..]| {
            assert s[1..][i..i + |sep|] == s[i + 1..i + 1 + |sep|];
          }
        }
      }
      SplitFromNoOccurrence(s[1..], sep, cur + [s[0]]);
      assert (cur + [s[0]]) + s[1..] == cur + s;
    }
  }

  /** `(a + c + b).split(c)[-1] == b` when the one-character separator `c`
      does not occur in `b`. */
  lemma {:induction false} SplitLastAfterChar(a: string, c: char, b: string, cur: string)
    requires c !in b
    ensures Last(SplitFrom(a + [c] + b, [c], cur)) == b
    decreases |a|
  {
    var s := a + [c] + b;
    assert NoOccurrence(b, [c]) by {
      forall i ensures !OccursAt(b, [c], i) {
        if 0 <= i && i + 1 <= |b| {
          assert b[i..i + 1] == [b[i]];
        }
      }
    }
    if |a| == 0 {
      assert s == [c] + b;
      assert StartsWith(s, [c]);
      assert s[1..] == b;
      SplitFromNoOccurrence(b, [c], "");
      assert "" + b == b;
    } else if a[0] == c {
      assert StartsWith(s, [c]);
      assert s[1..] == a[1..] + [c] + b;
      SplitLastAfterChar(a[1..], c, b, "");
    } else {
      assert s[..1] == [a[0]];
      assert !StartsWith(s, [c]);
      assert s[1..] == a[1..] + [c] + b;
      SplitLastAfterChar(a[1..], c, b, cur + [a[0]]);
    }
  }

  /** `(sep + b).split(sep)[-1] == b` when `sep` does not occur in `b`. */
  lemma SplitLastAfterPrefix(sep: string, b: string)
    requires |sep| > 0 && NoOccurrence(b, sep)
    ensures Last(Split(sep + b, sep)) == b
  {
    var s := sep + b;
    assert StartsWith(s, sep);
    assert s[|sep|..] == b;
    SplitFromNoOccurrence(b, sep, "");
    assert "" + b == b;
  }

  // ---------------------------------------------------------------------------
  // str.replace('\\n', '\n')

  /** Nowhere in `s` is a backslash immediately followed by the letter n. */
  predicate NoLiteralNewline(s: string) {
    forall i :: 0 <= i < |s| - 1 ==> !(s[i] == '\\' && s[i + 1] == 'n')
  }

  /** Python's `s.replace('\\n', '\n')`: every backslash-n pair, matched from
      the left without overlap, becomes one newline character. */
  function DecodeNewlines(s: string): (r: string)
    ensures NoLiteralNewline(r)
    ensures |r| <= |s|
    ensures |s| > 0 ==> |r| > 0 && (r[0] == 'n' <==> s[0] == 'n')
    decreases |s|
  {
    if |s| >= 2 && s[0] == '\\' && s[1] == 'n' then "\n" + DecodeNewlines(s[2..])
    else if |s| == 0 then ""
    else [s[0]] + DecodeNewlines(s[1..])
  }

  /** The writer's side of the escape: every newline becomes backslash-n. */
  function EncodeNewlines(s: string): (r: string)
    ensures NoLineBreakNewline(r)
    decreases |s|
  {
    if |s| == 0 then ""
    else if s[0] == '\n' then "\\n" + EncodeNewlines(s[1..])
    else [s[0]] + EncodeNewlines(s[1..])
  }

  predicate NoLineBreakNewline(s: string) {
    forall i :: 0 <= i < |s| ==> s[i] != '\n'
  }

  /** Decoding inverts encoding for every text without a literal backslash-n. */
  lemma {:induction false} DecodeEncode(s: string)
    requires NoLiteralNewline(s)
    ensures DecodeNewlines(EncodeNewlines(s)) == s
    decreases |s|
  {
    if |s| > 0 {
      assert NoLiteralNewline(s[1..]) by {
        forall i | 0 <= i < |s[1..]| - 1
          ensures !(s[1..][i] == '\\' && s[1..][i + 1] == 'n')
        {
          assert s[1..][i] == s[i + 1] && s[1..][i + 1] == s[i + 2];
        }
      }
      DecodeEncode(s[1..]);
      var e := EncodeNewlines(s[1..]);
      if s[0] == '\n' {
        assert EncodeNewlines(s) == "\\n" + e;
        assert ("\\n" + e)[2..] == e;
      } else {
        assert EncodeNewlines(s) == [s[0]] + e;
        if s[0] == '\\' && |e| > 0 {
          assert |s| > 1;
          assert s[1] != 'n';
          EncodeFirst(s[1..]);
        }
        assert ([s[0]] + e)[1..] == e;
      }
    }
  }

  lemma EncodeFirst(s: string)
    requires |s| > 0
    ensures |EncodeNewlines(s)| > 0 && (EncodeNewlines(s)[0] == 'n' <==> s[0] == 'n')
  {
  }

  /** A text without a literal backslash-n is left unchanged by decoding. */
  lemma {:induction false} DecodeUnchanged(s: string)
    requires NoLiteralNewline(s)
    ensures DecodeNewlines(s) == s
    decreases |s|
  {
    if |s| > 0 {
      assert NoLiteralNewline(s[1..]) by {
        forall i | 0 <= i < |s[1..]| - 1
          ensures !(s[1..][i] == '\\' && s[1..][i + 1] == 'n')
        {
          assert s[1..][i] == s[i + 1] && s[1..][i + 1] == s[i + 2];
        }
      }
      if |s| >= 2 {
        assert !(s[0] == '\\' && s[1] == 'n');
      }
      DecodeUnchanged(s[1..]);
      assert s == [s[0]] + s[1..];
    }
  }

  /** Decoding twice is the same as decoding once, so the double decoding of a
      `changelog=` value is harmless. */
  lemma DecodeIdempotent(s: string)
    ensures DecodeNewlines(DecodeNewlines(s)) == DecodeNewlines(s)
  {
    DecodeUnchanged(DecodeNewlines(s));
  }
}

=== FILE: tracker.dfy ===
/** `DownloadTracker`: a byte counter that every worker adds its chunks to,
    and a poll that reports percentage, speed since the previous poll and the
    time still needed. Clock readings are parameters; Python floats are
    modelled as exact reals. */
module Progress {
  import opened Common

  datatype Tracker = Tracker(
    totalSize: int,
    downloaded: int,
    startTime: real,
    lastUpdate: real,
    lastDownloaded: int,
    speed: real,
    remaining: real)

  /** A fresh tracker, `now` being the clock reading at construction. */
  function NewTracker(totalSize: int, now: real): Tracker {
    Tracker(totalSize, 0, now, now, 0, 0.0, 0.0)
  }

  /** `update(size)`: one chunk of `size` bytes arrived. */
  function Update(t: Tracker, size: int): Tracker {
    t.(downloaded := t.downloaded + size)
  }

  /** The guard added to the elapsed time so the speed is never divided by
      an elapsed time of zero. */
  const Epsilon: real := 0.000000001

  /** The dictionary `get_progress` returns. */
  datatype Report = Report(percent: real, downloaded: int, total: int, speed: real, remaining: real)

  /** The result of a poll; `DivisionByZero` where Python raises
      `ZeroDivisionError` because the clock went back by exactly the guard. */
  datatype Poll = Polled(tracker: Tracker, report: Report) | DivisionByZero

  /** `get_progress`, with `now1` the clock reading in the speed formula and
      `now2` the one stored as the new baseline (Python reads the clock once
      for each). */
  function GetProgress(t: Tracker, now1: real, now2: real): (r: Poll)
    ensures r.DivisionByZero? <==> now1 - t.lastUpdate + Epsilon == 0.0
    ensures r.Polled? ==>
      var u := r.tracker;
      && u.totalSize == t.totalSize && u.downloaded == t.downloaded && u.startTime == t.startTime
      && (t.totalSize == 0 ==> r.report.percent == 0.0)
      && (t.totalSize != 0 ==>
            r.report.percent * (t.totalSize as real) == (t.downloaded as real) * 100.0)
      && u.speed * (now1 - t.lastUpdate + Epsilon) == (t.downloaded - t.lastDownloaded) as real
      && u.lastDownloaded == t.downloaded && u.lastUpdate == now2
      && (u.speed > 0.0 ==> u.remaining * u.speed == (t.totalSize - t.downloaded) as real)
      && (u.speed <= 0.0 ==> u.remaining == 0.0)
      && r.report == Report(r.report.percent, u.downloaded, u.totalSize, u.speed, u.remaining)
  {
    var percent := if t.totalSize != 0 then (t.downloaded as real) / (t.totalSize as real) * 100.0 else 0.0;
    var elapsed := now1 - t.lastUpdate + Epsilon;
    if elapsed == 0.0 then DivisionByZero
    else
      var speed := ((t.downloaded - t.lastDownloaded) as real) / elapsed;
      var remaining := if speed > 0.0 then ((t.totalSize - t.downloaded) as real) / speed else 0.0;
      var u := t.(speed := speed, lastDownloaded := t.downloaded, lastUpdate := now2, remaining := remaining);
      Polled(u, Report(percent, u.downloaded, u.totalSize, u.speed, u.remaining))
  }

  /** The percentage stays within 100 exactly when no more bytes than the
      announced size have arrived. */
  lemma PercentBound(t: Tracker, now1: real, now2: real)
    requires t.totalSize > 0 && GetProgress(t, now1, now2).Polled?
    ensures GetProgress(t, now1, now2).report.percent <= 100.0 <==> t.downloaded <= t.totalSize
  {
    var p := GetProgress(t, now1, now2).report.percent;
    var total := t.totalSize as real;
    assert p * total == (t.downloaded as real) * 100.0;
    if p <= 100.0 {
      assert p * total <= 100.0 * total;
    } else {
      assert p * total > 100.0 * total;
    }
  }

  // ---------------------------------------------------------------------------
  // What the workers and the poller do to one tracker, in any interleaving

  datatype Event = Chunk(size: nat) | Poller(now1: real, now2: real)

  /** The tracker after `events`, each applied under the lock; `None` from
      the first poll that divides by zero. */
  function Replay(t: Tracker, events: seq<Event>): Option<Tracker> {
    if |events| == 0 then Some(t)
    else
      match Replay(t, events[..|events| - 1])
      case None => None
      case Some(u) =>
        match events[|events| - 1]
        case Chunk(size) => Some(Update(u, size))
        case Poller(now1, now2) =>
          match GetProgress(u, now1, now2)
          case DivisionByZero => None
          case Polled(v, _) => Some(v)
  }

  /** The sizes of the chunks among `events`, in order. */
  function ChunkSizes(events: seq<Event>): seq<int> {
    if |events| == 0 then []
    else
      ChunkSizes(events[..|events| - 1])
      + match events[|events| - 1] case Chunk(size) => [size] case Poller(_, _) => []
  }

  /** The tracker's invariant: the baseline of the speed is never ahead of
      the count. */
  predicate Valid(t: Tracker) {
    0 <= t.lastDownloaded <= t.downloaded
  }

  /** The counter is the sum of the chunk sizes whatever the polls in
      between, and the baseline never runs ahead of it. */
  lemma {:induction false} ReplayCounts(t: Tracker, events: seq<Event>)
    requires Valid(t)
    ensures Replay(t, events).Some? ==>
      && Replay(t, events).value.downloaded == t.downloaded + Sum(ChunkSizes(events))
      && Replay(t, events).value.totalSize == t.totalSize
      && Valid(Replay(t, events).value)
  {
    if |events| > 0 {
      var front := events[..|events| - 1];
      ReplayCounts(t, front);
      if Replay(t, front).Some? {
        SumAppend(ChunkSizes(front),
          match events[|events| - 1] case Chunk(size) => [size] case Poller(_, _) => []);
      }
    }
  }

  /** Workers finishing their chunks in a different order leave the same
      count. */
  lemma ChunkOrderIrrelevant(t: Tracker, a: seq<Event>, b: seq<Event>)
    requires Valid(t)
    requires multiset(ChunkSizes(a)) == multiset(ChunkSizes(b))
    requires Replay(t, a).Some? && Replay(t, b).Some?
    ensures Replay(t, a).value.downloaded == Replay(t, b).value.downloaded
  {
    ReplayCounts(t, a);
    ReplayCounts(t, b);
    SumPermutation(ChunkSizes(a), ChunkSizes(b));
  }

  /** On a valid tracker polled forward in time the speed is never negative. */
  lemma SpeedNonNegative(t: Tracker, now1: real, now2: real)
    requires Valid(t) && now1 >= t.lastUpdate
    ensures GetProgress(t, now1, now2).Polled?
    ensures GetProgress(t, now1, now2).tracker.speed >= 0.0
    ensures GetProgress(t, now1, now2).tracker.remaining >= 0.0 || t.downloaded > t.totalSize
  {
    var elapsed := now1 - t.lastUpdate + Epsilon;
    var u := GetProgress(t, now1, now2).tracker;
    assert u.speed * elapsed == (t.downloaded - t.lastDownloaded) as real;
  }
}

=== FILE: update_feed.dfy ===
/** The update feed read by `check_for_updates`: a flat list of `ver=`,
    `changelog=`, `ver_code=`, `url=` and `notice=` lines without sections,
    where the last occurrence of a key wins, and the decision whether to
    offer the update. */
module UpdateFeed {
  import opened Common
  import opened Text

  datatype FeedKey = VerKey | ChangelogKey | VerCodeKey | UrlKey | NoticeKey

  /** A feed line after stripping, by the first test it passes. */
  datatype FeedLine = KeyLine(key: FeedKey, value: string) | Other(text: string)

  function KeyPrefix(key: FeedKey): string {
    match key
    case VerKey => "ver="
    case ChangelogKey => "changelog="
    case VerCodeKey => "ver_code="
    case UrlKey => "url="
    case NoticeKey => "notice="
  }

  function Classify(raw: string): (kind: FeedLine)
    ensures kind == ClassifyStripped(Strip(raw))
  {
    ClassifyStripped(Strip(raw))
  }

  function ClassifyStripped(line: string): (kind: FeedLine)
    ensures kind.KeyLine? ==> line == KeyPrefix(kind.key) + kind.value
    ensures kind.Other? ==> kind.text == line
    ensures kind.Other? ==> forall key: FeedKey :: !StartsWith(line, KeyPrefix(key))
  {
    if StartsWith(line, "ver=") then KeyLine(VerKey, line[4..])
    else if StartsWith(line, "changelog=") then KeyLine(ChangelogKey, line[10..])
    else if StartsWith(line, "ver_code=") then KeyLine(VerCodeKey, line[9..])
    else if StartsWith(line, "url=") then KeyLine(UrlKey, line[4..])
    else if StartsWith(line, "notice=") then KeyLine(NoticeKey, line[7..])
    else Other(line)
  }

  predicate IsKey(kind: FeedLine, key: FeedKey) {
    kind.KeyLine? && kind.key == key
  }

  /** The loop variables. */
  datatype FeedState = FeedState(
    ver: Option<string>,
    verCode: Option<string>,
    changelog: string,
    url: Option<string>,
    notice: string,
    inChangelog: bool)

  const Initial := FeedState(None, None, "", None, "", false)

  /** One line of the loop. Unlike the manifest, the lines that continue a
      changelog are appended as they are, without turning backslash-n into
      a newline. */
  function Step(st: FeedState, kind: FeedLine): FeedState {
    match kind
    case KeyLine(key, value) =>
      (match key
       case VerKey => st.(ver := Some(value))
       case ChangelogKey => st.(changelog := DecodeNewlines(value), inChangelog := true)
       case VerCodeKey => st.(verCode := Some(value))
       case UrlKey => st.(url := Some(value))
       case NoticeKey => st.(notice := DecodeNewlines(value)))
    case Other(text) =>
      if st.inChangelog then st.(changelog := st.changelog + "\n" + text) else st
  }

  function Run(kinds: seq<FeedLine>): FeedState {
    if |kinds| == 0 then Initial else Step(Run(kinds[..|kinds| - 1]), kinds[|kinds| - 1])
  }

  // ---------------------------------------------------------------------------
  // Reference definitions: the last line of each key

  /** Line `k` is the last `key` line. */
  predicate LatestAt(kinds: seq<FeedLine>, key: FeedKey, k: int) {
    && 0 <= k < |kinds|
    && IsKey(kinds[k], key)
    && forall j :: k < j < |kinds| && 0 <= j ==> !IsKey(kinds[j], key)
  }

  lemma LatestAtStep(kinds: seq<FeedLine>, key: FeedKey, k: int)
    requires |kinds| > 0
    ensures IsKey(kinds[|kinds| - 1], key) ==> (LatestAt(kinds, key, k) <==> k == |kinds| - 1)
    ensures !IsKey(kinds[|kinds| - 1], key) ==>
      (LatestAt(kinds, key, k) <==> LatestAt(kinds[..|kinds| - 1], key, k))
  {
    var front := kinds[..|kinds| - 1];
    assert forall j :: 0 <= j < |kinds| - 1 ==> kinds[j] == front[j];
  }

  function Field(st: FeedState, key: FeedKey): Option<string> {
    match key
    case VerKey => st.ver
    case VerCodeKey => st.verCode
    case UrlKey => st.url
    case _ => None
  }

  /** A line that is not a `key` line leaves that key's field alone. */
  lemma StepField(st: FeedState, kind: FeedLine, key: FeedKey)
    ensures (key == VerKey || key == VerCodeKey || key == UrlKey) && IsKey(kind, key) ==>
      Field(Step(st, kind), key) == Some(kind.value)
    ensures !IsKey(kind, key) ==> Field(Step(st, kind), key) == Field(st, key)
    ensures IsKey(kind, NoticeKey) ==> Step(st, kind).notice == DecodeNewlines(kind.value)
    ensures !IsKey(kind, NoticeKey) ==> Step(st, kind).notice == st.notice
  {
  }

  /** `ver=`, `ver_code=` and `url=` hold the value of their last line, and
      nothing without one. */
  lemma {:induction false} RunField(kinds: seq<FeedLine>, key: FeedKey)
    requires key == VerKey || key == VerCodeKey || key == UrlKey
    ensures forall k :: LatestAt(kinds, key, k) ==> Field(Run(kinds), key) == Some(kinds[k].value)
    ensures (forall k :: !LatestAt(kinds, key, k)) ==> Field(Run(kinds), key).None?
  {
    if |kinds| > 0 {
      var n := |kinds|;
      var front := kinds[..n - 1];
      RunField(front, key);
      StepField(Run(front), kinds[n - 1], key);
      forall k
        ensures LatestAt(kinds, key, k) ==> Field(Run(kinds), key) == Some(kinds[k].value)
        ensures !IsKey(kinds[n - 1], key) ==> (LatestAt(kinds, key, k) <==> LatestAt(front, key, k))
      {
        LatestAtStep(kinds, key, k);
      }
      LatestAtStep(kinds, key, n - 1);
    }
  }

  /** The notice is the decoded value of the last `notice=` line, and empty
      without one. */
  lemma {:induction false} RunNotice(kinds: seq<FeedLine>)
    ensures forall k :: LatestAt(kinds, NoticeKey, k) ==> Run(kinds).notice == DecodeNewlines(kinds[k].value)
    ensures (forall k :: !LatestAt(kinds, NoticeKey, k)) ==> Run(kinds).notice == ""
  {
    if |kinds| > 0 {
      var n := |kinds|;
      var front := kinds[..n - 1];
      RunNotice(front);
      StepField(Run(front), kinds[n - 1], NoticeKey);
      forall k
        ensures LatestAt(kinds, NoticeKey, k) ==> Run(kinds).notice == DecodeNewlines(kinds[k].value)
        ensures !IsKey(kinds[n - 1], NoticeKey) ==>
          (LatestAt(kinds, NoticeKey, k) <==> LatestAt(front, NoticeKey, k))
      {
        LatestAtStep(kinds, NoticeKey, k);
      }
      LatestAtStep(kinds, NoticeKey, n - 1);
    }
  }

  /** The lines that continue a changelog: every line that is not a key,
      each preceded by a newline, as read. */
  function Continuation(kinds: seq<FeedLine>): string {
    if |kinds| == 0 then ""
    else
      Continuation(kinds[..|kinds| - 1])
      + match kinds[|kinds| - 1]
        case Other(text) => "\n" + text
        case _ => ""
  }

  /** How one line moves the changelog. */
  lemma StepChangelog(st: FeedState, kind: FeedLine)
    ensures IsKey(kind, ChangelogKey) ==>
      Step(st, kind).inChangelog && Step(st, kind).changelog == DecodeNewlines(kind.value)
    ensures !IsKey(kind, ChangelogKey) ==> Step(st, kind).inChangelog == st.inChangelog
    ensures kind.Other? && st.inChangelog ==> Step(st, kind).changelog == st.changelog + "\n" + kind.text
    ensures kind.KeyLine? && kind.key != ChangelogKey ==> Step(st, kind).changelog == st.changelog
    ensures kind.Other? && !st.inChangelog ==> Step(st, kind).changelog == st.changelog
  {
  }

  lemma ContinuationStep(kinds: seq<FeedLine>, k: nat)
    requires k < |kinds| - 1
    ensures var n := |kinds|;
      Continuation(kinds[k + 1..]) == Continuation(kinds[..n - 1][k + 1..])
        + match kinds[n - 1] case Other(text) => "\n" + text case _ => ""
  {
    var n := |kinds|;
    assert kinds[k + 1..][..|kinds[k + 1..]| - 1] == kinds[..n - 1][k + 1..];
  }

  /** A changelog is open exactly when the feed has a `changelog=` line;
      without one the changelog stays empty. */
  lemma {:induction false} RunChangelogOpen(kinds: seq<FeedLine>)
    ensures Run(kinds).inChangelog <==> exists k :: LatestAt(kinds, ChangelogKey, k)
    ensures !Run(kinds).inChangelog ==> Run(kinds).changelog == ""
  {
    if |kinds| > 0 {
      var n := |kinds|;
      var front := kinds[..n - 1];
      RunChangelogOpen(front);
      assert Run(kinds) == Step(Run(front), kinds[n - 1]);
      StepChangelog(Run(front), kinds[n - 1]);
      LatestAtStep(kinds, ChangelogKey, n - 1);
      if !IsKey(kinds[n - 1], ChangelogKey) {
        forall k
          ensures LatestAt(kinds, ChangelogKey, k) <==> LatestAt(front, ChangelogKey, k)
        {
          LatestAtStep(kinds, ChangelogKey, k);
        }
      }
    }
  }

  /** The changelog is the decoded value of the last `changelog=` line
      followed by every later non-key line, blank lines included. */
  lemma {:induction false} RunChangelog(kinds: seq<FeedLine>, k: int)
    requires LatestAt(kinds, ChangelogKey, k)
    ensures Run(kinds).changelog == DecodeNewlines(kinds[k].value) + Continuation(kinds[k + 1..])
  {
    var n := |kinds|;
    var front := kinds[..n - 1];
    var last := kinds[n - 1];
    assert Run(kinds) == Step(Run(front), last);
    LatestAtStep(kinds, ChangelogKey, k);
    if k == n - 1 {
      StepChangelog(Run(front), last);
      assert kinds[n..] == [];
    } else {
      var head := DecodeNewlines(kinds[k].value);
      RunChangelog(front, k);
      RunChangelogOpen(front);
      assert Run(front).inChangelog;
      ContinuationStep(kinds, k);
      AppendLine(Run(front), last, head, Continuation(front[k + 1..]));
    }
  }

  /** A line after the open changelog's `changelog=` line extends what
      follows the decoded value by the line's own continuation. */
  lemma AppendLine(st: FeedState, kind: FeedLine, head: string, tail: string)
    requires st.inChangelog && st.changelog == head + tail && !IsKey(kind, ChangelogKey)
    ensures Step(st, kind).changelog == head + (tail + match kind case Other(text) => "\n" + text case _ => "")
  {
  }

  // ---------------------------------------------------------------------------
  // The decision

  /** What the update dialog is shown with. */
  datatype Update = Update(ver: string, verCode: string, changelog: string, url: string)

  /** The result: the update to offer, if any, and the notice to display; or
      `Failed` where `version.parse` raised, in which case the notice is not
      shown either. */
  datatype FeedResult = Checked(offer: Option<Update>, notice: string) | Failed

  /** `check_for_updates` on the classified feed lines. `isNewer(v)` is
      `version.parse(v) > version.parse(CURRENT_VERSION)`, or `None` where
      parsing raises. */
  function CheckForUpdates(kinds: seq<FeedLine>, isNewer: string -> Option<bool>): (r: FeedResult)
    ensures var st := Run(kinds);
      var complete := Truthy(st.ver) && |st.changelog| > 0 && Truthy(st.verCode) && Truthy(st.url);
      && (r.Failed? <==> complete && isNewer(st.ver.value).None?)
      && (r.Checked? ==> r.notice == st.notice)
      && (r.Checked? && r.offer.Some? <==> complete && isNewer(st.ver.value) == Some(true))
      && (r.Checked? && r.offer.Some? ==>
            r.offer.value == Update(st.ver.value, st.verCode.value, st.changelog, st.url.value))
  {
    var st := Run(kinds);
    if Truthy(st.ver) && |st.changelog| > 0 && Truthy(st.verCode) && Truthy(st.url) then
      match isNewer(st.ver.value)
      case None => Failed
      case Some(newer) =>
        Checked(if newer then Some(Update(st.ver.value, st.verCode.value, st.changelog, st.url.value)) else None,
                st.notice)
    else Checked(None, st.notice)
  }

  /** The feed as text, line by line. */
  function Kinds(text: string): (kinds: seq<FeedLine>)
    ensures |kinds| == |SplitLines(text)|
    ensures forall k :: 0 <= k < |kinds| ==> kinds[k] == Classify(SplitLines(text)[k])
  {
    var lines := SplitLines(text);
    seq(|lines|, k requires 0 <= k < |lines| => Classify(lines[k]))
  }

  /** An update is offered exactly when the feed names a version, a
      changelog, a version code and a url, all non-empty, and the version is
      newer; each is taken from the last line of its key. */
  lemma OfferedUpdate(kinds: seq<FeedLine>, isNewer: string -> Option<bool>, v: int, c: int, vc: int, u: int)
    requires LatestAt(kinds, VerKey, v) && LatestAt(kinds, ChangelogKey, c)
    requires LatestAt(kinds, VerCodeKey, vc) && LatestAt(kinds, UrlKey, u)
    requires |kinds[v].value| > 0 && |kinds[vc].value| > 0 && |kinds[u].value| > 0
    requires |DecodeNewlines(kinds[c].value) + Continuation(kinds[c + 1..])| > 0
    requires isNewer(kinds[v].value) == Some(true)
    ensures CheckForUpdates(kinds, isNewer).Checked?
    ensures CheckForUpdates(kinds, isNewer).offer
         == Some(Update(kinds[v].value, kinds[vc].value,
                        DecodeNewlines(kinds[c].value) + Continuation(kinds[c + 1..]), kinds[u].value))
  {
    RunField(kinds, VerKey);
    RunField(kinds, VerCodeKey);
    RunField(kinds, UrlKey);
    RunChangelog(kinds, c);
  }

  /** Without a `url=` line nothing is offered, whatever else the feed says. */
  lemma NoUrlNoOffer(kinds: seq<FeedLine>, isNewer: string -> Option<bool>)
    requires forall k :: 0 <= k < |kinds| ==> !IsKey(kinds[k], UrlKey)
    ensures CheckForUpdates(kinds, isNewer) == Checked(None, Run(kinds).notice)
  {
    RunField(kinds, UrlKey);
  }
}

=== FILE: update_files.dfy ===
/** `create_update_files`: the side file naming the old and the new program,
    and the batch script that replaces one with the other. Paths are
    Windows paths, split the way `ntpath` splits them. */
module UpdateFiles {
  import opened Text

  // ---------------------------------------------------------------------------
  // os.path.basename / os.path.dirname (ntpath)

  predicate IsSep(c: char) {
    c == '\\' || c == '/'
  }

  predicate NoSep(s: string) {
    forall i :: 0 <= i < |s| ==> !IsSep(s[i])
  }

  /** The length of the drive prefix `splitdrive` takes off: a letter and a
      colon. */
  function DriveLength(p: string): nat {
    if |p| >= 2 && p[1] == ':' then 2 else 0
  }

  /** The end of the last separator in `p[lo..i]`, or `lo` if there is none. */
  function TailStart(p: string, lo: nat, i: nat): (t: nat)
    requires lo <= i <= |p|
    ensures lo <= t <= i
    ensures t > lo ==> IsSep(p[t - 1])
    ensures NoSep(p[t..i])
  {
    if i == lo || IsSep(p[i - 1]) then i
    else
      var t := TailStart(p, lo, i - 1);
      assert p[t..i] == p[t..i - 1] + [p[i - 1]];
      t
  }

  /** `s` without its trailing separators. */
  function TrimSeps(s: string): (r: string)
    ensures |r| <= |s| && r == s[..|r|]
    ensures |r| > 0 ==> !IsSep(r[|r| - 1])
    ensures forall i :: |r| <= i < |s| ==> IsSep(s[i])
  {
    if |s| > 0 && IsSep(s[|s| - 1]) then TrimSeps(s[..|s| - 1]) else s
  }

  /** `ntpath.split`: the drive and the directory without trailing
      separators (unless it is nothing but separators), and the last
      component. */
  function SplitPath(p: string): (string, string) {
    var d := DriveLength(p);
    var i := TailStart(p, d, |p|);
    var head := p[d..i];
    var trimmed := TrimSeps(head);
    (p[..d] + (if |trimmed| > 0 then trimmed else head), p[i..])
  }

  function Basename(p: string): string {
    SplitPath(p).1
  }

  function Dirname(p: string): string {
    SplitPath(p).0
  }

  /** The directory and the last component cut the path in two with only
      separators between them; the last component holds no separator and
      reaches back to the last separator, or to the drive. */
  lemma PathParts(p: string)
    ensures var dir, base := Dirname(p), Basename(p);
      && |dir| + |base| <= |p|
      && dir == p[..|dir|] && base == p[|p| - |base|..]
      && (forall i :: |dir| <= i < |p| - |base| ==> IsSep(p[i]))
      && NoSep(base)
      && (|p| - |base| > DriveLength(p) ==> IsSep(p[|p| - |base| - 1]))
  {
    var d := DriveLength(p);
    var i := TailStart(p, d, |p|);
    var head := p[d..i];
    var trimmed := TrimSeps(head);
    assert Basename(p) == p[i..];
    assert Dirname(p) == p[..d] + (if |trimmed| > 0 then trimmed else head);
    if |trimmed| > 0 {
      TrimmedHead(p, d, i, trimmed);
    } else {
      assert p[..d] + head == p[..i];
    }
  }

  /** The drive followed by the directory with its trailing separators
      trimmed is a prefix of the path, with only separators after it. */
  lemma TrimmedHead(p: string, d: nat, i: nat, t: string)
    requires d <= i <= |p| && |t| <= i - d && t == p[d..i][..|t|]
    requires forall k :: |t| <= k < i - d ==> IsSep(p[d..i][k])
    ensures p[..d] + t == p[..d + |t|]
    ensures forall k :: d + |t| <= k < i ==> IsSep(p[k])
  {
    forall k | d + |t| <= k < i
      ensures IsSep(p[k])
    {
      assert p[k] == p[d..i][k - d];
    }
  }

  /** Every part of the path is a piece of it, so a path without line breaks
      has none in its parts either. */
  lemma PartsNoLineBreak(p: string)
    requires NoLineBreak(p)
    ensures NoLineBreak(Dirname(p)) && NoLineBreak(Basename(p))
  {
    PathParts(p);
    var dir, base := Dirname(p), Basename(p);
    assert forall k :: 0 <= k < |dir| ==> dir[k] == p[k];
    assert forall k :: 0 <= k < |base| ==> base[k] == p[|p| - |base| + k];
  }

  /** The tail starts right after the last separator. */
  lemma {:induction false} TailStartAt(p: string, lo: nat, i: nat, t: nat)
    requires lo < t <= i <= |p| && IsSep(p[t - 1]) && NoSep(p[t..i])
    ensures TailStart(p, lo, i) == t
    decreases i
  {
    if i > t {
      assert p[i - 1] == p[t..i][i - 1 - t];
      var q := p[t..i - 1];
      forall k | 0 <= k < |q|
        ensures !IsSep(q[k])
      {
        assert q[k] == p[t..i][k];
      }
      TailStartAt(p, lo, i - 1, t);
    }
  }

  /** A path whose last separator sits just after a directory name. */
  lemma SplitAt(p: string, t: nat)
    requires DriveLength(p) + 1 < t <= |p| && IsSep(p[t - 1]) && !IsSep(p[t - 2]) && NoSep(p[t..])
    ensures Basename(p) == p[t..] && Dirname(p) == p[..t - 1]
  {
    var d := DriveLength(p);
    assert p[t..|p|] == p[t..];
    TailStartAt(p, d, |p|, t);
    var head := p[d..t];
    assert head[|head| - 1] == p[t - 1] && head[|head| - 2] == p[t - 2];
    TrimOneSep(head);
    assert head[..|head| - 1] == p[d..t - 1];
    assert p[..d] + p[d..t - 1] == p[..t - 1];
  }

  /** A single trailing separator is trimmed. */
  lemma TrimOneSep(h: string)
    requires |h| >= 2 && IsSep(h[|h| - 1]) && !IsSep(h[|h| - 2])
    ensures TrimSeps(h) == h[..|h| - 1]
  {
    assert h[..|h| - 1][|h| - 2] == h[|h| - 2];
  }

  lemma PathExample()
    ensures Dirname("C:\\Games\\CatPaw\\gui.exe") == "C:\\Games\\CatPaw"
    ensures Basename("C:\\Games\\CatPaw\\gui.exe") == "gui.exe"
  {
    var p := "C:\\Games\\CatPaw\\gui.exe";
    assert DriveLength(p) == 2 && p[15] == '\\' && p[14] == 'w';
    assert p[16..] == "gui.exe" && NoSep(p[16..]);
    SplitAt(p, 16);
    assert p[..15] == "C:\\Games\\CatPaw";
  }

  // ---------------------------------------------------------------------------
  // The two files

  /** The side file naming the program to replace and its replacement. */
  function Descriptor(oldPath: string, newPath: string): string {
    "old_program=" + oldPath + "\n" + "new_program=" + newPath + "\n"
  }

  /** Reads a side file back: both paths, or `Unreadable` where the text is not
      two lines with the two keys. */
  function ReadDescriptor(text: string): SideFile {
    var lines := SplitLines(text);
    if |lines| == 2 && StartsWith(lines[0], "old_program=") && StartsWith(lines[1], "new_program=")
    then Named(lines[0][12..], lines[1][12..])
    else Unreadable
  }

  datatype SideFile = Named(oldProgram: string, newProgram: string) | Unreadable

  /** The side file names the two programs, as long as neither path has a
      line break in it. */
  lemma ReadWrittenDescriptor(oldPath: string, newPath: string)
    requires NoLineBreak(oldPath) && NoLineBreak(newPath)
    ensures ReadDescriptor(Descriptor(oldPath, newPath)) == Named(oldPath, newPath)
  {
    var a := "old_program=" + oldPath;
    var b := "new_program=" + newPath;
    assert NoLineBreak(a) && NoLineBreak(b) by {
      assert forall k :: 12 <= k < |a| ==> a[k] == oldPath[k - 12];
      assert forall k :: 12 <= k < |b| ==> b[k] == newPath[k - 12];
    }
    var lines: seq<string> := [a, b];
    assert JoinLines(lines) == Descriptor(oldPath, newPath) by {
      assert lines[1..] == [b];
      assert lines[1..][1..] == [];
      assert JoinLines(lines[1..]) == b + "\n";
    }
    SplitJoinLines(lines);
    assert a[12..] == oldPath && b[12..] == newPath;
  }

  /** The lines of `update.bat`, as written. */
  function ScriptLines(oldPath: string, newPath: string): seq<string> {
    [ "@echo off",
      "taskkill /F /IM " + Basename(oldPath),
      "del /F /Q " + oldPath,
      "move /Y " + newPath + " " + Dirname(oldPath),
      Basename(newPath) ]
  }

  function Script(oldPath: string, newPath: string): string {
    JoinLines(ScriptLines(oldPath, newPath))
  }

  /** With paths free of line breaks the script is exactly its five lines:
      kill the running program, delete it, move the new one into its
      directory, start it. */
  lemma ScriptHasFiveLines(oldPath: string, newPath: string)
    requires NoLineBreak(oldPath) && NoLineBreak(newPath)
    ensures SplitLines(Script(oldPath, newPath)) == ScriptLines(oldPath, newPath)
    ensures |SplitLines(Script(oldPath, newPath))| == 5
  {
    PartsNoLineBreak(oldPath);
    PartsNoLineBreak(newPath);
    var lines := ScriptLines(oldPath, newPath);
    FixedTextNoLineBreak();
    JoinNoLineBreak("taskkill /F /IM ", Basename(oldPath));
    JoinNoLineBreak("del /F /Q ", oldPath);
    JoinNoLineBreak("move /Y ", newPath);
    JoinNoLineBreak("move /Y " + newPath, " ");
    JoinNoLineBreak("move /Y " + newPath + " ", Dirname(oldPath));
    assert NoLineBreak(lines[0]) && NoLineBreak(lines[1]) && NoLineBreak(lines[2]);
    assert NoLineBreak(lines[3]) && NoLineBreak(lines[4]);
    SplitJoinLines(lines);
  }

  /** The fixed text of the script has no line breaks of its own. */
  lemma FixedTextNoLineBreak()
    ensures NoLineBreak("@echo off") && NoLineBreak("taskkill /F /IM ") && NoLineBreak("del /F /Q ")
    ensures NoLineBreak("move /Y ") && NoLineBreak(" ")
  {
  }

  lemma JoinNoLineBreak(a: string, b: string)
    requires NoLineBreak(a) && NoLineBreak(b)
    ensures NoLineBreak(a + b)
  {
    assert forall i :: |a| <= i < |a + b| ==> (a + b)[i] == b[i - |a|];
  }

  /** The files after `create_update_files`: the side file and the script are
      (over)written and nothing else changes. Both are opened in text mode,
      so files are kept as text here, unlike the byte files of the download;
      the text-to-bytes encoding is not modelled. */
  function CreateUpdateFiles(files: map<string, string>, tempPath: string, batPath: string,
                             oldPath: string, newPath: string): (r: map<string, string>)
    requires tempPath != batPath
    ensures r.Keys == files.Keys + {tempPath, batPath}
    ensures r[tempPath] == Descriptor(oldPath, newPath) && r[batPath] == Script(oldPath, newPath)
    ensures forall path :: path in files && path != tempPath && path != batPath ==> r[path] == files[path]
  {
    files[tempPath := Descriptor(oldPath, newPath)][batPath := Script(oldPath, newPath)]
  }

  // ---------------------------------------------------------------------------
  // How cmd.exe reads a command's arguments

  /** Characters that separate arguments outside double quotes. */
  predicate IsDelimiter(c: char) {
    c == ' ' || c == '\t' || c == ',' || c == ';' || c == '='
  }

  /** The arguments of a command line: separated by delimiters outside double
      quotes, with the quotes themselves dropped. `started` records that the
      current argument has begun, so that `""` is an empty argument. */
  function Args(s: string, inQuote: bool, cur: string, started: bool): seq<string>
    decreases |s|
  {
    if |s| == 0 then (if started then [cur] else [])
    else if s[0] == '"' then Args(s[1..], !inQuote, cur, true)
    else if !inQuote && IsDelimiter(s[0]) then (if started then [cur] else []) + Args(s[1..], false, "", false)
    else Args(s[1..], inQuote, cur + [s[0]], true)
  }

  function Tokens(line: string): seq<string> {
    Args(line, false, "", false)
  }

  predicate NoQuote(w: string) {
    forall i :: 0 <= i < |w| ==> w[i] != '"'
  }

  /** A word that needs no quoting. */
  predicate Plain(w: string) {
    |w| > 0 && NoQuote(w) && forall i :: 0 <= i < |w| ==> !IsDelimiter(w[i])
  }

  /** An argument as the corrected script writes it: in double quotes unless
      it is plain. */
  function Render(w: string): string {
    if Plain(w) then w else "\"" + w + "\""
  }

  /** Arguments separated by single spaces. */
  function CommandLine(ws: seq<string>): string {
    if |ws| == 0 then ""
    else if |ws| == 1 then Render(ws[0])
    else Render(ws[0]) + " " + CommandLine(ws[1..])
  }

  lemma {:induction false} PlainArgs(w: string, rest: string, cur: string, started: bool)
    requires NoQuote(w) && forall i :: 0 <= i < |w| ==> !IsDelimiter(w[i])
    ensures Args(w + rest, false, cur, started) == Args(rest, false, cur + w, started || |w| > 0)
    decreases |w|
  {
    if |w| > 0 {
      assert (w + rest)[0] == w[0] && (w + rest)[1..] == w[1..] + rest;
      assert cur + [w[0]] + w[1..] == cur + w;
      assert Args(w + rest, false, cur, started) == Args(w[1..] + rest, false, cur + [w[0]], true);
      PlainArgs(w[1..], rest, cur + [w[0]], true);
    } else {
      assert w + rest == rest && cur + w == cur;
    }
  }

  lemma {:induction false} QuotedArgs(w: string, rest: string, cur: string)
    requires NoQuote(w)
    ensures Args(w + "\"" + rest, true, cur, true) == Args(rest, false, cur + w, true)
    decreases |w|
  {
    if |w| > 0 {
      assert (w + "\"" + rest)[1..] == w[1..] + "\"" + rest;
      assert cur + [w[0]] + w[1..] == cur + w;
      QuotedArgs(w[1..], rest, cur + [w[0]]);
    } else {
      assert w + "\"" + rest == "\"" + rest;
      assert ("\"" + rest)[1..] == rest;
      assert cur + w == cur;
    }
  }

  lemma RenderArgs(w: string, rest: string)
    requires NoQuote(w)
    ensures Args(Render(w) + rest, false, "", false) == Args(rest, false, w, true)
  {
    if Plain(w) {
      PlainArgs(w, rest, "", false);
      assert "" + w == w;
    } else {
      var s := "\"" + w + "\"" + rest;
      assert s[1..] == w + "\"" + rest;
      QuotedArgs(w, rest, "");
      assert "" + w == w;
    }
  }

  /** cmd reads back exactly the arguments the corrected script writes, for
      any arguments without double quotes (which Windows paths never hold),
      spaces and empty arguments included. */
  lemma {:induction false} CommandLineTokens(ws: seq<string>)
    requires forall k :: 0 <= k < |ws| ==> NoQuote(ws[k])
    ensures Tokens(CommandLine(ws)) == ws
  {
    if |ws| == 1 {
      RenderArgs(ws[0], "");
      assert Render(ws[0]) + "" == Render(ws[0]);
    } else if |ws| > 1 {
      var rest := CommandLine(ws[1..]);
      RenderArgs(ws[0], " " + rest);
      assert Render(ws[0]) + " " + rest == Render(ws[0]) + (" " + rest);
      assert (" " + rest)[1..] == rest;
      CommandLineTokens(ws[1..]);
      assert ws == [ws[0]] + ws[1..];
    }
  }

  /** The script as written passes a path with a space in it, such as
      `C:\\My Apps\\a.exe`, to `del` as two arguments: `del` is asked to delete
      two files, neither of them the old program. */
  lemma AsWrittenSplitsPath(dir: string, name: string, newPath: string)
    requires Plain(dir) && Plain(name)
    ensures Tokens(ScriptLines(dir + " " + name, newPath)[2]) == ["del", "/F", "/Q", dir, name]
    ensures Tokens(ScriptLines(dir + " " + name, newPath)[2]) != Commands(dir + " " + name, newPath)[1]
  {
    var path := dir + " " + name;
    var words := ["del", "/F", "/Q"];
    JoinFour("del", "/F", "/Q", path, "del /F /Q ");
    assert words + [path] == ["del", "/F", "/Q", path];
    JoinSplitLast(words, dir, name);
    var ws := words + [dir, name];
    PlainSwitches();
    PlainCommandLine(ws);
    CommandLineTokens(ws);
  }

  lemma PlainSwitches()
    ensures Plain("del") && Plain("/F") && Plain("/Q")
  {
  }

  /** Joining by spaces cannot tell a last word with a space in it from two
      words. */
  lemma {:induction false} JoinSplitLast(ws: seq<string>, a: string, b: string)
    requires |ws| > 0
    ensures JoinWords(ws + [a + " " + b]) == JoinWords(ws + [a, b])
    decreases |ws|
  {
    if |ws| == 1 {
      assert (ws + [a + " " + b])[1..] == [a + " " + b];
      assert (ws + [a, b])[1..] == [a, b] && [a, b][1..] == [b];
      assert JoinWords([a + " " + b]) == a + " " + b && JoinWords([b]) == b;
      assert JoinWords([a, b]) == a + " " + b;
    } else {
      assert (ws + [a + " " + b])[1..] == ws[1..] + [a + " " + b];
      assert (ws + [a, b])[1..] == ws[1..] + [a, b];
      JoinSplitLast(ws[1..], a, b);
    }
  }

  /** The commands the script is meant to run, argument by argument. */
  function Commands(oldPath: string, newPath: string): seq<seq<string>> {
    [ ["taskkill", "/F", "/IM", Basename(oldPath)],
      ["del", "/F", "/Q", oldPath],
      ["move", "/Y", newPath, Dirname(oldPath)],
      [Basename(newPath)] ]
  }

  /** Words separated by single spaces, with no quoting. */
  function JoinWords(ws: seq<string>): string {
    if |ws| == 0 then ""
    else if |ws| == 1 then ws[0]
    else ws[0] + " " + JoinWords(ws[1..])
  }

  /** Four words, the first three fixed: the line starts with them and
      ends with the fourth. */
  lemma JoinFour(a: string, b: string, c: string, d: string, prefix: string)
    requires prefix == a + " " + b + " " + c + " "
    ensures JoinWords([a, b, c, d]) == prefix + d
  {
    JoinTwoAfter(a, b, c, d, a + " " + b + " ");
  }

  /** Four words, the first two fixed. */
  lemma JoinTwoAfter(a: string, b: string, c: string, d: string, prefix: string)
    requires prefix == a + " " + b + " "
    ensures JoinWords([a, b, c, d]) == prefix + c + " " + d
  {
    var ws := [a, b, c, d];
    assert ws[1..] == [b, c, d] && ws[1..][1..] == [c, d] && ws[1..][1..][1..] == [d];
    assert JoinWords([c, d]) == c + " " + d;
    assert JoinWords(ws) == a + " " + (b + " " + (c + " " + d));
  }

  /** Each line of the script as written is its command's words joined by
      spaces. */
  lemma ScriptJoinsCommands(oldPath: string, newPath: string)
    ensures |ScriptLines(oldPath, newPath)| == 5 && ScriptLines(oldPath, newPath)[0] == "@echo off"
    ensures forall k :: 0 <= k < 4 ==> ScriptLines(oldPath, newPath)[k + 1] == JoinWords(Commands(oldPath, newPath)[k])
  {
    var lines, cs := ScriptLines(oldPath, newPath), Commands(oldPath, newPath);
    JoinFour("taskkill", "/F", "/IM", Basename(oldPath), "taskkill /F /IM ");
    JoinFour("del", "/F", "/Q", oldPath, "del /F /Q ");
    JoinTwoAfter("move", "/Y", newPath, Dirname(oldPath), "move /Y ");
    assert lines[1] == JoinWords(cs[0]) && lines[2] == JoinWords(cs[1]) && lines[3] == JoinWords(cs[2]);
    assert lines[4] == JoinWords(cs[3]);
  }

  /** Plain words are written as they are. */
  lemma {:induction false} PlainCommandLine(ws: seq<string>)
    requires forall j :: 0 <= j < |ws| ==> Plain(ws[j])
    ensures CommandLine(ws) == JoinWords(ws)
  {
    if |ws| > 1 {
      PlainCommandLine(ws[1..]);
    }
  }

  /** The script with every argument rendered for cmd. */
  function QuotedScriptLines(oldPath: string, newPath: string): (lines: seq<string>)
    ensures |lines| == 5 && lines[0] == "@echo off"
    ensures forall k :: 0 <= k < 4 ==> lines[k + 1] == CommandLine(Commands(oldPath, newPath)[k])
  {
    var cs := Commands(oldPath, newPath);
    ["@echo off"] + seq(4, k requires 0 <= k < 4 => CommandLine(cs[k]))
  }

  /** In the corrected script every command receives the paths whole,
      whatever spaces they contain. */
  lemma QuotedScriptArgs(oldPath: string, newPath: string)
    requires NoQuote(oldPath) && NoQuote(newPath)
    ensures forall k :: 0 <= k < 4 ==> Tokens(QuotedScriptLines(oldPath, newPath)[k + 1]) == Commands(oldPath, newPath)[k]
  {
    PathParts(oldPath);
    PathParts(newPath);
    var bo, dold, bn := Basename(oldPath), Dirname(oldPath), Basename(newPath);
    assert NoQuote(bo) by {
      assert forall k :: 0 <= k < |bo| ==> bo[k] == oldPath[|oldPath| - |bo| + k];
    }
    assert NoQuote(dold) by {
      assert forall k :: 0 <= k < |dold| ==> dold[k] == oldPath[k];
    }
    assert NoQuote(bn) by {
      assert forall k :: 0 <= k < |bn| ==> bn[k] == newPath[|newPath| - |bn| + k];
    }
    var cs := Commands(oldPath, newPath);
    forall k | 0 <= k < 4
      ensures Tokens(CommandLine(cs[k])) == cs[k]
    {
      CommandLineTokens(cs[k]);
    }
  }

  /** Where no argument needs quoting the corrected script is the script as
      written. */
  lemma QuotingOnlyWhereNeeded(oldPath: string, newPath: string)
    requires forall k, j :: 0 <= k < 4 && 0 <= j < |Commands(oldPath, newPath)[k]| ==>
      Plain(Commands(oldPath, newPath)[k][j])
    ensures QuotedScriptLines(oldPath, newPath) == ScriptLines(oldPath, newPath)
  {
    var cs := Commands(oldPath, newPath);
    ScriptJoinsCommands(oldPath, newPath);
    forall k | 0 <= k < 4
      ensures CommandLine(cs[k]) == JoinWords(cs[k])
    {
      PlainCommandLine(cs[k]);
    }
  }
}
